=== FILE: README.md ===
# Vue dashboard generator: the self-repair and reconciliation core

`scripts/agent.js` asks a chat-completion model for a JSON description of a
Vue dashboard, with component files and one page file. It then repairs,
writes and reconciles what it receives:

- **Reply cleanup.** The reply is trimmed and its Markdown fence is
  stripped. The generator keeps the text from the first `{` to the last
  `}`. If there is no such text it asks once more, with a blunter prompt
  (`getSpecFromAI`).
- **Template repair.** Each component's code is run through the SFC
  compiler at most three times. After each rejection the first
  `<template>…</template>` region is rebuilt by a tag balancer. The
  balancer keeps a stack of open tags, drops stray closes and closes
  leftovers innermost first (`fixTemplate`, `generateComponents`).
- **Dependency reconciliation.** Every `.vue` file of the components
  directory is scanned for `import X from './components/Y.vue'`. A stub is
  written for every imported component that was not generated. If there
  were any, the generator asks once more for them, scans again and writes
  stubs for whatever is still missing (`findVueImportsInCode`,
  `validateAndStubMissingComponents`, `generateStubComponent`,
  `generateMissingComponentsWithAI`, `main`).
- **Page assembly.** Relative component imports are pointed at
  `./components/`. Import lines of components that were not generated are
  dropped, and the opening and closing tags of those components are erased
  (`generateAppFile`).

The model is functional Dafny, with one module per concern:

| module | file | models |
|---|---|---|
| `Base` | base.dfy | options, duplicate-free sequences, subsequences, `new Set`, `filter`, `indexOf`/`lastIndexOf`, the two variants |
| `Text` | text.dfy | the character classes of the regular expressions, `trim`, `split('\n')`/`join('\n')` |
| `Patterns` | patterns.dfy | the seven regular expressions applied globally, `exec` loops and `replace` with a replacer |
| `Balancer` | balancer.dfy | `fixTemplate` over the parser's callbacks |
| `Payload` | payload.dfy | fence stripping, JSON extraction and the retry of `getSpecFromAI` |
| `Files` | files.dfy | the components directory as named files, `path.basename` |
| `Sfc` | sfc.dfy | the template region, the splice, the repair loop and `generateComponents` |
| `Deps` | deps.dfy | the import scan, the missing set and the stubs |
| `App` | app.dfy | the transforms of `generateAppFile` |
| `Pipeline` | pipeline.dfy | `generateMissingComponentsWithAI` and the pass sequence of `main` |

Several outside collaborators are parameters of the model:

- The chat-completion service is a function `ask(k, request)`, which gives
  the reply to the `k`-th request of a run.
- The JSON5 parser is `parse`. It returns `None` where it would throw.
- The SFC compiler is the predicate `valid`.
- The HTML tokenizer is `lex`. It gives the sequence of `onopentag`,
  `ontext` and `onclosetag` callbacks, and whether the parser threw.
- The system prompt is the parameter `system`.

Two places in the code do something other than what was evidently meant
(see "## Findings"). The model has both behaviours. Every operation that
reaches either place takes a `Variant`: `AsWritten` is the code as it
stands, and `Corrected` is the intended behaviour. The repair loop, the
page, the follow-up round and the whole run are stated for both variants.

Some behaviours of the code that the model keeps:

- On a matching close, the balancer removes only the matched stack entry
  (`splice(last, 1)`). It does not pop the entries above it, so
  `<a><b></a>` becomes `<a><b></a></b>`.
- JSON extraction is greedy, from the first `{` to the last `}`. It is not
  a balanced scan.
- The import scan reads only `import … from './components/Y.vue'`
  statements. It does not scan inline tags, and it does not exclude a
  file's reference to itself.
- A run makes up to four model requests, two per `getSpecFromAI`.
- The page is not part of the dependency scan. Its imports are reconciled
  by the line filter, which keeps an import line exactly when its binding
  name was generated. The rewritten import uses the binding name for the
  file, giving `import B from './components/B.vue'`.
- The third repair of a component is written without being checked again.
- A file name whose base name is `""`, `.` or `..` makes
  `path.join(dir, name)` name a directory, so `writeFile` rejects and the
  run ends. The components before it are written, and no page is written.
  A page with such a name is not written either, nor is one whose base
  name is `components`, which names the `src/components` directory.
- When the page is written, the components directory is closed: every
  import in it names a generated component or one that has a stub.

## Model

| member | source | states |
|---|---|---|
| Base.Dedup | scripts/agent.js:254 | `[...new Set(xs)]` holds each element of `xs` exactly once and nothing else, in an order that is a subsequence of `xs` |
| Base.Without | scripts/agent.js:255 | filtering out the generated names keeps exactly the elements not among them, preserves duplicate-freedom and keeps the order |
| Text.Trim | scripts/agent.js:61 | the trimmed reply is a contiguous slice of the reply; everything cut off on either side is white space, and the result neither starts nor ends with white space |
| Text.JoinSplit | scripts/agent.js:238-245 | joining the lines of a text with `\n` gives back the text, so a filter that keeps every line leaves the page unchanged |
| Text.SplitJoin | scripts/agent.js:238-245 | splitting a join of newline-free lines gives back the same lines |
| Patterns.ImportHead | scripts/agent.js:286 | an import head read at `i` starts with `import` and a blank, binds a word, and ends at a quote further on |
| Patterns.HeadAccepts | scripts/agent.js:286 | conversely, wherever the text reads `import`, blanks, a word, blanks, `from`, blanks and a quote, the head is read there, with that word as binding and that quote |
| Patterns.HeadParts | scripts/agent.js:286 | an import head is `import`, blanks, the binding as a run of word characters, blanks, `from`, blanks and the quote, each run as long as it can be |
| Patterns.MatchSrcImport | scripts/agent.js:178 | a `src/components/` match starts with `from` and a blank and ends with a quote |
| Patterns.SrcImportReads | scripts/agent.js:178 | such a match reads a quote, `src/components/`, a non-empty quote-free path (group 1) and a closing quote |
| Patterns.SrcImportAccepts | scripts/agent.js:178 | conversely, wherever the text reads `from`, blanks, a quote, `src/components/`, a non-empty quote-free path and a quote, the expression matches there with that path as group 1 |
| Patterns.MatchRelativeImport | scripts/agent.js:230 | a relative `.vue` import has an import head whose binding is group 1, and a path after the quote of `.` or `./` not followed by `components/`, a word (group 2), `.vue` and a quote |
| Patterns.RelativeImportAccepts | scripts/agent.js:230 | conversely, an import head followed by `.` or `./`, a word not starting a `components/` directory, `.vue` and a quote is matched there, with the binding as group 1 and the word as group 2 |
| Patterns.RelativePathAccepts | scripts/agent.js:230 | after the head's quote, `.` or `./`, a word that does not start `components/`, `.vue` and a quote are read as the path, with the word's bounds |
| Patterns.MatchComponentsImport | scripts/agent.js:286 | a component import has an import head whose binding is group 1, and both groups are words |
| Patterns.ComponentsImportReads | scripts/agent.js:286 | after the head's quote a component import reads `./components/`, its group 2 as a run of word characters, `.vue` and a quote |
| Patterns.ComponentsImportAccepts | scripts/agent.js:286 | conversely, an import head followed by `./components/`, a word, `.vue` and a quote is matched there, with the binding as group 1 and the word as group 2 |
| Patterns.MatchCapitalTag | scripts/agent.js:247 | a tag match starts exactly where `<` is followed by a capital, and group 1 is the whole word after `<` |
| Patterns.MatchOpenMarker | scripts/agent.js:257 | an opening marker starts with `<` and the tag and runs to the first `>` after it, which must exist; with the word boundary, a word character after the tag rules it out |
| Patterns.MatchCloseMarker | scripts/agent.js:258 | a closing marker matches exactly where `</tag>` is written, and spans it |
| Patterns.Matches | scripts/agent.js:248-253 | every match a global `exec` loop reports is a match of the expression at the index it reports |
| Patterns.ScanComplete | scripts/agent.js:289-291 | when matches cannot overlap, the `exec` loop reports every match in the text |
| Patterns.CapitalTagsComplete | scripts/agent.js:248-253 | every `<Tag` start in the page is reported by the tag scan |
| Patterns.HeadsApart | scripts/agent.js:286 | a second import head cannot start inside the head of an earlier one |
| Patterns.ComponentsImportsComplete | scripts/agent.js:289-291 | every component import in the text, wherever it starts, is reported by the `exec` loop |
| Patterns.RelativeImportsComplete | scripts/agent.js:230 | every relative `.vue` import in the text, wherever it starts, is one of the matches `replace` rewrites |
| Patterns.Replace | scripts/agent.js:230-235 | a global `replace` with a replacer copies the text between matches and puts the replacer's result in place of each match, the matches taken left to right without overlap |
| Patterns.RewriteSpliced | scripts/agent.js:230-235 | the scan-and-rewrite loop produces exactly that copy with each reported match replaced |
| Patterns.RewriteByOwnText | scripts/agent.js:230-235 | a global `replace` whose replacer returns every match unchanged leaves the text unchanged |
| Patterns.RewriteShrinks | scripts/agent.js:177-180 | a replacer that always shortens a match never lengthens the text, and changes its length exactly when there is a match |
| Patterns.ScanCovers | scripts/agent.js:248-253 | every match of an expression in the text is reported by the `exec` loop or starts inside a reported match, and one reported at its own start is the one reported |
| Patterns.CloseMarkersComplete | scripts/agent.js:258-259 | every `</tag>` written in the text is a closing-marker match reported by the scan, so `replace` removes it |
| Patterns.OpenMarkersCovered | scripts/agent.js:257-259 | every opening-marker match in the text, with or without the word boundary, lies inside a reported match, so `replace` removes all of it |
| Patterns.DeleteIsSubseq | scripts/agent.js:259-260 | replacing every match by the empty string only deletes characters: the result is a subsequence of the text |
| Patterns.OpenMarkerNamesTag | scripts/agent.js:248-257 | with a word boundary after the name, an opening marker of a capitalised tag matches only where the tag scan reads that very name |
| Patterns.PrefixOpenMarkerOvershoots | scripts/agent.js:257 | the opening-marker expression as written, `<${tag}[^>]*>`, matches the whole opening tag of a longer name that starts with `tag`, which the tag scan reads as that longer name |
| Balancer.RemoveAt | scripts/agent.js:139 | `splice(i, 1)` removes exactly one occurrence of the entry at `i` and keeps all other entries in their order |
| Balancer.Step | scripts/agent.js:116-146 | an open pushes its name and is echoed; a text is echoed; a close whose name is on the stack removes its last occurrence, keeps the other entries in order, and is echoed; any other close is dropped and counted, changing nothing else |
| Balancer.Run | scripts/agent.js:116-146 | every callback is either echoed or counted as a dropped close |
| Balancer.PrefixBalancedPrefixes | scripts/agent.js:129-146 | a prefix-balanced sequence closes no name more often than it opens it, in any prefix |
| Balancer.RunTraces | scripts/agent.js:116-146 | after the callbacks the emitted tokens are a subsequence of them: every open and text token is emitted in order, only closes are dropped, each dropped close is counted, and the stack is exactly what is opened but not closed |
| Balancer.RunClean | scripts/agent.js:129-146 | no close is dropped exactly when no prefix of the input closes a name more often than it opens it, and then the input is echoed unchanged |
| Balancer.StackEmptyIff | scripts/agent.js:157-161 | when nothing was dropped, the stack is empty at the end exactly when every opened name was closed as often as opened |
| Balancer.CloseAll | scripts/agent.js:156-161 | closing the leftover stack, innermost first, balances the output and adds no open or text token |
| Balancer.Balance | scripts/agent.js:108-164 | in the emitted tokens no prefix closes a name more often than it opens it, every name is closed as often as it is opened, and the opens and texts are exactly the input's, in order |
| Balancer.Fix | scripts/agent.js:108-164 | `hasError` is raised exactly when the parser threw or the callbacks were not balanced; an unflagged template is rebuilt from its own callbacks unchanged |
| Balancer.BalanceIdentity | scripts/agent.js:108-164 | balanced callbacks come out unchanged |
| Balancer.BalanceIdempotent | scripts/agent.js:108-164 | balancing the balancer's output changes nothing |
| Balancer.SpliceExample | scripts/agent.js:129-141 | for `<a><b></a>` only the matched `a` entry leaves the stack, so `b` is closed after it: `<a><b></a></b>` |
| Balancer.RenderAppend | scripts/agent.js:116-146 | the template text is built by appending, so rendering two runs of callbacks one after the other gives the two renderings joined |
| Balancer.RenderAttrsAppend | scripts/agent.js:121-123 | the attributes are written one after another, in order |
| Payload.StripOpening | scripts/agent.js:63 | the leading-fence expression removes three backticks, then the language tag when it follows, then the longest of `\r\n`, `\r`, `\n` or nothing; the rest is kept, and a text without leading backticks is unchanged |
| Payload.StripClosing | scripts/agent.js:63 | the trailing-fence expression removes three final backticks and the longest of `\r\n`, `\r`, `\n` or nothing before them; the rest is kept, and a text without trailing backticks is unchanged |
| Payload.StripFences | scripts/agent.js:63 | fence stripping returns a contiguous slice of the text, and a text with no fence at either end is returned unchanged |
| Payload.StripFence | scripts/agent.js:63 | stripping undoes fencing: a payload fenced as ```` ```json\n…\n``` ```` comes back exactly, unless it ends in `\r` |
| Payload.ObjectSpan | scripts/agent.js:65 | the greedy match spans from the first `{` to the last `}`, and there is none exactly when no `}` follows a `{` |
| Payload.Extract | scripts/agent.js:65-66 | the extracted text starts with `{` and ends with `}`, and is absent exactly when no `}` follows a `{` |
| Payload.Clean | scripts/agent.js:61-66 | the cleaned reply is absent exactly when the trimmed, unfenced reply has no `{` before a `}`, and otherwise starts with `{` and ends with `}` |
| Payload.GetSpec | scripts/agent.js:53-79 | one call makes one or two requests, the second only when retrying is on and the first reply held no JSON; the retry is the same user prompt plus the fixed suffix; the result is what the last reply held |
| Files.Read | scripts/agent.js:306 | reading a name fails exactly when no file of that name is listed |
| Files.Write | scripts/agent.js:213 | after a write the name holds the new content, every other name reads as before, file names stay unique and a new name is listed last |
| Files.WriteAllLists | scripts/agent.js:172-216 | every name written in a sequence of writes is listed afterwards |
| Files.WriteAllLastWins | scripts/agent.js:172-216 | after a sequence of writes a name holds what its last write wrote |
| Files.WriteAllKeepsOthers | scripts/agent.js:172-216 | a name never written reads as before |
| Files.Basename | scripts/agent.js:212 | the base name holds no `/`, and a name without slashes is its own base name |
| Files.BasenameLastSegment | scripts/agent.js:212 | the base name is the last segment once trailing slashes are dropped: it ends that text and is all of it or follows a `/` |
| Files.BasenameWithout | scripts/agent.js:374 | as Node computes `path.basename(p, '.vue')`: a suffix longer than the path is ignored and a path equal to it gives `""`; a base name ending in `.vue` and longer than it loses it; a base name that is a proper ending of `.vue` keeps the path's trailing slashes; any other base name is returned as it is |
| Files.BasenameWithoutSlash | scripts/agent.js:374 | the name holds a `/` only when the path ends in `/` and its last segment is a proper ending of `.vue` |
| Files.BasenameWithoutKeepsSlash | scripts/agent.js:374 | `vue/` with suffix `.vue` gives `vue/` |
| Files.BasenameWithoutLastSegment | scripts/agent.js:374 | `a/e/` with suffix `.vue` gives `e/` |
| Sfc.TemplateRegion | scripts/agent.js:182 | the region starts at the first `<template>` and ends at the first `</template>` after it, and there is none exactly when no `</template>` follows a `<template>` |
| Sfc.Inner | scripts/agent.js:193-194 | the region is `<template>`, the inner text and `</template>` |
| Sfc.Prepare | scripts/agent.js:174-180 | the prepared code is the trimmed, unfenced content with every reported `src/components/` import replaced, left to right, by its relative form and the text between kept; it is never longer, and equals it exactly when it imports nothing from `src/components/` |
| Sfc.Splice | scripts/agent.js:199 | after the splice the code still has a region starting at the same place, with the same text before and after it |
| Sfc.SpliceAsWrittenIsSplice | scripts/agent.js:199 | the splice as written is the literal splice of the repaired template after `$` substitution, with the matched region, the text before it and the text after it as `$&`, `` $` `` and `$'` |
| Sfc.SpliceAsWrittenPastesSuffix | scripts/agent.js:199 | as written, a repaired template `$'` puts the text after the region into the new region as well |
| Sfc.SpliceAsWrittenPlain | scripts/agent.js:199 | when the repaired template holds no `$`, the repair as written is the literal splice |
| Sfc.Substitute | scripts/agent.js:199 | a replacement string without `$` is inserted literally |
| Sfc.SubstituteBetween | scripts/agent.js:199 | the `$`-free tags around the repaired template stay literal under substitution |
| Sfc.Resplice | scripts/agent.js:199 | in both variants the splice keeps the region's start and the text before and after it, and it is the literal splice in the corrected variant or when the repaired template holds no `$` |
| Sfc.RelativeFromRewrite | scripts/agent.js:177-180 | the `src/components/` rewrite never lengthens the code, and changes it exactly when there is such an import |
| Sfc.Repair | scripts/agent.js:182-205 | in both variants: the compiler is consulted at most three times; an accepted code is valid; an unrepairable code with a region is checked three times; without a region the code is checked once and kept unchanged; code accepted at a check is returned unchanged; with a region the text around it is kept |
| Sfc.Generate | scripts/agent.js:173-205 | each component is checked between one and three times, and is only reported valid when the compiler accepts the code written; prepared code the compiler accepts is written unchanged after one check; prepared code without a region is written unchanged; otherwise the text around the region is kept, and a component reported invalid was checked three times |
| Sfc.Writable | scripts/agent.js:212-213 | the count of components that can be written is the index of the first whose base name names the directory (`""`, `.`, `..`), or all of them: every earlier base name is a file name |
| Sfc.GenerateAll | scripts/agent.js:172-216 | writing the components keeps file names unique |
| Sfc.GenerateAllWrites | scripts/agent.js:172-216 | every component's file is listed afterwards, valid or not; a name holds the code of the last component written under it; any other file is as it was |
| Deps.FindVueImportsExact | scripts/agent.js:285-293 | a name is reported exactly when some component import in the code, wherever it starts, has it as its file name (group 2) |
| Deps.FindsEveryImport | scripts/agent.js:284-293 | any `import X from './components/Y.vue'` written in the code, with the blanks the expression allows, puts `Y` among the found imports |
| Deps.FindsImportLine | scripts/agent.js:285-293 | the scan of `import B from './components/Y.vue'` reports exactly `Y` |
| Deps.AllImports | scripts/agent.js:303-308 | every collected import is a non-empty word |
| Deps.AllImportsMembers | scripts/agent.js:302-308 | a name is among the collected imports exactly when some `.vue` file of the directory imports it |
| Deps.Missing | scripts/agent.js:304-309 | the missing names are duplicate-free and are exactly the imported names not generated, in first-seen order |
| Deps.Stub | scripts/agent.js:273-276 | a stub is written as `<name>.vue`; its content is exactly the red `div` opening, then `Stub: <name>` and the closing tags, then the `<script setup>` block holding only a comment |
| Deps.StubImportsNothing | scripts/agent.js:273-276 | a stub imports no component: the import scan finds nothing in it |
| Deps.StubsAddNoImport | scripts/agent.js:301-314 | every import found after stubbing was found before it, since the stubs import nothing |
| Deps.StubbedClosed | scripts/agent.js:301-314 | after stubbing, every import in the directory is a generated name or one that was reported missing |
| Deps.StubNamesDistinct | scripts/agent.js:310-312 | distinct missing names give distinct stub files |
| Deps.ValidateAndStub | scripts/agent.js:301-314 | it reports exactly the missing set, and afterwards every imported name is generated or has its stub file listed |
| Deps.ValidateAndStubWrites | scripts/agent.js:309-312 | each missing name's file holds its stub, and every file that is not a stub file is as it was |
| App.NormalizeRewritesEach | scripts/agent.js:230-235 | the normalised page is the page with every relative `.vue` import replaced, left to right: by `import B from './components/B.vue'` when its binding `B` was generated, and by itself otherwise; every such import in the page is among those replaced |
| App.NormalizeUnlisted | scripts/agent.js:230-235 | a page whose relative imports all bind names that were not generated comes out unchanged |
| App.NormalizeRetargets | scripts/agent.js:230-235 | `import B from './B.vue'` becomes `import B from './components/B.vue'` exactly when `B` was generated, and the import scan then reads `B` from it; otherwise it is unchanged |
| App.ImportBinding | scripts/agent.js:239 | a line is a `.vue` import exactly when it starts with an import head followed by a quote, a path and `.vue` and a quote on the same line; the binding is a word |
| App.KeepLines | scripts/agent.js:238-245 | each line is kept as often as it occurs when it is not a `.vue` import or its binding was generated, and not at all otherwise; the survivors keep their order |
| App.KeptLinesAllowed | scripts/agent.js:238-245 | the filtered page, read back line by line, holds no import of a component that was not generated |
| App.Filtered | scripts/agent.js:225-245 | every line of the page after normalisation and filtering is kept by the filter |
| App.TagsToRemove | scripts/agent.js:254-255 | the tags to remove are duplicate-free |
| App.TagsToRemoveMembers | scripts/agent.js:248-255 | a tag is removed exactly when it was not generated and the page opens it somewhere |
| App.Delete | scripts/agent.js:259-260 | `replace(p, '')` cuts out the matches the scan reports, taken left to right without overlap, and keeps the text between them; so it only deletes characters |
| App.StripTag | scripts/agent.js:256-261 | with the word boundary, removing one tag first cuts every reported opening marker out of the page and keeps the text between, then does the same with every reported `</tag>` of that text; so it only deletes characters |
| App.StripTagAsWritten | scripts/agent.js:256-261 | as written, removing one tag first cuts every reported match of `<tag[^>]*>` out of the page and keeps the text between, then does the same with every reported `</tag>` of that text; so it only deletes characters |
| App.StripTagIn | scripts/agent.js:256-261 | in either variant, removing one tag cuts the reported opening markers of that variant and then the reported `</tag>` of what is left, keeping the text between |
| App.StripTagErases | scripts/agent.js:256-261 | in either variant every opening marker of the tag in the page lies inside a match that is cut, and every `</tag>` left after the opening markers are gone is a match that is cut |
| App.StripTags | scripts/agent.js:256-261 | in either variant, removing the tags one after another only deletes characters |
| App.StripTagsAppend | scripts/agent.js:256-261 | the tags are removed in list order: removing a list of tags followed by another is removing the first list, then the second from its result |
| App.StripTagsStage | scripts/agent.js:256-261 | the `j`-th tag is removed from the page left by the tags before it, and the tags after it are removed from that result |
| App.StripTagSparesOthers | scripts/agent.js:257 | with the word boundary, the removal of `Tag` never starts at the opening of a tag with another name |
| App.StripTagAsWrittenErasesLonger | scripts/agent.js:257-259 | as written, removing `Card` erases the whole opening tag `<CardList>` |
| App.StripTagKeepsLonger | scripts/agent.js:257-259 | with the word boundary, removing `Card` leaves `<CardList>` intact |
| App.AppCode | scripts/agent.js:224-261 | in either variant, the page text is the filtered text with characters deleted only |
| App.RemovedTag | scripts/agent.js:248-255 | each tag to remove is a word, was not generated, and is opened by a capitalised tag in the filtered page |
| App.AppCodeStrips | scripts/agent.js:224-261 | in either variant, for every tag to remove, which is a word not generated and opened in the filtered page: the page text is the filtered page with the tags before it removed, then that tag's markers removed, then the tags after it |
| App.AppCodeDeletesOnly | scripts/agent.js:224-261 | in either variant, the page text only loses characters to the tag removal; the filtered text, read line by line, imports no component that was not generated; when every capitalised tag in it was generated it is written unchanged |
| App.Page | scripts/agent.js:263-264 | the page is written under the base name of its file name, which holds no `/` |
| Pipeline.UserSpec | scripts/agent.js:368 | the first user message is the lead-in `Descripción del dashboard: "`, then the dashboard description unchanged, then a closing double quote |
| Pipeline.MissingLines | scripts/agent.js:328 | there is one line per missing name, in order, reading `- `, the name and `.vue`; a name without a line break gives a line without one |
| Pipeline.MissingPrompt | scripts/agent.js:328 | the follow-up message is exactly the first user message, the request for components only, and the missing-name lines joined by line breaks: it starts with the first two, ends with the joined lines, and is as long as the three together |
| Pipeline.SpecNames | scripts/agent.js:374 | the k-th name is the base name of the k-th component's file name with `.vue` removed, one name per component |
| Pipeline.FollowUp | scripts/agent.js:325-337 | in both variants the follow-up makes one or two requests, the first asking for the missing components by name; an unreadable reply ends the run with the directory untouched; a reply without a component array writes and adds nothing; otherwise the reply's components are written in order up to the first whose write fails, which ends the run, and when all are written their names, in order, are what the round adds |
| Pipeline.PageOf | scripts/agent.js:263-264 | a page is written exactly when the specification has one and its base name neither names the directory nor is `components`, the directory already under `src`; it is written under that base name |
| Pipeline.Finish | scripts/agent.js:374-390 | in both variants: the first check reports exactly the imported names not generated; no request is made when nothing is missing, and otherwise the next request asks for the missing set; when the page is written, every import found by the last check and every import in the final directory names a kept name, and every kept name was generated or has a stub file |
| Pipeline.FinishNames | scripts/agent.js:374-390 | the names generated before the follow-up stay first in the kept list, and a written page is the page built from the kept names, which are the generated names followed by those the last check still found missing |
| Pipeline.FinishRounds | scripts/agent.js:376-388 | with nothing missing at the first check, the generated names are kept as they are, the final directory is the stubbed one and the page is built from those names; otherwise the follow-up round runs on the stubbed directory and its requests come next; if it ends the run no page is written and the directory is the one it left, else its names are appended and the final directory is a second check and stubbing over the directory it wrote |
| Pipeline.Run | scripts/agent.js:346-390 | in both variants: a run makes one to four requests, the first for the dashboard description, and at most two when nothing was missing; when something was missing, one request asks for it; when the page is written, every import in the final directory, and every one the last check found, names a kept name, and every kept name was generated or has a stub file |
| Pipeline.Proceed | scripts/agent.js:370-390 | after the first reply's requests come at most two more, the next asking for the missing set when something is missing and none otherwise; the closure of a written page holds as for the whole run |
| Pipeline.RunStops | scripts/agent.js:370-374 | a first reply that is unreadable or has no component array leaves the directory as it was, generates nothing and writes no page; when some component's write fails, the components before it are written and the run stops with no page |
| Pipeline.RunFinishes | scripts/agent.js:372-390 | when every component of the first reply is written, the kept names start with the components' names in reply order, the first check reads the freshly written directory, and a written page is built from the generated names followed by those still missing |
| Pipeline.RunHandsOver | scripts/agent.js:372-378 | when every component of the first reply is written, the rest of the run is the dependency check and follow-up on the written directory with the components' names |

## Left out

- The chat-completion transport (scripts/agent.js:54-60), the model name and the `last-ai-response.json` side file (:68) are not modelled. The service is the parameter `ask`.
- The JSON5 parser (:89) is the parameter `parse`. The error report of `parseSpec` (:91-97) is console output and is left out.
- The SFC compiler (`parseVueSFC`, :188) is the predicate `valid`. The last compiler error is only logged, so it is left out.
- htmlparser2's tokenization and entity decoding (:116-154) are the parameter `lex`. Only its callbacks, and whether it threw, are modelled.
- Console output, `process.exit` and the uncaught rejection of a failed write (a run that ends early is an outcome with no page), `Date.now()` project paths and the template copy are left out. The initial components directory is a parameter.
- The order of the directory listing (:302): on POSIX systems `fs.readdir` returns the names in the sorted order of libuv's `scandir`, while the model lists files in the order they were created. Which names are missing does not depend on it, but the order of the missing names, and so of the stubs and of the follow-up prompt's lines, may differ from the program's.
- Environment and command-line handling (dotenv, the API-key check, yargs; :19-42, 347-357) are left out. The system prompt built from the style list by constants/prompts.js is the parameter `system`; constants/prompts.js is not part of this model.
- The pages directory is reduced to the one page file the run writes.
- Pipeline.PageOf: the page's write also fails when its base name is some other directory that the project template places under `src`; the template (templates/vue-dashboard) is not part of this model, so only `components`, which the run itself creates, is modelled.
- Content that is not a string (a `TypeError` on `.trim()`), and a `components` value that is not an array in the first pass (`for…of` throws), end the run with no page.
- In the code, if a component had a region before the loop but lost it during repair, `code.match(…)[0]` (:193) would throw. This cannot happen in the model, because both splices keep the region. The fallback is not modelled.
- Base.Dedup: states duplicate-freedom, the same members and subsequence order, but not that each element appears at its first occurrence.
- Deps.FindVueImportsExact: states which names the scan reports, not how often or in which order. The order does reach the order of the missing names, the stubs and the follow-up prompt, which the listing-order line above already leaves unstated.
- App.AppCodeDeletesOnly: states deletion only. What is deleted is stated tag by tag by App.AppCodeStrips, App.StripTagIn and App.StripTagErases.
- App.StripTags and App.AppCode: their own contracts state deletion only. The order of removal is stated by App.StripTagsAppend and App.StripTagsStage, and the page by App.AppCodeStrips.
- Sfc.GenerateAll: states only that file names stay unique. What is written is stated by Sfc.GenerateAllWrites.

## Findings

| source | as written | input that shows it | evidently intended | confidence | as-written member | corrected member |
|---|---|---|---|---|---|---|
| scripts/agent.js:199 | The repaired template is spliced in with a string replacement, so `$'`, `` $` ``, `$&` and `$$` in it are expanded by `replace` | A component whose compiler check fails and whose repaired template is the text `$'`. The new region then contains the code that follows the region | The repaired template is inserted literally | medium, not executed | Sfc.SpliceAsWrittenPastesSuffix | Sfc.Splice |
| scripts/agent.js:257 | The opening-marker expression `<${tag}[^>]*>` has no word boundary after the tag name | Page text `<Card/><CardList>` with `Card` not generated and `CardList` generated. The tag scan collects `Card`, and removing it erases `<CardList>` as well but leaves its `</CardList>` | Only opening tags of `tag` itself are removed (`<${tag}\b[^>]*>`) | high, not executed | App.StripTagAsWrittenErasesLonger | App.StripTagKeepsLonger |

=== FILE: app.dfy ===
/** The page file (`generateAppFile`): the model's `App.vue` with its fence
    stripped, relative component imports pointed at `./components/`, import
    lines of components that were not generated dropped, and the opening and
    closing tags of those components erased from the text. */
module App {
  import opened Base
  import opened Text
  import opened Patterns
  import opened Files
  import Payload
  import Sfc
  import Deps

  /** The rewrite of one relative import: to `./components/` when its
      binding names a generated component, unchanged otherwise. */
  function Retarget(names: seq<string>, h: Hit): string {
    if h.group1 in names then Deps.ImportLine(h.group1, h.group1) else h.text
  }

  /** The first `replace` of `generateAppFile`. */
  function NormalizeImports(code: string, names: seq<string>): string {
    Replace(RelativeVueImport, code, h => Retarget(names, h))
  }

  /** Text whose relative imports all bind names outside `names` comes out
      of the normalisation unchanged; in particular nothing changes when no
      component was generated. */
  lemma NormalizeUnlisted(code: string, names: seq<string>)
    requires forall k :: 0 <= k < |code| && MatchAt(RelativeVueImport, code, k).Some? ==>
               MatchAt(RelativeVueImport, code, k).value.group1 !in names
    ensures NormalizeImports(code, names) == code
  {
    var t := Table(RelativeVueImport, code);
    RewriteByOwnText(code, t, 0, h => Retarget(names, h));
  }

  /** Every relative `.vue` import of `code`, wherever it starts, is among
      the scanned matches, and the normalisation is exactly those matches,
      each replaced by its retargeted form, with the text between them
      copied. */
  lemma NormalizeRewritesEach(code: string, names: seq<string>)
    ensures forall k :: 0 <= k < |code| && MatchAt(RelativeVueImport, code, k).Some? ==>
              MatchAt(RelativeVueImport, code, k).value in Matches(RelativeVueImport, code)
    ensures Ordered(code, Matches(RelativeVueImport, code), 0)
    ensures NormalizeImports(code, names) == Spliced(code, Matches(RelativeVueImport, code), h => Retarget(names, h), 0)
  {
    forall k | 0 <= k < |code| && MatchAt(RelativeVueImport, code, k).Some?
      ensures MatchAt(RelativeVueImport, code, k).value in Matches(RelativeVueImport, code)
    {
      RelativeImportsComplete(code, k);
    }
    RewriteSpliced(code, Table(RelativeVueImport, code), 0, h => Retarget(names, h));
  }

  /** `import b from './b.vue'`: a relative import of component `b`. */
  function RelativeLine(b: string): string {
    Deps.ImportOf(b, "./" + b + ".vue")
  }

  /** A relative import of a generated component is pointed at
      `./components/`, where the dependency check reads it; one of any other
      component is left alone. */
  lemma NormalizeRetargets(b: string, names: seq<string>)
    requires Word(b)
    ensures b in names ==> NormalizeImports(RelativeLine(b), names) == Deps.ImportLine(b, b)
    ensures b in names ==> Deps.FindVueImports(NormalizeImports(RelativeLine(b), names)) == [b]
    ensures b !in names ==> NormalizeImports(RelativeLine(b), names) == RelativeLine(b)
  {
    var s := RelativeLine(b);
    var h := RelativeLineMatch(b);
    var t := Table(RelativeVueImport, s);
    var f := (x: Hit) => Retarget(names, x);
    assert t[0] == Some(h);
    assert Rewrite(s, t, |s|, f) == "";
    assert Rewrite(s, t, 0, f) == Retarget(names, h);
    if b in names {
      Deps.FindsImportLine(b, b);
    }
  }

  lemma RelativeLineMatch(b: string) returns (h: Hit)
    requires Word(b)
    ensures MatchAt(RelativeVueImport, RelativeLine(b), 0) == Some(h)
    ensures h.text == RelativeLine(b) && h.group1 == b
  {
    RelativeLineParts(b);
    h := RelativeMatch(RelativeLine(b), b);
  }

  /** `s` is `import b from './b.vue'`, read the way the import matcher
      reads it. */
  predicate RelativeLaidOut(s: string, b: string) {
    var n := |b|;
    Deps.HeadLaidOut(s, b) && |s| == 21 + 2 * n
    && s[14 + n] == '.' && s[15 + n] == '/'
    && s[16 + n..16 + 2 * n] == b && HasAt(s, 16 + 2 * n, ".vue") && s[20 + 2 * n] == '\''
    && forall k :: 16 + n <= k < |s| ==> s[k] != '/'
  }

  lemma RelativeMatch(s: string, b: string) returns (h: Hit)
    requires Word(b) && RelativeLaidOut(s, b)
    ensures MatchAt(RelativeVueImport, s, 0) == Some(h)
    ensures h.text == s && h.group1 == b
  {
    var n := |b|;
    var q, e, f := 13 + n, 16 + n, 16 + 2 * n;
    Deps.LaidOutHead(s, b);
    RelativeWord(s, b);
    assert !HasAt(s, e, "components/") by {
      HasAtChar(s, e, "components/", 10);
    }
    assert s[q + 1] == '.' && s[q + 2] == '/';
    assert HasAt(s, f, ".vue") && IsQuote(s[f + 4]);
    RelativeMatchAt(s, b, q, f);
    assert f + 5 == |s| && s[0..f + 5] == s && s[q + 3..f] == b;
    h := Hit(0, |s|, s, b, b);
  }

  /** The relative-import matcher at 0, step by step. */
  lemma RelativeMatchAt(s: string, b: string, q: nat, f: nat)
    requires ImportHead(s, 0) == Some(Head(b, q)) && q + 3 <= f && f + 4 < |s|
    requires s[q + 1] == '.' && s[q + 2] == '/' && !HasAt(s, q + 3, "components/")
    requires SkipWord(s, q + 3) == f && f > q + 3 && HasAt(s, f, ".vue") && IsQuote(s[f + 4])
    ensures MatchAt(RelativeVueImport, s, 0) == Some(Hit(0, f + 5, s[0..f + 5], b, s[q + 3..f]))
  {
    RelativePathAt(s, q, f);
    RelativeHitAt(s, b, q, f);
  }

  /** The relative import with head `Head(b, q)` and path word `[q + 3, f)`. */
  lemma RelativeHitAt(s: string, b: string, q: nat, f: nat)
    requires Word(b) && 0 < q < |s| && Patterns.RelativePath(s, q) == Some((q + 3, f))
    ensures RelativeHit(s, 0, Head(b, q)) == Some(Hit(0, f + 5, s[0..f + 5], b, s[q + 3..f]))
  {
  }

  /** The path reading after the quote, step by step. */
  lemma RelativePathAt(s: string, q: nat, f: nat)
    requires q + 3 <= f && f + 4 < |s|
    requires s[q + 1] == '.' && s[q + 2] == '/' && !HasAt(s, q + 3, "components/")
    requires SkipWord(s, q + 3) == f && f > q + 3 && HasAt(s, f, ".vue") && IsQuote(s[f + 4])
    ensures Patterns.RelativePath(s, q) == Some((q + 3, f))
  {
    var e := q + 3;
    assert !(q + 1 >= |s| || s[q + 1] != '.');
    assert (if q + 2 < |s| && s[q + 2] == '/' then q + 3 else q + 2) == e;
    assert !(HasAt(s, e, "components/") || f == e || !HasAt(s, f, ".vue") || f + 4 == |s| || !IsQuote(s[f + 4]));
  }

  lemma RelativeWord(s: string, b: string)
    requires Word(b) && RelativeLaidOut(s, b)
    ensures SkipWord(s, 16 + |b|) == 16 + 2 * |b|
  {
    SkipWordAt(s, 16 + |b|, b);
  }

  lemma RelativeLineParts(b: string)
    requires Word(b)
    ensures RelativeLaidOut(RelativeLine(b), b)
  {
    var s, n := RelativeLine(b), |b|;
    var p := "./" + b + ".vue";
    Deps.ImportOfParts(b, p);
    RelativePath(b);
    var w := s[14 + n..14 + n + |p|];
    assert w == p;
    assert s[14 + n] == p[0] && s[15 + n] == p[1];
    assert s[16 + n..16 + 2 * n] == p[2..2 + n];
    assert s[16 + 2 * n..20 + 2 * n] == p[2 + n..];
    forall k | 16 + n <= k < |s|
      ensures s[k] != '/'
    {
      if k < 20 + 2 * n {
        assert s[k] == p[k - 14 - n];
      }
    }
  }

  lemma RelativePath(b: string)
    ensures var p := "./" + b + ".vue";
      p[0] == '.' && p[1] == '/' && p[2..2 + |b|] == b && p[2 + |b|..] == ".vue"
      && (Word(b) ==> forall k :: 2 <= k < |p| ==> p[k] != '/')
  {
    var p := "./" + b + ".vue";
    assert p[2 + |b|..] == ".vue";
    if Word(b) {
      forall k | 2 <= k < |p|
        ensures p[k] != '/'
      {
        if k < 2 + |b| {
          assert p[k] == b[k - 2];
        } else {
          assert p[k] == p[2 + |b|..][k - 2 - |b|];
        }
      }
    }
  }

  /** After the opening quote at `q`: one or more characters other than line
      terminators, `.vue` and a quote (`(.+)\.vue['"]`, backtracking over
      the run). */
  predicate VueTail(line: string, q: nat) {
    exists j :: q + 2 <= j && j + 4 < |line| && HasAt(line, j, ".vue") && IsQuote(line[j + 4])
      && forall k :: q + 1 <= k < j ==> !IsLineTerminator(line[k])
  }

  /** The binding (group 1) of `^import\s+(\w+)\s+from\s+['"](.+)\.vue['"]`
      on one line, if the line starts with such an import. */
  function ImportBinding(line: string): (r: Option<string>)
    ensures r.Some? ==> Word(r.value) && HasAt(line, 0, "import")
    ensures r.Some? <==> ImportHead(line, 0).Some? && VueTail(line, ImportHead(line, 0).value.quote)
  {
    match ImportHead(line, 0)
    case None => None
    case Some(h) => if VueTail(line, h.quote) then Some(h.binding) else None
  }

  /** Whether the line filter keeps `line`. */
  predicate Keeps(names: seq<string>, line: string) {
    match ImportBinding(line)
    case None => true
    case Some(b) => b in names
  }

  /** The line filter of `generateAppFile`: import lines of components not
      in `names` go, every other line stays, in order. */
  function KeepLines(lines: seq<string>, names: seq<string>): (r: seq<string>)
    ensures forall l :: l in r <==> l in lines && Keeps(names, l)
    ensures forall l :: multiset(r)[l] == if Keeps(names, l) then multiset(lines)[l] else 0
    ensures IsSubseq(r, lines)
    decreases |lines|
  {
    if |lines| == 0 then []
    else
      var rest := KeepLines(lines[1..], names);
      assert forall l :: l in lines <==> l == lines[0] || l in lines[1..];
      assert lines == [lines[0]] + lines[1..];
      assert multiset(lines) == multiset([lines[0]]) + multiset(lines[1..]);
      if Keeps(names, lines[0]) then [lines[0]] + rest else rest
  }

  /** The text after the line filter, read back line by line, holds no import
      line of a component outside `names`. */
  lemma KeptLinesAllowed(code: string, names: seq<string>)
    ensures forall l :: l in Split(Join(KeepLines(Split(code), names))) ==> Keeps(names, l)
  {
    var kept := KeepLines(Split(code), names);
    if |kept| == 0 {
      assert Split("") == [""];
      assert ImportHead("", 0).None?;
    } else {
      forall i | 0 <= i < |kept|
        ensures '\n' !in kept[i]
      {
        assert kept[i] in Split(code);
      }
      SplitJoin(kept);
    }
  }

  /** The capitalised tag names the template scan collects, first
      occurrences first. */
  function UsedTags(code: string): seq<string> {
    var hs := Matches(CapitalTag, code);
    Dedup(seq(|hs|, k requires 0 <= k < |hs| => hs[k].group1))
  }

  /** `usedTags.filter(tag => !generatedComponentNames.includes(tag))`. */
  function TagsToRemove(code: string, names: seq<string>): (r: seq<string>)
    ensures NoDup(r)
  {
    Without(UsedTags(code), names)
  }

  /** A tag is removed exactly when some `<Tag` opens it in the text and it
      was not generated. */
  lemma TagsToRemoveMembers(code: string, names: seq<string>, tag: string)
    ensures tag in TagsToRemove(code, names) <==>
      tag !in names && exists k :: 0 <= k < |code| && MatchAt(CapitalTag, code, k).Some? && MatchAt(CapitalTag, code, k).value.group1 == tag
  {
    var hs := Matches(CapitalTag, code);
    var g := seq(|hs|, k requires 0 <= k < |hs| => hs[k].group1);
    if tag in g {
      var i :| 0 <= i < |g| && g[i] == tag;
      assert hs[i] in hs;
      assert MatchAt(CapitalTag, code, hs[i].start) == Some(hs[i]);
    }
    if k :| 0 <= k < |code| && MatchAt(CapitalTag, code, k).Some? && MatchAt(CapitalTag, code, k).value.group1 == tag {
      CapitalTagsComplete(code, k);
      var i :| 0 <= i < |hs| && hs[i] == MatchAt(CapitalTag, code, k).value;
      assert g[i] == tag;
    }
  }

  /** Erases every match. */
  function Erase(h: Hit): (r: string)
    ensures r == ""
  {
    ""
  }

  /** `text.replace(p, '')` for a global `p`: the scanned matches are cut
      out and the text between them is kept. */
  function Delete(p: Pattern, s: string): (r: string)
    ensures IsSubseq(r, s)
    ensures Ordered(s, Matches(p, s), 0) && r == Spliced(s, Matches(p, s), Erase, 0)
  {
    DeleteIsSubseq(s, Table(p, s), 0, Erase);
    assert s[0..] == s;
    Replace(p, s, Erase)
  }

  /** The removal of one tag with the word boundary after its name: its
      opening tags are cut out, then the `</tag>`s of what is left. */
  function StripTag(s: string, tag: string): (r: string)
    ensures IsSubseq(r, s)
    ensures Ordered(s, Matches(OpenMarker(tag), s), 0)
    ensures var a := Spliced(s, Matches(OpenMarker(tag), s), Erase, 0);
      Ordered(a, Matches(CloseMarker(tag), a), 0) && r == Spliced(a, Matches(CloseMarker(tag), a), Erase, 0)
  {
    var a := Delete(OpenMarker(tag), s);
    var b := Delete(CloseMarker(tag), a);
    SubseqTrans(b, a, s);
    b
  }

  /** The removal of one tag as `generateAppFile` writes it, without the word
      boundary: every `<tag…>`, even of a longer name, then every `</tag>`. */
  function StripTagAsWritten(s: string, tag: string): (r: string)
    ensures IsSubseq(r, s)
    ensures Ordered(s, Matches(PrefixOpenMarker(tag), s), 0)
    ensures var a := Spliced(s, Matches(PrefixOpenMarker(tag), s), Erase, 0);
      Ordered(a, Matches(CloseMarker(tag), a), 0) && r == Spliced(a, Matches(CloseMarker(tag), a), Erase, 0)
  {
    var a := Delete(PrefixOpenMarker(tag), s);
    var b := Delete(CloseMarker(tag), a);
    SubseqTrans(b, a, s);
    b
  }

  /** The opening-tag expression of variant `v`: without the word boundary
      as written, with it when corrected. */
  function OpenerIn(v: Variant, tag: string): Pattern {
    Opener(v == Corrected, tag)
  }

  /** The removal of one tag in variant `v`. */
  function StripTagIn(v: Variant, s: string, tag: string): (r: string)
    ensures IsSubseq(r, s)
    ensures Ordered(s, Matches(OpenerIn(v, tag), s), 0)
    ensures var a := Spliced(s, Matches(OpenerIn(v, tag), s), Erase, 0);
      Ordered(a, Matches(CloseMarker(tag), a), 0) && r == Spliced(a, Matches(CloseMarker(tag), a), Erase, 0)
  {
    if v == Corrected then StripTag(s, tag) else StripTagAsWritten(s, tag)
  }

  /** What the removal of one tag erases: every opening tag of `tag` lies
      inside a match that is cut out, and every `</tag>` of the text left
      after that is itself a match that is cut out. */
  lemma StripTagErases(v: Variant, s: string, tag: string)
    requires Word(tag)
    ensures forall k :: 0 <= k < |s| && MatchAt(OpenerIn(v, tag), s, k).Some? ==>
      exists h :: h in Matches(OpenerIn(v, tag), s) && h.start <= k && MatchAt(OpenerIn(v, tag), s, k).value.end <= h.end
    ensures var a := Delete(OpenerIn(v, tag), s);
      forall k :: 0 <= k < |a| && HasAt(a, k, "</" + tag + ">") ==>
        MatchAt(CloseMarker(tag), a, k).Some? && MatchAt(CloseMarker(tag), a, k).value in Matches(CloseMarker(tag), a)
  {
    var p := OpenerIn(v, tag);
    forall k | 0 <= k < |s| && MatchAt(p, s, k).Some?
      ensures exists h :: h in Matches(p, s) && h.start <= k && MatchAt(p, s, k).value.end <= h.end
    {
      OpenMarkersCovered(v == Corrected, tag, s, k);
    }
    var a := Delete(p, s);
    forall k | 0 <= k < |a| && HasAt(a, k, "</" + tag + ">")
      ensures MatchAt(CloseMarker(tag), a, k).Some? && MatchAt(CloseMarker(tag), a, k).value in Matches(CloseMarker(tag), a)
    {
      CloseMarkersComplete(tag, a, k);
    }
  }

  /** Stripping the tags one after another only deletes characters. */
  function StripTags(v: Variant, s: string, tags: seq<string>): (r: string)
    ensures IsSubseq(r, s)
    decreases |tags|
  {
    if |tags| == 0 then
      SubseqRefl(s);
      s
    else
      var a := StripTagIn(v, s, tags[0]);
      var b := StripTags(v, a, tags[1..]);
      SubseqTrans(b, a, s);
      b
  }

  /** Stripping the tags of `a + b` strips those of `a` first, then those of
      `b` from what is left. */
  lemma {:induction false} StripTagsAppend(v: Variant, s: string, a: seq<string>, b: seq<string>)
    ensures StripTags(v, s, a + b) == StripTags(v, StripTags(v, s, a), b)
    decreases |a|
  {
    if |a| == 0 {
      assert a + b == b;
    } else {
      assert (a + b)[0] == a[0] && (a + b)[1..] == a[1..] + b;
      StripTagsAppend(v, StripTagIn(v, s, a[0]), a[1..], b);
    }
  }

  /** Tag `tags[j]` is stripped from the text the earlier tags left, and the
      later ones from what that leaves. */
  lemma StripTagsStage(v: Variant, s: string, tags: seq<string>, j: nat)
    requires j < |tags|
    ensures StripTags(v, s, tags) == StripTags(v, StripTagIn(v, StripTags(v, s, tags[..j]), tags[j]), tags[j + 1..])
  {
    var rest := tags[j..];
    assert tags == tags[..j] + rest;
    StripTagsAppend(v, s, tags[..j], rest);
    var before := StripTags(v, s, tags[..j]);
    assert rest[0] == tags[j] && rest[1..] == tags[j + 1..];
    assert StripTags(v, before, rest) == StripTags(v, StripTagIn(v, before, rest[0]), rest[1..]);
  }

  /** With the word boundary, stripping `tag` never starts at the opening of
      another capitalised tag, in particular not at a generated one. */
  lemma StripTagSparesOthers(tag: string, s: string, i: nat)
    requires Word(tag) && IsUpper(tag[0])
    requires MatchAt(CapitalTag, s, i).Some? && MatchAt(CapitalTag, s, i).value.group1 != tag
    ensures MatchAt(OpenMarker(tag), s, i).None?
  {
    if MatchAt(OpenMarker(tag), s, i).Some? {
      OpenMarkerNamesTag(tag, s, i);
    }
  }

  /** As written, removing `Card` erases the whole opening tag `<CardList>`
      of a different component. */
  lemma StripTagAsWrittenErasesLonger(tag: string, rest: string)
    requires Word(tag) && IsUpper(tag[0]) && Word(rest)
    ensures MatchAt(CapitalTag, "<" + tag + rest + ">", 0).value.group1 == tag + rest
    ensures StripTagAsWritten("<" + tag + rest + ">", tag) == ""
  {
    var s := "<" + tag + rest + ">";
    PrefixOpenMarkerOvershoots(tag, rest);
    var t := Table(PrefixOpenMarker(tag), s);
    assert t[0].value.end == |s|;
    assert Rewrite(s, t, |s|, Erase) == "";
    assert Rewrite(s, t, 0, Erase) == "";
    assert Delete(PrefixOpenMarker(tag), s) == "";
    assert Delete(CloseMarker(tag), "") == "";
  }

  /** With the word boundary, the opening tag `<CardList>` survives the
      removal of `Card`. */
  lemma StripTagKeepsLonger(tag: string, rest: string)
    requires Word(tag) && IsUpper(tag[0]) && Word(rest)
    ensures StripTag("<" + tag + rest + ">", tag) == "<" + tag + rest + ">"
  {
    var s := "<" + tag + rest + ">";
    LongerTagHasNoMarker(tag, rest);
    RewriteByOwnText(s, Table(OpenMarker(tag), s), 0, Erase);
    assert s[0..] == s;
    RewriteByOwnText(s, Table(CloseMarker(tag), s), 0, Erase);
  }

  lemma LongerTagHasNoMarker(tag: string, rest: string)
    requires Word(tag) && IsUpper(tag[0]) && Word(rest)
    ensures forall k :: 0 <= k < |tag| + |rest| + 2 ==> MatchAt(OpenMarker(tag), "<" + tag + rest + ">", k).None?
    ensures forall k :: 0 <= k < |tag| + |rest| + 2 ==> MatchAt(CloseMarker(tag), "<" + tag + rest + ">", k).None?
  {
    var s := "<" + tag + rest + ">";
    var n := 1 + |tag|;
    OnlyFirstOpens(tag, rest);
    forall k | 0 <= k < |s|
      ensures MatchAt(OpenMarker(tag), s, k).None?
    {
      if k == 0 {
        assert s[1..n + |rest|] == tag + rest;
        assert s[n] == s[1..n + |rest|][|tag|];
      } else {
        HasAtChar(s, k, "<" + tag, 0);
      }
    }
    assert s[1] == tag[0];
    forall k | 0 <= k < |s|
      ensures MatchAt(CloseMarker(tag), s, k).None?
    {
      var m := "</" + tag + ">";
      HasAtChar(s, k, m, 0);
      HasAtChar(s, k, m, 1);
    }
  }

  /** Only the first character of `<` + a word + `>` is a `<`. */
  lemma OnlyFirstOpens(tag: string, rest: string)
    requires Word(tag) && Word(rest)
    ensures forall k :: 1 <= k < |tag| + |rest| + 2 ==> ("<" + tag + rest + ">")[k] != '<'
  {
    var s := "<" + tag + rest + ">";
    var w := tag + rest;
    assert s[1..1 + |w|] == w;
    forall k | 1 <= k < |s|
      ensures s[k] != '<'
    {
      if k <= |w| {
        assert s[k] == w[k - 1];
      }
    }
  }

  /** The page text before the tag removal: unfenced, imports normalised and
      import lines filtered. */
  function Filtered(content: string, names: seq<string>): (r: string)
    ensures forall l :: l in Split(r) ==> Keeps(names, l)
  {
    var normalized := NormalizeImports(Payload.StripFences(Trim(content), "vue"), names);
    KeptLinesAllowed(normalized, names);
    Join(KeepLines(Split(normalized), names))
  }

  /** The text `generateAppFile` writes for page content `content`: the
      filtered text with characters deleted only. */
  function AppCode(v: Variant, content: string, names: seq<string>): (r: string)
    ensures IsSubseq(r, Filtered(content, names))
  {
    var filtered := Filtered(content, names);
    StripTags(v, filtered, TagsToRemove(filtered, names))
  }

  /** The tag removal only deletes characters from the filtered text, whose
      lines import no component outside `names`; when every capitalised tag
      of the filtered text was generated, nothing is removed. */
  lemma AppCodeDeletesOnly(v: Variant, content: string, names: seq<string>)
    ensures IsSubseq(AppCode(v, content, names), Filtered(content, names))
    ensures forall l :: l in Split(Filtered(content, names)) ==> Keeps(names, l)
    ensures var f := Filtered(content, names);
      (forall k :: 0 <= k < |f| && MatchAt(CapitalTag, f, k).Some? ==> MatchAt(CapitalTag, f, k).value.group1 in names)
      ==> AppCode(v, content, names) == f
  {
    var f := Filtered(content, names);
    var tags := TagsToRemove(f, names);
    if |tags| > 0 {
      TagsToRemoveMembers(f, names, tags[0]);
    }
  }

  /** The page text strips the tags to remove one at a time: the `j`-th is
      a word that was not generated and that some `<Tag` of the filtered
      text opens, and it is stripped from what the earlier ones left. */
  lemma AppCodeStrips(v: Variant, content: string, names: seq<string>, j: nat)
    ensures var f := Filtered(content, names); var tags := TagsToRemove(f, names);
      j < |tags| ==>
        Word(tags[j]) && tags[j] !in names
        && (exists k :: 0 <= k < |f| && MatchAt(CapitalTag, f, k).Some? && MatchAt(CapitalTag, f, k).value.group1 == tags[j])
        && AppCode(v, content, names) == StripTags(v, StripTagIn(v, StripTags(v, f, tags[..j]), tags[j]), tags[j + 1..])
  {
    var f := Filtered(content, names);
    var tags := TagsToRemove(f, names);
    if j < |tags| {
      assert AppCode(v, content, names) == StripTags(v, f, tags);
      RemovedTag(f, names, j);
      StripTagsStage(v, f, tags, j);
    }
  }

  /** A tag to remove is a word that was not generated and that some `<Tag`
      of the text opens. */
  lemma RemovedTag(f: string, names: seq<string>, j: nat)
    requires j < |TagsToRemove(f, names)|
    ensures var tag := TagsToRemove(f, names)[j];
      Word(tag) && tag !in names
      && exists k :: 0 <= k < |f| && MatchAt(CapitalTag, f, k).Some? && MatchAt(CapitalTag, f, k).value.group1 == tag
  {
    var tag := TagsToRemove(f, names)[j];
    TagsToRemoveMembers(f, names, tag);
    var k :| 0 <= k < |f| && MatchAt(CapitalTag, f, k).Some? && MatchAt(CapitalTag, f, k).value.group1 == tag;
    assert Word(MatchCapitalTag(f, k).value.group1);
  }

  /** The page file: written under the basename of the spec's file name. */
  function Page(v: Variant, app: Sfc.FileSpec, names: seq<string>): (r: File)
    ensures r.name == Basename(app.filename) && '/' !in r.name
  {
    File(Basename(app.filename), AppCode(v, app.content, names))
  }
}

=== FILE: balancer.dfy ===
/** The template tag balancer (`fixTemplate`). The HTML parser is reduced to
    the callbacks it makes — open tag, text, close tag — and whether it threw;
    the balancer echoes opens and text, echoes a close only when a tag of that
    name is still open (removing the most recent such entry from its stack,
    and nothing above it), drops every other close, and finally closes what is
    left open, innermost first. */
module Balancer {
  import opened Base

  datatype Attr = Attr(key: string, value: string)

  /** One parser callback: `onopentag`, `ontext` or `onclosetag`. */
  datatype Token = Open(name: string, attrs: seq<Attr>) | Text(text: string) | Close(name: string)

  /** What the HTML parser reports for a template: its callbacks in order, and
      whether `write` or `end` threw part way. */
  datatype Lexed = Lexed(tokens: seq<Token>, threw: bool)

  /** The balancer after some callbacks: the open tags (most recent last), the
      tokens emitted so far and the number of close tags dropped. */
  datatype State = State(stack: seq<string>, out: seq<Token>, stray: nat)

  datatype Fixed = Fixed(fixedTemplate: string, hasError: bool)

  /** The names opened in `ts`, with multiplicity. */
  function OpenNames(ts: seq<Token>): multiset<string>
    decreases |ts|
  {
    if |ts| == 0 then multiset{}
    else OpenNames(ts[..|ts| - 1]) + (if ts[|ts| - 1].Open? then multiset{ts[|ts| - 1].name} else multiset{})
  }

  /** The names closed in `ts`, with multiplicity. */
  function CloseNames(ts: seq<Token>): multiset<string>
    decreases |ts|
  {
    if |ts| == 0 then multiset{}
    else CloseNames(ts[..|ts| - 1]) + (if ts[|ts| - 1].Close? then multiset{ts[|ts| - 1].name} else multiset{})
  }

  /** The open and text tokens of `ts`, in order. */
  function NonCloses(ts: seq<Token>): seq<Token>
    decreases |ts|
  {
    if |ts| == 0 then []
    else NonCloses(ts[..|ts| - 1]) + (if ts[|ts| - 1].Close? then [] else [ts[|ts| - 1]])
  }

  /** No prefix of `ts` closes a name more often than it opens it. */
  predicate PrefixBalanced(ts: seq<Token>)
    decreases |ts|
  {
    |ts| == 0 || (PrefixBalanced(ts[..|ts| - 1]) && CloseNames(ts) <= OpenNames(ts))
  }

  /** Every name is closed as often as it is opened, and never early. */
  predicate Balanced(ts: seq<Token>) {
    PrefixBalanced(ts) && OpenNames(ts) == CloseNames(ts)
  }

  /** The one-token unfoldings of the definitions above. */
  lemma Snoc(ts: seq<Token>, t: Token)
    ensures OpenNames(ts + [t]) == OpenNames(ts) + (if t.Open? then multiset{t.name} else multiset{})
    ensures CloseNames(ts + [t]) == CloseNames(ts) + (if t.Close? then multiset{t.name} else multiset{})
    ensures NonCloses(ts + [t]) == NonCloses(ts) + (if t.Close? then [] else [t])
    ensures PrefixBalanced(ts + [t]) <==> PrefixBalanced(ts) && CloseNames(ts + [t]) <= OpenNames(ts + [t])
  {
    assert (ts + [t])[..|ts|] == ts;
  }

  /** `PrefixBalanced` means what it says about every prefix. */
  lemma {:induction false} PrefixBalancedPrefixes(ts: seq<Token>, i: nat)
    requires PrefixBalanced(ts) && i <= |ts|
    ensures CloseNames(ts[..i]) <= OpenNames(ts[..i])
    decreases |ts|
  {
    if i == |ts| {
      assert ts[..i] == ts;
    } else {
      var p := ts[..|ts| - 1];
      assert p[..i] == ts[..i];
      PrefixBalancedPrefixes(p, i);
    }
  }

  /** `stack.splice(i, 1)`: exactly the entry at `i` goes, the rest keep their order. */
  function RemoveAt(stack: seq<string>, i: nat): (r: seq<string>)
    requires i < |stack|
    ensures |r| == |stack| - 1
    ensures forall j :: 0 <= j < i ==> r[j] == stack[j]
    ensures forall j :: i < j < |stack| ==> r[j - 1] == stack[j]
    ensures multiset(r) == multiset(stack) - multiset{stack[i]}
  {
    assert stack == stack[..i] + [stack[i]] + stack[i + 1..];
    stack[..i] + stack[i + 1..]
  }

  /** The balancer's response to one callback. */
  function Step(st: State, t: Token): (r: State)
    ensures !t.Close? ==> r.stray == st.stray && r.out == st.out + [t]
    ensures t.Open? ==> r.stack == st.stack + [t.name]
    ensures t.Text? ==> r.stack == st.stack
    ensures t.Close? ==> (r.stray == st.stray <==> t.name in st.stack)
    ensures t.Close? && t.name in st.stack ==>
      multiset(r.stack) == multiset(st.stack) - multiset{t.name} && r.out == st.out + [t]
    ensures t.Close? && t.name in st.stack ==>
      exists i :: 0 <= i < |st.stack| && st.stack[i] == t.name && t.name !in st.stack[i + 1..]
        && r.stack == st.stack[..i] + st.stack[i + 1..]
    ensures t.Close? && t.name !in st.stack ==> r.stack == st.stack && r.out == st.out && r.stray == st.stray + 1
  {
    match t
    case Open(n, _) => State(st.stack + [n], st.out + [t], st.stray)
    case Text(_) => State(st.stack, st.out + [t], st.stray)
    case Close(n) =>
      match LastIndexOf(st.stack, n)
      case Some(i) => State(RemoveAt(st.stack, i), st.out + [t], st.stray)
      case None => State(st.stack, st.out, st.stray + 1)
  }

  /** What the output so far has opened and not yet closed is exactly the
      stack, and no prefix of the output closes early. */
  predicate Accounted(st: State) {
    PrefixBalanced(st.out) && OpenNames(st.out) == CloseNames(st.out) + multiset(st.stack)
  }

  /** How the emitted tokens relate to the callbacks consumed. */
  predicate Traces(st: State, ts: seq<Token>) {
    Accounted(st) && IsSubseq(st.out, ts) && |ts| == |st.out| + st.stray
    && NonCloses(st.out) == NonCloses(ts)
  }

  lemma StepAccounted(st: State, t: Token)
    requires Accounted(st)
    ensures Accounted(Step(st, t))
  {
    Snoc(st.out, t);
  }

  lemma StepTraces(st: State, p: seq<Token>, t: Token)
    requires Traces(st, p)
    ensures Traces(Step(st, t), p + [t])
  {
    StepAccounted(st, t);
    var r := Step(st, t);
    Snoc(st.out, t);
    Snoc(p, t);
    if r.out == st.out {
      SubseqExtendRight(st.out, p, t);
    } else {
      SubseqAppendBoth(st.out, p, t);
    }
  }

  /** The balancer after all the callbacks of `ts`. */
  function Run(ts: seq<Token>): (r: State)
    ensures |r.out| + r.stray == |ts|
    decreases |ts|
  {
    if |ts| == 0 then State([], [], 0) else Step(Run(ts[..|ts| - 1]), ts[|ts| - 1])
  }

  lemma RunSnoc(ts: seq<Token>, t: Token)
    ensures Run(ts + [t]) == Step(Run(ts), t)
  {
    assert (ts + [t])[..|ts|] == ts;
  }

  /** The run keeps the open tags accounted for, emits the callbacks minus
      the dropped closes, and never drops an open or a text. */
  lemma {:induction false} RunTraces(ts: seq<Token>)
    ensures Traces(Run(ts), ts)
    decreases |ts|
  {
    if |ts| == 0 {
      SubseqEmpty<Token>([]);
    } else {
      var p, t := ts[..|ts| - 1], ts[|ts| - 1];
      RunTraces(p);
      StepTraces(Run(p), p, t);
      assert ts == p + [t];
    }
  }

  /** The closes emitted at the end, most recently opened first. */
  function Closers(stack: seq<string>): (r: seq<Token>)
    ensures |r| == |stack|
    ensures forall k :: 0 <= k < |r| ==> r[k] == Close(stack[|stack| - 1 - k])
    decreases |stack|
  {
    if |stack| == 0 then [] else [Close(stack[|stack| - 1])] + Closers(stack[..|stack| - 1])
  }

  /** Closing what is left open on an accounted state balances the output
      without adding any open or text token. */
  lemma {:induction false} CloseAll(out: seq<Token>, stack: seq<string>)
    requires Accounted(State(stack, out, 0))
    ensures Balanced(out + Closers(stack))
    ensures NonCloses(out + Closers(stack)) == NonCloses(out)
    decreases |stack|
  {
    if |stack| == 0 {
      assert out + Closers(stack) == out;
    } else {
      var top, rest := stack[|stack| - 1], stack[..|stack| - 1];
      var out' := out + [Close(top)];
      assert stack == rest + [top];
      Snoc(out, Close(top));
      assert OpenNames(out') == CloseNames(out') + multiset(rest);
      CloseAll(out', rest);
      assert out + Closers(stack) == out' + Closers(rest);
    }
  }

  /** The tokens `fixTemplate` emits for the callbacks `ts`. */
  function Balance(ts: seq<Token>): (r: seq<Token>)
    ensures Balanced(r)
    ensures NonCloses(r) == NonCloses(ts)
  {
    var st := Run(ts);
    RunTraces(ts);
    CloseAll(st.out, st.stack);
    st.out + Closers(st.stack)
  }

  /** No close is dropped exactly when the input never closes early, and then
      the input is echoed unchanged. */
  lemma {:induction false} RunClean(ts: seq<Token>)
    ensures Run(ts).stray == 0 <==> PrefixBalanced(ts)
    ensures Run(ts).stray == 0 ==> Run(ts).out == ts
    decreases |ts|
  {
    if |ts| > 0 {
      var p, t := ts[..|ts| - 1], ts[|ts| - 1];
      assert ts == p + [t];
      RunClean(p);
      RunTraces(p);
      Snoc(p, t);
      var st := Run(p);
      assert Run(ts) == Step(st, t);
      if st.stray == 0 && t.Close? {
        var n := t.name;
        var m := multiset(st.stack);
        assert OpenNames(p) == CloseNames(p) + m;
        if n in st.stack {
          assert CloseNames(p + [t]) <= OpenNames(p + [t]) by {
            assert multiset{n} <= m;
          }
        } else {
          assert m[n] == 0;
          assert CloseNames(p + [t])[n] > OpenNames(p + [t])[n];
        }
      }
    }
  }

  /** The stack is left empty exactly when a clean run has closed every name
      it opened. */
  lemma StackEmptyIff(ts: seq<Token>)
    ensures Run(ts).stray == 0 ==> (|Run(ts).stack| == 0 <==> OpenNames(ts) == CloseNames(ts))
  {
    RunClean(ts);
    RunTraces(ts);
    var st := Run(ts);
    if st.stray == 0 && OpenNames(ts) == CloseNames(ts) {
      assert multiset(st.stack) == multiset{};
    }
  }

  /** Balanced callbacks are echoed unchanged. */
  lemma BalanceIdentity(ts: seq<Token>)
    requires Balanced(ts)
    ensures Balance(ts) == ts
  {
    RunClean(ts);
    StackEmptyIff(ts);
  }

  /** `fixTemplate`: the template rebuilt from the balanced callbacks, and a
      flag raised exactly when the parser threw or the callbacks were not
      balanced, so that an unflagged template comes back unchanged. */
  function Fix(l: Lexed): (r: Fixed)
    ensures r.hasError <==> l.threw || !Balanced(l.tokens)
    ensures !r.hasError ==> r.fixedTemplate == Render(l.tokens)
    ensures r.fixedTemplate == Render(Balance(l.tokens))
  {
    var st := Run(l.tokens);
    RunClean(l.tokens);
    StackEmptyIff(l.tokens);
    assert st.stray == 0 && |st.stack| == 0 ==> st.out + Closers(st.stack) == l.tokens;
    Fixed(Render(st.out + Closers(st.stack)), l.threw || st.stray > 0 || |st.stack| > 0)
  }

  /** Balancing twice is balancing once. */
  lemma BalanceIdempotent(ts: seq<Token>)
    ensures Balance(Balance(ts)) == Balance(ts)
  {
    BalanceIdentity(Balance(ts));
  }

  /** A matched close removes only its own entry: a tag opened after it stays
      open and is closed at the end, so `<a><b></a>` becomes `<a><b></a></b>`. */
  lemma SpliceExample(a: string, b: string)
    requires a != b
    ensures Balance([Open(a, []), Open(b, []), Close(a)])
         == [Open(a, []), Open(b, []), Close(a), Close(b)]
  {
    SpliceRun(a, b);
    assert Closers([b]) == [Close(b)];
  }

  /** The state behind the example above: only `b` is left open. */
  lemma SpliceRun(a: string, b: string)
    requires a != b
    ensures Run([Open(a, []), Open(b, []), Close(a)]) == State([b], [Open(a, []), Open(b, []), Close(a)], 0)
  {
    var oa, ob, ca := Open(a, []), Open(b, []), Close(a);
    var s1, s2 := State([a], [oa], 0), State([a, b], [oa, ob], 0);
    assert [] + [oa] == [oa] && [] + [a] == [a];
    RunAfter([], oa, State([], [], 0), s1);
    assert [oa] + [ob] == [oa, ob] && [a] + [b] == [a, b];
    RunAfter([oa], ob, s1, s2);
    assert [oa, ob] + [ca] == [oa, ob, ca];
    ClosesFirst(a, b, [oa, ob]);
    RunAfter([oa, ob], ca, s2, State([b], [oa, ob, ca], 0));
  }

  /** One more callback moves the run on by one step. */
  lemma RunAfter(ts: seq<Token>, t: Token, st: State, next: State)
    requires Run(ts) == st && Step(st, t) == next
    ensures Run(ts + [t]) == next
  {
    RunSnoc(ts, t);
  }

  /** Closing the first of two open names leaves only the second open. */
  lemma ClosesFirst(a: string, b: string, out: seq<Token>)
    requires a != b
    ensures Step(State([a, b], out, 0), Close(a)) == State([b], out + [Close(a)], 0)
  {
    assert LastIndexOf([a, b], a) == Some(0) by {
      assert [a, b][..1] == [a];
      assert [a][..0] == [];
    }
    assert RemoveAt([a, b], 0) == [b];
  }

  /** ` key="value"` for each attribute, in order. */
  function RenderAttrs(attrs: seq<Attr>): string
    decreases |attrs|
  {
    if |attrs| == 0 then ""
    else " " + attrs[0].key + "=\"" + attrs[0].value + "\"" + RenderAttrs(attrs[1..])
  }

  function RenderToken(t: Token): string {
    match t
    case Open(n, attrs) => "<" + n + RenderAttrs(attrs) + ">"
    case Text(s) => s
    case Close(n) => "</" + n + ">"
  }

  /** The template text the emitted tokens add up to. */
  function Render(ts: seq<Token>): string
    decreases |ts|
  {
    if |ts| == 0 then "" else RenderToken(ts[0]) + Render(ts[1..])
  }

  /** The attributes render one after another. */
  lemma {:induction false} RenderAttrsAppend(a: seq<Attr>, b: seq<Attr>)
    ensures RenderAttrs(a + b) == RenderAttrs(a) + RenderAttrs(b)
    decreases |a|
  {
    if |a| > 0 {
      assert (a + b)[1..] == a[1..] + b;
      RenderAttrsAppend(a[1..], b);
    } else {
      assert a + b == b;
    }
  }

  /** The template text is built callback by callback: rendering two runs
      of callbacks one after the other renders each in turn. */
  lemma {:induction false} RenderAppend(a: seq<Token>, b: seq<Token>)
    ensures Render(a + b) == Render(a) + Render(b)
    decreases |a|
  {
    if |a| > 0 {
      assert (a + b)[1..] == a[1..] + b;
      RenderAppend(a[1..], b);
    } else {
      assert a + b == b;
    }
  }
}

=== FILE: base.dfy ===
/** Small shared vocabulary: an optional value and the sequence operations the
    pipeline performs on JavaScript arrays (`new Set(...)` de-duplication,
    `filter` against a name list, order-preserving deletion). */
module Base {

  datatype Option<+T> = None | Some(value: T)

  /** The two readings of the generator the model carries. `AsWritten` is the
      code as it stands; `Corrected` repairs its two string-handling defects:
      the repaired template is spliced in literally rather than through the
      `$` patterns of `String.prototype.replace`, and the removal of an
      opening tag stops at a word boundary after the tag name. */
  datatype Variant = AsWritten | Corrected

  /** No element occurs twice. */
  predicate NoDup<T(==)>(s: seq<T>) {
    forall i, j :: 0 <= i < j < |s| ==> s[i] != s[j]
  }

  /** `a` is obtained from `b` by deleting elements, keeping the order of the rest. */
  predicate IsSubseq<T(==)>(a: seq<T>, b: seq<T>)
    decreases |b|
  {
    if |b| == 0 then |a| == 0
    else (|a| > 0 && a[0] == b[0] && IsSubseq(a[1..], b[1..])) || IsSubseq(a, b[1..])
  }

  /** `Array.from(new Set(s))`: the distinct elements of `s` in order of first occurrence. */
  function Dedup<T(==,!new)>(s: seq<T>): (r: seq<T>)
    ensures NoDup(r)
    ensures forall x :: x in r <==> x in s
    ensures IsSubseq(r, s)
    decreases |s|
  {
    if |s| == 0 then []
    else
      var d := Dedup(s[..|s| - 1]);
      var x := s[|s| - 1];
      assert s == s[..|s| - 1] + [x];
      if x in d then
        SubseqExtendRight(d, s[..|s| - 1], x);
        d
      else
        SubseqAppendBoth(d, s[..|s| - 1], x);
        d + [x]
  }

  /** `s.filter(x => !excluded.includes(x))`. */
  function Without<T(==,!new)>(s: seq<T>, excluded: seq<T>): (r: seq<T>)
    ensures forall x :: x in r <==> x in s && x !in excluded
    ensures NoDup(s) ==> NoDup(r)
    ensures IsSubseq(r, s)
    decreases |s|
  {
    if |s| == 0 then []
    else if s[0] in excluded then
      var r := Without(s[1..], excluded);
      assert forall x :: x in s <==> x == s[0] || x in s[1..];
      r
    else
      var r := Without(s[1..], excluded);
      assert forall x :: x in s <==> x == s[0] || x in s[1..];
      assert NoDup(s) ==> s[0] !in s[1..] by {
        if NoDup(s) {
          assert forall k :: 0 <= k < |s[1..]| ==> s[1..][k] == s[k + 1] != s[0];
        }
      }
      [s[0]] + r
  }

  /** `s.indexOf(x)`: the first index holding `x`. */
  function IndexOf<T(==)>(s: seq<T>, x: T): (r: Option<nat>)
    ensures r.Some? ==> r.value < |s| && s[r.value] == x && x !in s[..r.value]
    ensures r.None? <==> x !in s
    decreases |s|
  {
    if |s| == 0 then None
    else if s[0] == x then Some(0)
    else
      assert s == [s[0]] + s[1..];
      match IndexOf(s[1..], x)
      case None => None
      case Some(i) =>
        assert s[..i + 1] == [s[0]] + s[1..][..i];
        Some(i + 1)
  }

  /** `s.lastIndexOf(x)`: the last index holding `x`. */
  function LastIndexOf<T(==)>(s: seq<T>, x: T): (r: Option<nat>)
    ensures r.Some? ==> r.value < |s| && s[r.value] == x && x !in s[r.value + 1..]
    ensures r.None? <==> x !in s
    decreases |s|
  {
    if |s| == 0 then None
    else if s[|s| - 1] == x then Some(|s| - 1)
    else
      assert s == s[..|s| - 1] + [s[|s| - 1]];
      match LastIndexOf(s[..|s| - 1], x)
      case None => None
      case Some(i) =>
        assert s[i + 1..] == s[..|s| - 1][i + 1..] + [s[|s| - 1]];
        Some(i)
  }

  lemma {:induction false} SubseqRefl<T>(a: seq<T>)
    ensures IsSubseq(a, a)
    decreases |a|
  {
    if |a| > 0 {
      SubseqRefl(a[1..]);
    }
  }

  lemma {:induction false} SubseqEmpty<T>(b: seq<T>)
    ensures IsSubseq([], b)
    decreases |b|
  {
    if |b| > 0 {
      SubseqEmpty(b[1..]);
    }
  }

  /** Appending to the longer side keeps a subsequence a subsequence. */
  lemma {:induction false} SubseqExtendRight<T>(a: seq<T>, b: seq<T>, x: T)
    requires IsSubseq(a, b)
    ensures IsSubseq(a, b + [x])
    decreases |b|
  {
    if |b| == 0 {
      SubseqEmpty([x]);
    } else {
      assert (b + [x])[1..] == b[1..] + [x];
      if |a| > 0 && a[0] == b[0] && IsSubseq(a[1..], b[1..]) {
        SubseqExtendRight(a[1..], b[1..], x);
      } else {
        SubseqExtendRight(a, b[1..], x);
      }
    }
  }

  lemma {:induction false} SubseqAppendBoth<T>(a: seq<T>, b: seq<T>, x: T)
    requires IsSubseq(a, b)
    ensures IsSubseq(a + [x], b + [x])
    decreases |b|
  {
    if |b| == 0 {
      assert a == [];
      SubseqRefl([x]);
      assert a + [x] == [x] && b + [x] == [x];
    } else {
      assert (b + [x])[1..] == b[1..] + [x];
      if |a| > 0 && a[0] == b[0] && IsSubseq(a[1..], b[1..]) {
        SubseqAppendBoth(a[1..], b[1..], x);
        assert (a + [x])[1..] == a[1..] + [x];
      } else {
        SubseqAppendBoth(a, b[1..], x);
      }
    }
  }

  /** Subsequences concatenate. */
  lemma {:induction false} SubseqConcat<T>(a1: seq<T>, b1: seq<T>, a2: seq<T>, b2: seq<T>)
    requires IsSubseq(a1, b1) && IsSubseq(a2, b2)
    ensures IsSubseq(a1 + a2, b1 + b2)
    decreases |b1|
  {
    if |b1| == 0 {
      assert a1 + a2 == a2 && b1 + b2 == b2;
    } else {
      assert (b1 + b2)[1..] == b1[1..] + b2;
      if |a1| > 0 && a1[0] == b1[0] && IsSubseq(a1[1..], b1[1..]) {
        SubseqConcat(a1[1..], b1[1..], a2, b2);
        assert (a1 + a2)[1..] == a1[1..] + a2;
      } else {
        SubseqConcat(a1, b1[1..], a2, b2);
      }
    }
  }

  /** Deleting twice is deleting once. */
  lemma {:induction false} SubseqTrans<T>(a: seq<T>, b: seq<T>, c: seq<T>)
    requires IsSubseq(a, b) && IsSubseq(b, c)
    ensures IsSubseq(a, c)
    decreases |c|
  {
    if |c| == 0 {
      assert b == [];
      assert a == [];
    } else if |b| > 0 && b[0] == c[0] && IsSubseq(b[1..], c[1..]) {
      if |a| > 0 && a[0] == b[0] && IsSubseq(a[1..], b[1..]) {
        SubseqTrans(a[1..], b[1..], c[1..]);
      } else {
        SubseqTrans(a, b[1..], c[1..]);
      }
    } else {
      SubseqTrans(a, b, c[1..]);
    }
  }
}

=== FILE: deps.dfy ===
/** Dependency check (`validateAndStubMissingComponents`): scan every `.vue`
    file of the components directory for imports of `./components/X.vue`,
    and write a placeholder component for each imported name that was not
    generated. */
module Deps {
  import opened Base
  import opened Text
  import opened Patterns
  import opened Files

  /** `findVueImportsInCode(code)`: the file name (group 2) of every import
      of `./components/X.vue`, in order of appearance. */
  function FindVueImports(code: string): (r: seq<string>)
    ensures forall k :: 0 <= k < |r| ==> Word(r[k])
  {
    var hs := Matches(ComponentsVueImport, code);
    forall k | 0 <= k < |hs|
      ensures Word(hs[k].group2)
    {
      assert hs[k] in hs;
      assert MatchComponentsImport(code, hs[k].start) == Some(hs[k]);
    }
    seq(|hs|, k requires 0 <= k < |hs| => hs[k].group2)
  }

  /** The scan reports the file name of every component import in `code`,
      wherever it starts, and nothing else. */
  lemma FindVueImportsExact(code: string, y: string)
    ensures y in FindVueImports(code) <==>
      exists k :: 0 <= k < |code| && MatchAt(ComponentsVueImport, code, k).Some?
        && MatchAt(ComponentsVueImport, code, k).value.group2 == y
  {
    var hs := Matches(ComponentsVueImport, code);
    var r := FindVueImports(code);
    if y in r {
      var i :| 0 <= i < |r| && r[i] == y;
      assert hs[i] in hs;
      assert MatchAt(ComponentsVueImport, code, hs[i].start) == Some(hs[i]);
    }
    if k :| 0 <= k < |code| && MatchAt(ComponentsVueImport, code, k).Some? && MatchAt(ComponentsVueImport, code, k).value.group2 == y {
      ComponentsImportsComplete(code, k);
      var i :| 0 <= i < |hs| && hs[i] == MatchAt(ComponentsVueImport, code, k).value;
      assert r[i] == y;
    }
  }

  /** Any `import X from './components/Y.vue'` written out in `code`, with
      the blanks the pattern allows, puts `Y` among the found imports. */
  lemma FindsEveryImport(code: string, i: nat, a: nat, b: nat, c: nat, q: nat, f: nat)
    requires HeadLayout(code, i, a, b, c, q) && ComponentsPathAt(code, q, f)
    ensures code[q + 14..f] in FindVueImports(code)
  {
    ComponentsImportAccepts(code, i, a, b, c, q, f);
    assert MatchAt(ComponentsVueImport, code, i).value.group2 == code[q + 14..f];
    FindVueImportsExact(code, code[q + 14..f]);
  }

  /** Whether `dir[i]` is a `.vue` file that imports component `n`. */
  predicate ImportsAt(dir: seq<File>, i: nat, n: string)
    requires i < |dir|
  {
    EndsWith(dir[i].name, ".vue") && n in FindVueImports(dir[i].content)
  }

  /** Every component import of every `.vue` file, file by file in listing
      order, repetitions kept. */
  function AllImports(dir: seq<File>): (r: seq<string>)
    ensures forall k :: 0 <= k < |r| ==> Word(r[k])
    decreases |dir|
  {
    if |dir| == 0 then []
    else (if EndsWith(dir[0].name, ".vue") then FindVueImports(dir[0].content) else []) + AllImports(dir[1..])
  }

  /** A name is among the imports exactly when some `.vue` file imports it. */
  lemma {:induction false} AllImportsMembers(dir: seq<File>, n: string)
    ensures n in AllImports(dir) <==> exists i :: 0 <= i < |dir| && ImportsAt(dir, i, n)
    decreases |dir|
  {
    if |dir| > 0 {
      var rest := dir[1..];
      var here := if EndsWith(dir[0].name, ".vue") then FindVueImports(dir[0].content) else [];
      assert AllImports(dir) == here + AllImports(rest);
      assert n in here <==> ImportsAt(dir, 0, n);
      AllImportsMembers(rest, n);
      if n in AllImports(rest) {
        var j :| 0 <= j < |rest| && ImportsAt(rest, j, n);
        assert rest[j] == dir[j + 1];
        assert ImportsAt(dir, j + 1, n);
      }
      if i :| 0 <= i < |dir| && ImportsAt(dir, i, n) {
        if i > 0 {
          assert rest[i - 1] == dir[i];
          assert ImportsAt(rest, i - 1, n);
        }
      }
    }
  }

  /** The imported names that were not generated: each once, in order of
      first import. */
  function Missing(dir: seq<File>, names: seq<string>): (r: seq<string>)
    ensures NoDup(r)
    ensures forall n :: n in r <==> n in AllImports(dir) && n !in names
    ensures IsSubseq(r, Dedup(AllImports(dir)))
  {
    Without(Dedup(AllImports(dir)), names)
  }

  /** The stub's pieces: the opening of its template, the marker before the
      name, the closing of the template and the script block. */
  const StubOpen: string := "<template><div style=\"color:red;\">"
  const StubClose: string := "</div></template>\n"
  const StubComment: string := "// Componente generado " + "automáticamente como stub\n"
  const StubScript: string := "<script setup>\n" + StubComment + "</script>\n"
  const StubHead: string := StubOpen + "Stub: "
  const StubTail: string := StubClose + StubScript

  /** `generateStubComponent(name)`: the placeholder written for a missing
      component, a red `Stub: name` in its template and an empty script. */
  function Stub(name: string): (r: File)
    ensures r.name == name + ".vue"
    ensures HasAt(r.content, 0, StubOpen)
    ensures HasAt(r.content, |StubOpen|, "Stub: " + name + StubClose)
    ensures EndsWith(r.content, StubScript)
    ensures |r.content| == |StubOpen| + |"Stub: " + name + StubClose| + |StubScript|
  {
    var m := "Stub: " + name + StubClose;
    var c := StubOpen + m + StubScript;
    assert c[..|StubOpen|] == StubOpen;
    assert c[|StubOpen|..|StubOpen| + |m|] == m;
    assert c[|c| - |StubScript|..] == StubScript;
    File(name + ".vue", c)
  }

  /** What `validateAndStubMissingComponents` returns and leaves behind. */
  datatype Checked = Checked(missing: seq<string>, dir: seq<File>)

  function StubNames(missing: seq<string>): (r: seq<string>)
    ensures |r| == |missing|
  {
    seq(|missing|, k requires 0 <= k < |missing| => Stub(missing[k]).name)
  }

  /** The stub files for `missing`, and their contents. */
  function StubContents(missing: seq<string>): (r: seq<string>)
    ensures |r| == |missing|
  {
    seq(|missing|, k requires 0 <= k < |missing| => Stub(missing[k]).content)
  }

  /** `validateAndStubMissingComponents(dir, names)`: afterwards every
      imported component is either generated or has a file. */
  function ValidateAndStub(dir: seq<File>, names: seq<string>): (r: Checked)
    requires WellNamed(dir)
    ensures r.missing == Missing(dir, names)
    ensures WellNamed(r.dir)
    ensures forall n :: n in AllImports(dir) ==> n in names || Stub(n).name in Names(r.dir)
  {
    var missing := Missing(dir, names);
    var out := WriteAll(dir, StubNames(missing), StubContents(missing));
    forall n | n in AllImports(dir) && n !in names
      ensures Stub(n).name in Names(out)
    {
      var k :| 0 <= k < |missing| && missing[k] == n;
      assert StubNames(missing)[k] == Stub(n).name;
      WriteAllLists(dir, StubNames(missing), StubContents(missing), Stub(n).name);
    }
    Checked(missing, out)
  }

  /** Each missing component's file holds its stub, and every other file is
      as it was. */
  lemma ValidateAndStubWrites(dir: seq<File>, names: seq<string>, n: string)
    requires WellNamed(dir)
    ensures var r := ValidateAndStub(dir, names);
      (n in r.missing ==> Read(r.dir, Stub(n).name) == Some(Stub(n).content))
      && (n !in StubNames(r.missing) ==> Read(r.dir, n) == Read(dir, n))
  {
    var missing := Missing(dir, names);
    var files, contents := StubNames(missing), StubContents(missing);
    if n in missing {
      var k :| 0 <= k < |missing| && missing[k] == n;
      StubNamesDistinct(missing, k);
      WriteAllLastWins(dir, files, contents, k);
    }
    if n !in files {
      WriteAllKeepsOthers(dir, files, contents, n);
    }
  }

  /** Distinct names give distinct stub files. */
  lemma StubNamesDistinct(missing: seq<string>, k: nat)
    requires NoDup(missing) && k < |missing|
    ensures StubNames(missing)[k] !in StubNames(missing)[k + 1..]
  {
    var files := StubNames(missing);
    forall j | k < j < |missing|
      ensures files[j] != files[k]
    {
      SuffixCancels(missing[j], missing[k], ".vue");
    }
    var later := files[k + 1..];
    assert forall i :: 0 <= i < |later| ==> later[i] == files[k + 1 + i];
  }

  /** Once the stubs are written, every component that some `.vue` file
      imports was generated or has just been reported missing. */
  lemma StubbedClosed(dir: seq<File>, names: seq<string>)
    requires WellNamed(dir)
    ensures var r := ValidateAndStub(dir, names);
      forall n :: n in AllImports(r.dir) ==> n in names || n in r.missing
  {
    var r := ValidateAndStub(dir, names);
    forall n | n in AllImports(r.dir)
      ensures n in names || n in r.missing
    {
      StubsAddNoImport(dir, names, n);
    }
  }

  /** Writing the stubs adds no import: a name imported by some `.vue` file
      afterwards was imported before. */
  lemma StubsAddNoImport(dir: seq<File>, names: seq<string>, n: string)
    requires WellNamed(dir)
    ensures n in AllImports(ValidateAndStub(dir, names).dir) ==> n in AllImports(dir)
  {
    var r := ValidateAndStub(dir, names);
    AllImportsMembers(r.dir, n);
    if n in AllImports(r.dir) {
      var i :| 0 <= i < |r.dir| && ImportsAt(r.dir, i, n);
      StubbedOrKept(dir, names, i);
      var j :| 0 <= j < |dir| && dir[j] == r.dir[i];
      assert ImportsAt(dir, j, n);
      AllImportsMembers(dir, n);
    }
  }

  /** Every file after the dependency check is a stub, which imports
      nothing, or a file that was there before. */
  lemma StubbedOrKept(dir: seq<File>, names: seq<string>, i: nat)
    requires WellNamed(dir) && i < |ValidateAndStub(dir, names).dir|
    ensures var f := ValidateAndStub(dir, names).dir[i];
      FindVueImports(f.content) == [] || exists j :: 0 <= j < |dir| && dir[j] == f
  {
    var r := ValidateAndStub(dir, names);
    var f := r.dir[i];
    ReadAt(r.dir, i);
    if f.name in StubNames(r.missing) {
      var k :| 0 <= k < |r.missing| && StubNames(r.missing)[k] == f.name;
      StubFile(dir, names, k);
    } else {
      ValidateAndStubWrites(dir, names, f.name);
      ReadFound(dir, f.name, f.content);
    }
  }

  /** The `k`-th stub file holds its stub, which imports nothing. */
  lemma StubFile(dir: seq<File>, names: seq<string>, k: nat)
    requires WellNamed(dir) && k < |ValidateAndStub(dir, names).missing|
    ensures var r := ValidateAndStub(dir, names); var m := r.missing[k];
      Read(r.dir, StubNames(r.missing)[k]) == Some(Stub(m).content) && FindVueImports(Stub(m).content) == []
  {
    var r := ValidateAndStub(dir, names);
    var m := r.missing[k];
    ValidateAndStubWrites(dir, names, m);
    var a := AllImports(dir);
    assert m in a;
    var x :| 0 <= x < |a| && a[x] == m;
    StubImportsNothing(m);
  }

  /** A stub imports no component. */
  lemma StubImportsNothing(name: string)
    requires Word(name)
    ensures FindVueImports(Stub(name).content) == []
  {
    var c := Stub(name).content;
    assert c == StubHead + name + StubTail;
    StubHeadNoIm();
    StubTailNoIm();
    var t := Table(ComponentsVueImport, c);
    forall k | 0 <= k < |c|
      ensures t[k].None?
    {
      NoImportBlank(StubHead, name, StubTail, k);
    }
    ScanEmptyIff(c, t, 0);
  }

  /** No `i` of `s` is directly followed by `m`. */
  predicate NoIm(s: string) {
    forall i :: 0 <= i < |s| - 1 ==> !(s[i] == 'i' && s[i + 1] == 'm')
  }

  lemma NoImJoin(x: string, y: string)
    requires NoIm(x) && NoIm(y) && (|x| == 0 || x[|x| - 1] != 'i')
    ensures NoIm(x + y)
  {
    forall i | 0 <= i < |x + y| - 1
      ensures !((x + y)[i] == 'i' && (x + y)[i + 1] == 'm')
    {
      if i < |x| - 1 {
        assert (x + y)[i] == x[i] && (x + y)[i + 1] == x[i + 1];
      } else if i >= |x| {
        assert (x + y)[i] == y[i - |x|] && (x + y)[i + 1] == y[i + 1 - |x|];
      }
    }
  }

  lemma StubHeadNoIm()
    ensures NoIm(StubHead) && StubHead[|StubHead| - 1] == ' '
  {
    assert NoIm(StubOpen) && NoIm("Stub: ");
    NoImJoin(StubOpen, "Stub: ");
  }

  lemma StubCommentNoIm()
    ensures NoIm(StubComment)
  {
    var c1, c2 := "// Componente generado ", "automáticamente como stub\n";
    NoImParts(c1, c2);
    NoImJoin(c1, c2);
  }

  lemma NoImParts(c1: string, c2: string)
    requires c1 == "// Componente generado " && c2 == "automáticamente como stub\n"
    ensures NoIm(c1) && NoIm(c2) && c1[|c1| - 1] != 'i'
  {
  }

  lemma StubTailNoIm()
    ensures NoIm(StubTail) && StubTail[0] == '<'
  {
    StubCommentNoIm();
    assert NoIm("<script setup>\n") && NoIm("</script>\n") && NoIm(StubClose);
    NoImJoin("<script setup>\n", StubComment);
    NoImJoin("<script setup>\n" + StubComment, "</script>\n");
    NoImJoin(StubClose, StubScript);
  }

  /** No `import` followed by a blank occurs in `x + w + y` when neither
      `x` nor `y` holds an `im`, `x` does not end in `i`, `w` is a word and
      `y` starts with `<`. */
  lemma NoImportBlank(x: string, w: string, y: string, k: nat)
    requires NoIm(x) && NoIm(y) && Word(w) && |x| > 0 && x[|x| - 1] != 'i' && |y| > 0 && y[0] == '<'
    ensures var c := x + w + y; !(HasAt(c, k, "import") && k + 6 < |c| && IsSpace(c[k + 6]))
  {
    var c := x + w + y;
    var m := |x| + |w|;
    HasAtChar(c, k, "import", 0);
    HasAtChar(c, k, "import", 1);
    HasAtChar(c, k, "import", if k <= m then m - k else 0);
    assert forall j :: 0 <= j < |x| ==> c[j] == x[j];
    assert forall j :: |x| <= j < m ==> c[j] == w[j - |x|];
    assert forall j :: m <= j < |c| ==> c[j] == y[j - m];
  }

  lemma SuffixCancels(a: string, b: string, t: string)
    ensures a + t == b + t ==> a == b
  {
    if a + t == b + t {
      assert a == (a + t)[..|a|];
    }
  }

  /** `import b from 'path'`. */
  function ImportOf(b: string, path: string): string {
    "import " + b + " from '" + path + "'"
  }

  /** The import the page normalisation writes for component `b`:
      `import b from './components/y.vue'`. */
  function ImportLine(b: string, y: string): string {
    ImportOf(b, "./components/" + y + ".vue")
  }

  /** The scan reads back the component an import line names. */
  lemma FindsImportLine(b: string, y: string)
    requires Word(b) && Word(y)
    ensures FindVueImports(ImportLine(b, y)) == [y]
  {
    var s := ImportLine(b, y);
    ImportLineParts(b, y);
    var h := LaidOutMatch(s, b, y);
    var t := Table(ComponentsVueImport, s);
    assert t[0] == Some(h);
    assert Scan(s, t, |s|) == [];
    assert Scan(s, t, 0) == [h];
  }

  /** `s` is `import b from './components/y.vue'`, read the way the
      import matcher reads it. */
  predicate LaidOut(s: string, b: string, y: string) {
    var n := |b|;
    var f := 27 + |b| + |y|;
    HeadLaidOut(s, b) && |s| == f + 5
    && HasAt(s, 14 + n, "./components/")
    && s[27 + n..f] == y
    && HasAt(s, f, ".vue") && s[f + 4] == '\''
  }

  /** `s` starts with `import b from '`. */
  predicate HeadLaidOut(s: string, b: string) {
    var n := |b|;
    |s| > 14 + n
    && HasAt(s, 0, "import") && s[6] == ' '
    && s[7..7 + n] == b && s[7 + n] == ' '
    && HasAt(s, 8 + n, "from") && s[12 + n] == ' ' && s[13 + n] == '\''
  }

  /** The pieces of an import statement. */
  lemma ImportOfParts(b: string, path: string)
    ensures var s, n := ImportOf(b, path), |b|;
      HeadLaidOut(s, b) && |s| == 15 + n + |path|
      && s[14 + n..14 + n + |path|] == path && s[14 + n + |path|] == '\''
  {
    var x1 := "import " + b;
    var x2 := x1 + " from '";
    var s := ImportOf(b, path);
    var n := |b|;
    assert s == x2 + path + "'";
    assert s[..|x2|] == x2 && x2[..|x1|] == x1;
    assert s[0..6] == x1[..6];
    assert s[6] == x1[6];
    assert s[7..7 + n] == x1[7..];
    var q := x2[|x1|..];
    assert q == " from '";
    assert s[7 + n] == q[0];
    assert s[8 + n..12 + n] == q[1..5];
    assert s[12 + n] == q[5] && s[13 + n] == q[6];
    assert s[14 + n..14 + n + |path|] == path;
  }

  lemma ImportLineParts(b: string, y: string)
    ensures LaidOut(ImportLine(b, y), b, y)
  {
    var s, n := ImportLine(b, y), |b|;
    var p := "./components/" + y + ".vue";
    var f := 27 + n + |y|;
    ImportOfParts(b, p);
    assert s[14 + n..27 + n] == s[14 + n..14 + n + |p|][..13];
    assert s[27 + n..f] == s[14 + n..14 + n + |p|][13..13 + |y|];
    assert s[f..f + 4] == s[14 + n..14 + n + |p|][13 + |y|..];
  }

  lemma LaidOutMatch(s: string, b: string, y: string) returns (h: Hit)
    requires Word(b) && Word(y) && LaidOut(s, b, y)
    ensures MatchAt(ComponentsVueImport, s, 0) == Some(h)
    ensures h.end == |s| && h.group2 == y
  {
    var d := 13 + |b|;
    var f := 27 + |b| + |y|;
    LaidOutHead(s, b);
    LaidOutTail(s, b, y);
    assert ImportHead(s, 0).value.quote + 14 == d + 14;
    h := Hit(0, f + 5, s[0..f + 5], b, y);
    assert MatchComponentsImport(s, 0) == Some(h);
  }

  lemma LaidOutTail(s: string, b: string, y: string)
    requires Word(b) && Word(y) && LaidOut(s, b, y)
    ensures SkipWord(s, 27 + |b|) == 27 + |b| + |y|
  {
    SkipWordAt(s, 27 + |b|, y);
  }

  lemma LaidOutHead(s: string, b: string)
    requires Word(b) && HeadLaidOut(s, b)
    ensures ImportHead(s, 0) == Some(Head(b, 13 + |b|))
  {
    var n := |b|;
    assert s[7] == b[0];
    SkipOneSpace(s, 6);
    SkipWordAt(s, 7, b);
    assert s[8 + n] == 'f';
    SkipOneSpace(s, 7 + n);
    SkipOneSpace(s, 12 + n);
  }
}

=== FILE: files.dfy ===
/** The components directory as the generator sees it: named files, where
    writing a name replaces the file of that name; and `path.basename` on
    POSIX paths. Listing order is taken to be the order of first creation. */
module Files {
  import opened Base
  import opened Text

  datatype File = File(name: string, content: string)

  /** The names of the files of `dir`, in listing order. */
  function Names(dir: seq<File>): (r: seq<string>)
    ensures |r| == |dir| && forall k :: 0 <= k < |dir| ==> r[k] == dir[k].name
    decreases |dir|
  {
    if |dir| == 0 then [] else [dir[0].name] + Names(dir[1..])
  }

  /** No two files share a name. */
  predicate WellNamed(dir: seq<File>) {
    NoDup(Names(dir))
  }

  /** The content of the file called `name`, if there is one. */
  function Read(dir: seq<File>, name: string): (r: Option<string>)
    ensures r.None? <==> name !in Names(dir)
    decreases |dir|
  {
    if |dir| == 0 then None
    else if dir[0].name == name then Some(dir[0].content)
    else
      assert Names(dir) == [dir[0].name] + Names(dir[1..]);
      Read(dir[1..], name)
  }

  /** `fs.writeFile(name, content)`: the file called `name` now holds
      `content`, every other file is as it was, and a new name is listed
      last. */
  function Write(dir: seq<File>, name: string, content: string): (r: seq<File>)
    requires WellNamed(dir)
    ensures WellNamed(r)
    ensures Read(r, name) == Some(content)
    ensures forall n :: n != name ==> Read(r, n) == Read(dir, n)
    ensures Names(r) == if name in Names(dir) then Names(dir) else Names(dir) + [name]
  {
    match IndexOf(Names(dir), name)
    case Some(i) =>
      var r := dir[i := File(name, content)];
      assert Names(r) == Names(dir);
      ReadUpdate(dir, i, content);
      r
    case None =>
      var r := dir + [File(name, content)];
      assert Names(r) == Names(dir) + [name];
      assert WellNamed(r) by {
        forall a, b | 0 <= a < b < |r| ensures Names(r)[a] != Names(r)[b] {
          if b == |dir| {
            assert Names(r)[a] in Names(dir);
          }
        }
      }
      ReadAppend(dir, File(name, content));
      r
  }

  lemma {:induction false} ReadUpdate(dir: seq<File>, i: nat, content: string)
    requires WellNamed(dir) && i < |dir|
    ensures Read(dir[i := File(dir[i].name, content)], dir[i].name) == Some(content)
    ensures forall n :: n != dir[i].name ==> Read(dir[i := File(dir[i].name, content)], n) == Read(dir, n)
    decreases |dir|
  {
    var r := dir[i := File(dir[i].name, content)];
    assert r[1..] == if i == 0 then dir[1..] else dir[1..][i - 1 := File(dir[i].name, content)];
    if i > 0 {
      assert Names(dir)[0] != Names(dir)[i];
      assert Names(dir[1..]) == Names(dir)[1..];
      ReadUpdate(dir[1..], i - 1, content);
    }
  }

  lemma {:induction false} ReadAppend(dir: seq<File>, f: File)
    requires f.name !in Names(dir)
    ensures Read(dir + [f], f.name) == Some(f.content)
    ensures forall n :: n != f.name ==> Read(dir + [f], n) == Read(dir, n)
    decreases |dir|
  {
    if |dir| == 0 {
      assert dir + [f] == [f];
    } else {
      assert (dir + [f])[1..] == dir[1..] + [f];
      assert Names(dir[1..]) == Names(dir)[1..];
      ReadAppend(dir[1..], f);
    }
  }

  /** Reading a listed file's name gives its content. */
  lemma {:induction false} ReadAt(dir: seq<File>, i: nat)
    requires WellNamed(dir) && i < |dir|
    ensures Read(dir, dir[i].name) == Some(dir[i].content)
    decreases |dir|
  {
    if i > 0 {
      assert Names(dir)[0] != Names(dir)[i];
      assert Names(dir[1..]) == Names(dir)[1..];
      ReadAt(dir[1..], i - 1);
    }
  }

  /** What a read gives is the content of a listed file. */
  lemma {:induction false} ReadFound(dir: seq<File>, n: string, c: string)
    requires Read(dir, n) == Some(c)
    ensures exists j :: 0 <= j < |dir| && dir[j] == File(n, c)
    decreases |dir|
  {
    if dir[0].name != n {
      ReadFound(dir[1..], n, c);
      var j :| 0 <= j < |dir[1..]| && dir[1..][j] == File(n, c);
      assert dir[j + 1] == File(n, c);
    }
  }

  /** `codes[k]` written under `names[k]`, in order. */
  function WriteAll(dir: seq<File>, names: seq<string>, codes: seq<string>): (r: seq<File>)
    requires WellNamed(dir) && |names| == |codes|
    ensures WellNamed(r)
    decreases |names|
  {
    if |names| == 0 then dir
    else
      var n := |names| - 1;
      Write(WriteAll(dir, names[..n], codes[..n]), names[n], codes[n])
  }

  /** Every name written is listed afterwards. */
  lemma {:induction false} WriteAllLists(dir: seq<File>, names: seq<string>, codes: seq<string>, n: string)
    requires WellNamed(dir) && |names| == |codes| && n in names
    ensures n in Names(WriteAll(dir, names, codes))
    decreases |names|
  {
    var m := |names| - 1;
    if n != names[m] {
      var i :| 0 <= i < |names| && names[i] == n;
      assert names[..m][i] == n;
      WriteAllLists(dir, names[..m], codes[..m], n);
    }
    assert WriteAll(dir, names, codes) == Write(WriteAll(dir, names[..m], codes[..m]), names[m], codes[m]);
  }

  /** A name holds what its last write wrote. */
  lemma {:induction false} WriteAllLastWins(dir: seq<File>, names: seq<string>, codes: seq<string>, k: nat)
    requires WellNamed(dir) && |names| == |codes| && k < |names| && names[k] !in names[k + 1..]
    ensures Read(WriteAll(dir, names, codes), names[k]) == Some(codes[k])
    decreases |names|
  {
    var m := |names| - 1;
    if k < m {
      var p := names[..m];
      assert names[k + 1..][m - k - 1] == names[m];
      forall j | k < j < m
        ensures p[j] != p[k]
      {
        assert names[k + 1..][j - k - 1] == names[j];
      }
      assert p[k] !in p[k + 1..];
      WriteAllLastWins(dir, p, codes[..m], k);
      assert codes[..m][k] == codes[k] && p[k] == names[k];
    } else {
      assert k == m;
    }
    assert WriteAll(dir, names, codes) == Write(WriteAll(dir, names[..m], codes[..m]), names[m], codes[m]);
  }

  /** A name never written is as it was. */
  lemma {:induction false} WriteAllKeepsOthers(dir: seq<File>, names: seq<string>, codes: seq<string>, n: string)
    requires WellNamed(dir) && |names| == |codes| && n !in names
    ensures Read(WriteAll(dir, names, codes), n) == Read(dir, n)
    decreases |names|
  {
    if |names| > 0 {
      var m := |names| - 1;
      assert n !in names[..m];
      WriteAllKeepsOthers(dir, names[..m], codes[..m], n);
      assert WriteAll(dir, names, codes) == Write(WriteAll(dir, names[..m], codes[..m]), names[m], codes[m]);
    }
  }

  /** What a sequence of writes leaves behind for one name `n`. */
  lemma WriteAllReads(dir: seq<File>, names: seq<string>, codes: seq<string>, n: string)
    requires WellNamed(dir) && |names| == |codes|
    ensures n in names ==> n in Names(WriteAll(dir, names, codes))
    ensures forall k :: 0 <= k < |names| && names[k] == n && n !in names[k + 1..] ==>
      Read(WriteAll(dir, names, codes), n) == Some(codes[k])
    ensures n !in names ==> Read(WriteAll(dir, names, codes), n) == Read(dir, n)
  {
    if n in names {
      WriteAllLists(dir, names, codes, n);
    } else {
      WriteAllKeepsOthers(dir, names, codes, n);
    }
    forall k | 0 <= k < |names| && names[k] == n && n !in names[k + 1..]
      ensures Read(WriteAll(dir, names, codes), n) == Some(codes[k])
    {
      WriteAllLastWins(dir, names, codes, k);
    }
  }

  /** `path.basename(p)`: the last path segment, trailing slashes ignored. */
  function Basename(p: string): (r: string)
    ensures '/' !in r
    ensures '/' !in p && (|p| == 0 || p[|p| - 1] != '/') ==> r == p
  {
    var e := TrimSlashes(p);
    match LastIndexOf(e, '/')
    case None => e
    case Some(i) =>
      assert '/' in p by {
        assert p[i] == e[i];
      }
      e[i + 1..]
  }

  /** The names that `path.join(dir, n)` resolves to the directory itself or
      to its parent, so that writing a file under them fails. */
  predicate NamesDirectory(n: string) {
    n == "" || n == "." || n == ".."
  }

  /** The base name is the last segment of the name once trailing slashes
      are dropped: it ends that text, and is either all of it or follows a
      `/`. */
  lemma BasenameLastSegment(p: string)
    ensures var e, r := TrimSlashes(p), Basename(p);
      EndsWith(e, r) && (|r| < |e| ==> e[|e| - |r| - 1] == '/')
  {
    var e := TrimSlashes(p);
    match LastIndexOf(e, '/')
    case None =>
    case Some(i) =>
      var r := e[i + 1..];
      assert Basename(p) == r;
      assert |e| - |r| - 1 == i;
      assert e[|e| - |r|..] == r;
  }

  /** `p` without its trailing slashes. */
  function TrimSlashes(p: string): (r: string)
    ensures |r| <= |p| && r == p[..|r|] && (|r| == 0 || r[|r| - 1] != '/')
    ensures forall k :: |r| <= k < |p| ==> p[k] == '/'
    decreases |p|
  {
    if |p| > 0 && p[|p| - 1] == '/' then TrimSlashes(p[..|p| - 1]) else p
  }

  /** `path.basename(p, ext)` as Node's POSIX implementation computes it: a
      suffix longer than `p` is ignored, and `p` equal to it gives "".
      Otherwise the suffix is compared with the base name from its end: when
      it is a proper suffix of the base name it is cut off; when the base name
      runs out first without a mismatch (the base name is a proper suffix of
      `ext`), the result runs from the start of the base name to the end of
      `p`, trailing slashes included; in every other case it is the base
      name. */
  function BasenameWithout(p: string, ext: string): (r: string)
    ensures |ext| == 0 || |ext| > |p| ==> r == Basename(p)
    ensures 0 < |ext| && p == ext ==> r == ""
    ensures 0 < |ext| <= |p| && p != ext && EndsWith(Basename(p), ext) && Basename(p) != ext ==> r + ext == Basename(p)
    ensures 0 < |ext| <= |p| && p != ext && !EndsWith(Basename(p), ext) && EndsWith(ext, Basename(p)) ==>
      r == Basename(p) + p[|TrimSlashes(p)|..]
    ensures 0 < |ext| <= |p| && p != ext && (Basename(p) == ext || (!EndsWith(Basename(p), ext) && !EndsWith(ext, Basename(p)))) ==>
      r == Basename(p)
  {
    var b, e := Basename(p), TrimSlashes(p);
    if |ext| == 0 || |ext| > |p| then b
    else if p == ext then ""
    else if EndsWith(b, ext) && b != ext then
      assert b == b[..|b| - |ext|] + ext;
      b[..|b| - |ext|]
    else if !EndsWith(b, ext) && EndsWith(ext, b) then
      BasenameLastSegment(p);
      assert p[|e| - |b|..] == e[|e| - |b|..] + p[|e|..];
      p[|e| - |b|..]
    else b
  }

  /** Only the trailing-slash case keeps a `/`: a slash in the name comes
      from a path ending in `/` whose last segment is a proper suffix of
      `ext`. */
  lemma BasenameWithoutSlash(p: string, ext: string)
    ensures '/' in BasenameWithout(p, ext) ==>
      0 < |ext| <= |p| && p != ext && |p| > 0 && p[|p| - 1] == '/' && EndsWith(ext, Basename(p)) && Basename(p) != ext
  {
    var b, e := Basename(p), TrimSlashes(p);
    if 0 < |ext| <= |p| && p != ext && !EndsWith(b, ext) && EndsWith(ext, b) && |e| == |p| {
      assert p[|e|..] == [];
      assert BasenameWithout(p, ext) == b;
    }
  }

  /** Node keeps the trailing slash of `vue/` with suffix `.vue`. */
  lemma BasenameWithoutKeepsSlash()
    ensures BasenameWithout("vue/", ".vue") == "vue/"
  {
    var p := "vue/";
    assert TrimSlashes(p) == "vue" by {
      assert p[..3] == "vue";
    }
    assert Basename(p) == "vue";
    assert !EndsWith("vue", ".vue");
    assert EndsWith(".vue", "vue");
  }

  /** The trailing slash follows the last segment: `a/e/` gives `e/`. */
  lemma BasenameWithoutLastSegment()
    ensures BasenameWithout("a/e/", ".vue") == "e/"
  {
    var p := "a/e/";
    var e := "a/e";
    assert TrimSlashes(p) == e by {
      assert p[..3] == e;
    }
    assert LastIndexOf(e, '/') == Some(1) by {
      assert e[2] != '/';
      assert e[..2] == "a/";
    }
    assert Basename(p) == "e";
    assert !EndsWith("e", ".vue");
    assert EndsWith(".vue", "e");
    assert p[2..] == "e/";
  }
}

=== FILE: patterns.dfy ===
/** The regular expressions that the generator applies in global mode, either
    through `String.prototype.replace` or through a `RegExp.prototype.exec`
    loop. Each is modelled as a matcher at one position (`MatchAt`); the scan
    shared by all of them (`Matches`, `Replace`) tries positions from left to
    right and resumes after the end of every match, so matches never overlap.

    None of these expressions can match the empty string, and none of them
    needs backtracking to be decided: every repetition in them is followed by a
    character its class excludes, so the longest run is the only candidate. */
module Patterns {
  import opened Base
  import opened Text

  /** One match: its span `[start, end)`, the matched text and the capture
      groups the generator reads. */
  datatype Hit = Hit(start: nat, end: nat, text: string, group1: string, group2: string)

  datatype Pattern =
      /** `from`, blanks, a quote, `src/components/`, a non-empty run of
          non-quote characters (group 1) and a quote: scripts/agent.js:178. */
    | SrcComponentsImport
      /** An import head (see `ImportHead`) whose path is `.` or `./`, not
          followed by `components/`, then a word (group 2), `.vue` and a quote:
          scripts/agent.js:230. */
    | RelativeVueImport
      /** An import head whose path is `./components/`, then a word
          (group 2), `.vue` and a quote: scripts/agent.js:286. */
    | ComponentsVueImport
      /** `<`, a capital letter and the rest of the word (group 1, the tag
          name): scripts/agent.js:248. The trailing word boundary of the
          expression always holds after the longest word run. */
    | CapitalTag
      /** `<tag` followed by anything up to and including the next `>`, as
          scripts/agent.js:257 writes it: it also matches the start of any
          longer tag whose name begins with `tag`. */
    | PrefixOpenMarker(tag: string)
      /** The same with a word boundary after `tag` (`<tag\b[^>]*>`), so that
          only the tag named `tag` matches. */
    | OpenMarker(tag: string)
      /** The literal `</tag>`: scripts/agent.js:258. */
    | CloseMarker(tag: string)

  /** The common head of the import expressions: `import`, blanks, a word
      (the binding, group 1), blanks, `from`, blanks, and a quote at index
      `quote`. */
  datatype Head = Head(binding: string, quote: nat)

  function ImportHead(s: string, i: nat): (r: Option<Head>)
    ensures r.Some? ==> HasAt(s, i, "import") && i + 6 < r.value.quote < |s| && IsQuote(s[r.value.quote])
    ensures r.Some? ==> IsSpace(s[i + 6]) && Word(r.value.binding)
  {
    if !HasAt(s, i, "import") then None
    else
      var a := SkipSpaces(s, i + 6);
      var b := SkipWord(s, a);
      var c := SkipSpaces(s, b);
      if a == i + 6 || b == a || c == b || !HasAt(s, c, "from") then None
      else
        var d := SkipSpaces(s, c + 4);
        if d == c + 4 || d == |s| || !IsQuote(s[d]) then None
        else
          assert forall k :: 0 <= k < b - a ==> s[a..b][k] == s[a + k];
          Some(Head(s[a..b], d))
  }

  /** A match found at `i` spans `[i, end)` and carries its own text. */
  predicate Spans(r: Option<Hit>, s: string, i: nat) {
    r.Some? ==> r.value.start == i < r.value.end <= |s| && r.value.text == s[i..r.value.end]
  }

  /** Whether `p` matches `s` at exactly index `i`, and how. */
  function MatchAt(p: Pattern, s: string, i: nat): (r: Option<Hit>)
    ensures Spans(r, s, i)
  {
    match p
    case SrcComponentsImport => MatchSrcImport(s, i)
    case RelativeVueImport => MatchRelativeImport(s, i)
    case ComponentsVueImport => MatchComponentsImport(s, i)
    case CapitalTag => MatchCapitalTag(s, i)
    case PrefixOpenMarker(tag) => MatchOpenMarker(tag, false, s, i)
    case OpenMarker(tag) => MatchOpenMarker(tag, true, s, i)
    case CloseMarker(tag) => MatchCloseMarker(tag, s, i)
  }

  function MatchSrcImport(s: string, i: nat): (r: Option<Hit>)
    ensures Spans(r, s, i)
    ensures r.Some? ==> HasAt(s, i, "from") && i + 4 < r.value.end && IsSpace(s[i + 4]) && IsQuote(s[r.value.end - 1])
  {
    if !HasAt(s, i, "from") then None
    else
      var a := SkipSpaces(s, i + 4);
      if a == i + 4 || a == |s| || !IsQuote(s[a]) || !HasAt(s, a + 1, "src/components/") then None
      else
        var b := a + 16;
        var c := SkipNonQuote(s, b);
        if c == b || c == |s| then None
        else Some(Hit(i, c + 1, s[i..c + 1], s[b..c], ""))
  }

  /** What a `src/components/` import reads: `from`, spaces, a quote,
      `src/components/`, the captured path (non-empty and quote-free) and a
      closing quote. */
  lemma SrcImportReads(s: string, i: nat)
    requires MatchSrcImport(s, i).Some?
    ensures var h := MatchSrcImport(s, i).value; var g := h.group1;
      |g| > 0 && h.end >= |g| + 17 && g == s[h.end - 1 - |g|..h.end - 1]
      && HasAt(s, h.end - |g| - 16, "src/components/") && IsQuote(s[h.end - |g| - 17])
      && forall k :: 0 <= k < |g| ==> !IsQuote(g[k])
  {
    var a := SkipSpaces(s, i + 4);
    var c := SkipNonQuote(s, a + 16);
    assert MatchSrcImport(s, i).value == Hit(i, c + 1, s[i..c + 1], s[a + 16..c], "");
  }

  function MatchRelativeImport(s: string, i: nat): (r: Option<Hit>)
    ensures Spans(r, s, i)
    ensures r.Some? ==> ImportHead(s, i).Some? && Word(r.value.group1) && Word(r.value.group2)
    ensures r.Some? ==> r.value.group1 == ImportHead(s, i).value.binding && RelativePath(s, ImportHead(s, i).value.quote).Some?
  {
    match ImportHead(s, i)
    case None => None
    case Some(h) => RelativeHit(s, i, h)
  }

  /** The relative import whose head, read from `i`, is `h`. */
  function RelativeHit(s: string, i: nat, h: Head): (r: Option<Hit>)
    requires i < h.quote < |s| && Word(h.binding)
    ensures Spans(r, s, i)
    ensures r.Some? ==> Word(r.value.group1) && Word(r.value.group2)
  {
    match RelativePath(s, h.quote)
    case None => None
    case Some(p) => Some(Hit(i, p.1 + 5, s[i..p.1 + 5], h.binding, s[p.0..p.1]))
  }

  /** After the quote at `q`: `.` or `./` not followed by `components/`, a
      word (the file name, spanning `[p.0, p.1)`), `.vue` and a quote. */
  function RelativePath(s: string, q: nat): (r: Option<(nat, nat)>)
    ensures r.Some? ==> q + 2 <= r.value.0 < r.value.1 && r.value.1 + 5 <= |s|
    ensures r.Some? ==> Word(s[r.value.0..r.value.1])
    ensures r.Some? ==> s[q + 1] == '.' && (r.value.0 == q + 2 || (r.value.0 == q + 3 && s[q + 2] == '/'))
    ensures r.Some? ==> !HasAt(s, r.value.0, "components/") && HasAt(s, r.value.1, ".vue") && IsQuote(s[r.value.1 + 4])
  {
    if q + 1 >= |s| || s[q + 1] != '.' then None
    else
      var e := if q + 2 < |s| && s[q + 2] == '/' then q + 3 else q + 2;
      var f := SkipWord(s, e);
      if HasAt(s, e, "components/") || f == e || !HasAt(s, f, ".vue") || f + 4 == |s| || !IsQuote(s[f + 4]) then None
      else
        assert forall k :: 0 <= k < f - e ==> s[e..f][k] == s[e + k];
        Some((e, f))
  }

  function MatchComponentsImport(s: string, i: nat): (r: Option<Hit>)
    ensures Spans(r, s, i)
    ensures r.Some? ==> ImportHead(s, i).Some? && Word(r.value.group1) && Word(r.value.group2)
    ensures r.Some? ==> r.value.group1 == ImportHead(s, i).value.binding
  {
    match ImportHead(s, i)
    case None => None
    case Some(h) => ComponentsHit(s, i, h)
  }

  /** The component import whose head, read from `i`, is `h`. */
  function ComponentsHit(s: string, i: nat, h: Head): (r: Option<Hit>)
    requires i < h.quote < |s| && Word(h.binding)
    ensures Spans(r, s, i)
    ensures r.Some? ==> Word(r.value.group1) && Word(r.value.group2) && r.value.group1 == h.binding
  {
    var e := h.quote + 14;
    if !HasAt(s, h.quote + 1, "./components/") then None
    else
      var f := SkipWord(s, e);
      if f == e || !HasAt(s, f, ".vue") || f + 4 == |s| || !IsQuote(s[f + 4]) then None
      else
        assert forall k :: 0 <= k < f - e ==> s[e..f][k] == s[e + k];
        Some(Hit(i, f + 5, s[i..f + 5], h.binding, s[e..f]))
  }

  function MatchCapitalTag(s: string, i: nat): (r: Option<Hit>)
    ensures Spans(r, s, i)
    ensures r.Some? <==> i + 1 < |s| && s[i] == '<' && IsUpper(s[i + 1])
    ensures r.Some? ==> Word(r.value.group1) && IsUpper(r.value.group1[0])
    ensures r.Some? ==> r.value.group1 == s[i + 1..r.value.end] && (r.value.end == |s| || !IsWord(s[r.value.end]))
  {
    if i + 1 < |s| && s[i] == '<' && IsUpper(s[i + 1]) then
      var a := i + 1;
      var e := SkipWord(s, a);
      assert forall k :: 0 <= k < e - a ==> s[a..e][k] == s[a + k];
      Some(Hit(i, e, s[i..e], s[i + 1..e], ""))
    else None
  }

  /** `<tag`, then (when `whole`) a non-word character, then everything up
      to the next `>`. */
  function MatchOpenMarker(tag: string, whole: bool, s: string, i: nat): (r: Option<Hit>)
    ensures Spans(r, s, i)
    ensures r.Some? ==> HasAt(s, i, "<" + tag) && i + 1 + |tag| < r.value.end && s[r.value.end - 1] == '>'
    ensures r.Some? ==> forall k :: i + 1 + |tag| <= k < r.value.end - 1 ==> s[k] != '>'
    ensures r.Some? && whole ==> !IsWord(s[i + 1 + |tag|])
    ensures HasAt(s, i, "<" + tag) && '>' in s[i + 1 + |tag|..] && !(whole && IsWord(s[i + 1 + |tag|])) ==> r.Some?
  {
    if !HasAt(s, i, "<" + tag) then None
    else if whole && i + 1 + |tag| < |s| && IsWord(s[i + 1 + |tag|]) then None
    else
      var j := SkipUntil(s, i + 1 + |tag|, '>');
      if j == |s| then None else Some(Hit(i, j + 1, s[i..j + 1], "", ""))
  }

  function MatchCloseMarker(tag: string, s: string, i: nat): (r: Option<Hit>)
    ensures Spans(r, s, i)
    ensures r.Some? <==> HasAt(s, i, "</" + tag + ">")
    ensures r.Some? ==> r.value.end == i + |tag| + 3
  {
    var m := "</" + tag + ">";
    if HasAt(s, i, m) then Some(Hit(i, i + |m|, m, "", "")) else None
  }

  /** `MatchAt` tabulated over every index of `s`: the scans below read
      only this table, so the matchers' definitions stay out of their proofs. */
  function Table(p: Pattern, s: string): (t: seq<Option<Hit>>)
    ensures WellFormed(s, t)
    ensures forall k :: 0 <= k < |s| ==> t[k] == MatchAt(p, s, k)
  {
    seq(|s|, k requires 0 <= k < |s| => MatchAt(p, s, k))
  }

  /** Every entry of `t` is a match of `s` at its own index. */
  predicate WellFormed(s: string, t: seq<Option<Hit>>) {
    |t| == |s|
    && forall k :: 0 <= k < |t| && t[k].Some? ==>
         t[k].value.start == k < t[k].value.end <= |s| && t[k].value.text == s[k..t[k].value.end]
  }

  /** Where the scan resumes after looking at index `i`. */
  function Next(s: string, t: seq<Option<Hit>>, i: nat): (j: nat)
    requires WellFormed(s, t) && i < |s|
    ensures i < j <= |s|
  {
    if t[i].Some? then t[i].value.end else i + 1
  }

  /** The matches a global `exec` loop resumed at `i` reports, in order. */
  function Scan(s: string, t: seq<Option<Hit>>, i: nat): (r: seq<Hit>)
    requires WellFormed(s, t) && i <= |s|
    ensures forall h :: h in r ==> i <= h.start < |s| && t[h.start] == Some(h)
    decreases |s| - i
  {
    if i == |s| then []
    else if t[i].Some? then [t[i].value] + Scan(s, t, Next(s, t, i))
    else Scan(s, t, Next(s, t, i))
  }

  /** The text a global `replace` with replacer `f` produces from index `i` on. */
  function Rewrite(s: string, t: seq<Option<Hit>>, i: nat, f: Hit -> string): string
    requires WellFormed(s, t) && i <= |s|
    decreases |s| - i
  {
    if i == |s| then ""
    else if t[i].Some? then f(t[i].value) + Rewrite(s, t, Next(s, t, i), f)
    else [s[i]] + Rewrite(s, t, Next(s, t, i), f)
  }

  /** `RegExp.prototype.exec` in a loop over `s`, collecting every match. */
  function Matches(p: Pattern, s: string): (r: seq<Hit>)
    ensures forall h :: h in r ==> h.start < |s| && MatchAt(p, s, h.start) == Some(h)
  {
    Scan(s, Table(p, s), 0)
  }

  /** `s.replace(p, f)` with a global expression and a replacer function. */
  function Replace(p: Pattern, s: string, f: Hit -> string): (r: string)
    ensures Ordered(s, Matches(p, s), 0) && r == Spliced(s, Matches(p, s), f, 0)
  {
    RewriteSpliced(s, Table(p, s), 0, f);
    Rewrite(s, Table(p, s), 0, f)
  }

  /** `hs` are hits of `s`, in order, none starting before `i` and none
      overlapping the next. */
  predicate Ordered(s: string, hs: seq<Hit>, i: nat)
    decreases |hs|
  {
    if |hs| == 0 then i <= |s|
    else i <= hs[0].start <= hs[0].end <= |s| && Ordered(s, hs[1..], hs[0].end)
  }

  /** `s` from `i` on with each hit of `hs` replaced by `f` of it and the
      text between hits copied. */
  function Spliced(s: string, hs: seq<Hit>, f: Hit -> string, i: nat): string
    requires Ordered(s, hs, i)
    decreases |hs|
  {
    if |hs| == 0 then s[i..]
    else s[i..hs[0].start] + f(hs[0]) + Spliced(s, hs[1..], f, hs[0].end)
  }

  /** Ordered hits stay ordered from an earlier index. */
  lemma OrderedFrom(s: string, hs: seq<Hit>, i: nat, j: nat)
    requires i <= j && Ordered(s, hs, j)
    ensures Ordered(s, hs, i)
  {
  }

  /** Splicing from `i` copies `s[i]` when no hit starts there. */
  lemma SplicedStep(s: string, hs: seq<Hit>, f: Hit -> string, i: nat)
    requires i < |s| && Ordered(s, hs, i + 1)
    ensures Ordered(s, hs, i)
    ensures Spliced(s, hs, f, i) == [s[i]] + Spliced(s, hs, f, i + 1)
  {
    OrderedFrom(s, hs, i, i + 1);
    if |hs| > 0 {
      var rest := Spliced(s, hs[1..], f, hs[0].end);
      assert s[i..hs[0].start] == [s[i]] + s[i + 1..hs[0].start];
      assert Spliced(s, hs, f, i) == s[i..hs[0].start] + f(hs[0]) + rest;
      assert Spliced(s, hs, f, i + 1) == s[i + 1..hs[0].start] + f(hs[0]) + rest;
    } else {
      assert s[i..] == [s[i]] + s[i + 1..];
    }
  }

  /** A global replace is the splice of the scanned matches. */
  lemma {:induction false} RewriteSpliced(s: string, t: seq<Option<Hit>>, i: nat, f: Hit -> string)
    requires WellFormed(s, t) && i <= |s|
    ensures Ordered(s, Scan(s, t, i), i)
    ensures Rewrite(s, t, i, f) == Spliced(s, Scan(s, t, i), f, i)
    decreases |s| - i
  {
    if i < |s| {
      var j := Next(s, t, i);
      RewriteSpliced(s, t, j, f);
      var hs := Scan(s, t, j);
      if t[i].Some? {
        assert Scan(s, t, i) == [t[i].value] + hs;
        assert Scan(s, t, i)[1..] == hs;
        assert s[i..i] == [];
      } else {
        SplicedStep(s, hs, f, i);
      }
    }
  }

  /** The scan reports nothing exactly when no entry is a match. */
  lemma {:induction false} ScanEmptyIff(s: string, t: seq<Option<Hit>>, i: nat)
    requires WellFormed(s, t) && i <= |s|
    ensures Scan(s, t, i) == [] <==> forall k :: i <= k < |s| ==> t[k].None?
    decreases |s| - i
  {
    if i < |s| && t[i].None? {
      ScanEmptyIff(s, t, i + 1);
    }
  }

  /** A replacer that gives every match back unchanged leaves the text unchanged. */
  lemma {:induction false} RewriteByOwnText(s: string, t: seq<Option<Hit>>, i: nat, f: Hit -> string)
    requires WellFormed(s, t) && i <= |s|
    requires forall k :: i <= k < |s| && t[k].Some? ==> f(t[k].value) == t[k].value.text
    ensures Rewrite(s, t, i, f) == s[i..]
    decreases |s| - i
  {
    if i < |s| {
      var j := Next(s, t, i);
      RewriteByOwnText(s, t, j, f);
      assert s[i..] == s[i..j] + s[j..];
    }
  }

  /** A replacer that always shortens a match changes the text exactly when
      there is a match, and then makes it shorter. */
  lemma {:induction false} RewriteShrinks(s: string, t: seq<Option<Hit>>, i: nat, f: Hit -> string)
    requires WellFormed(s, t) && i <= |s|
    requires forall k :: i <= k < |s| && t[k].Some? ==> |f(t[k].value)| < |t[k].value.text|
    ensures |Rewrite(s, t, i, f)| <= |s| - i
    ensures |Rewrite(s, t, i, f)| == |s| - i <==> Scan(s, t, i) == []
    decreases |s| - i
  {
    if i < |s| {
      RewriteShrinks(s, t, Next(s, t, i), f);
    }
  }

  /** Replacing every match by nothing only deletes characters. */
  lemma {:induction false} DeleteIsSubseq(s: string, t: seq<Option<Hit>>, i: nat, f: Hit -> string)
    requires WellFormed(s, t) && i <= |s|
    requires forall h :: f(h) == ""
    ensures IsSubseq(Rewrite(s, t, i, f), s[i..])
    decreases |s| - i
  {
    if i == |s| {
      SubseqEmpty(s[i..]);
    } else {
      var j := Next(s, t, i);
      var piece := if t[i].Some? then "" else [s[i]];
      assert Rewrite(s, t, i, f) == piece + Rewrite(s, t, j, f);
      DeleteIsSubseq(s, t, j, f);
      assert IsSubseq(piece, s[i..j]) by {
        if t[i].Some? {
          SubseqEmpty(s[i..j]);
        } else {
          assert s[i..j] == [s[i]];
          SubseqRefl([s[i]]);
        }
      }
      SubseqConcat(piece, s[i..j], Rewrite(s, t, j, f), s[j..]);
      assert s[i..] == s[i..j] + s[j..];
    }
  }

  /** No match in the table starts inside another one. */
  predicate NonOverlapping(s: string, t: seq<Option<Hit>>)
    requires WellFormed(s, t)
  {
    forall k, k' :: 0 <= k < k' < |s| && t[k].Some? && k' < t[k].value.end ==> t[k'].None?
  }

  /** When matches cannot overlap, the scan reports every one of them. */
  lemma {:induction false} ScanComplete(s: string, t: seq<Option<Hit>>, i: nat, k: nat)
    requires WellFormed(s, t) && NonOverlapping(s, t)
    requires i <= k < |s| && t[k].Some?
    ensures t[k].value in Scan(s, t, i)
    decreases |s| - i
  {
    if i < k {
      assert Next(s, t, i) <= k;
      ScanComplete(s, t, Next(s, t, i), k);
    }
  }

  /** A capitalised tag start covers only word characters after its `<`, so no
      other one can begin inside it; hence the scan finds every tag start. */
  lemma CapitalTagsComplete(s: string, k: nat)
    requires k < |s| && MatchAt(CapitalTag, s, k).Some?
    ensures MatchAt(CapitalTag, s, k).value in Matches(CapitalTag, s)
  {
    var t := Table(CapitalTag, s);
    forall a, b | 0 <= a < b < |s| && t[a].Some? && b < t[a].value.end
      ensures t[b].None?
    {
      assert IsWord(s[b]);
    }
    ScanComplete(s, t, 0, k);
  }

  /** Every match in the table lies inside one that the scan reports: it is
      reported itself, or it starts inside an earlier reported match. */
  lemma {:induction false} ScanCovers(s: string, t: seq<Option<Hit>>, i: nat, k: nat) returns (h: Hit)
    requires WellFormed(s, t) && i <= k < |s| && t[k].Some?
    ensures h in Scan(s, t, i) && h.start <= k < h.end
    ensures h.start == k ==> h == t[k].value
    decreases |s| - i
  {
    var j := Next(s, t, i);
    if i == k {
      h := t[k].value;
    } else if j <= k {
      h := ScanCovers(s, t, j, k);
    } else {
      h := t[i].value;
    }
  }

  /** A `</tag>` of a word cannot begin inside another one, so the scan
      reports every `</tag>` of the text. */
  lemma CloseMarkersComplete(tag: string, s: string, k: nat)
    requires Word(tag) && HasAt(s, k, "</" + tag + ">")
    ensures MatchAt(CloseMarker(tag), s, k).Some?
    ensures MatchAt(CloseMarker(tag), s, k).value in Matches(CloseMarker(tag), s)
  {
    var t := Table(CloseMarker(tag), s);
    var m := "</" + tag + ">";
    forall a, b | 0 <= a < b < |s| && t[a].Some? && b < t[a].value.end
      ensures t[b].None?
    {
      HasAtChar(s, a, m, b - a);
      HasAtChar(s, b, m, 0);
      if b - a < 2 + |tag| {
        assert 2 <= b - a ==> m[b - a] == tag[b - a - 2];
      }
    }
    ScanComplete(s, t, 0, k);
  }

  /** The opening-tag expression for `tag`: `<tag\b[^>]*>` when `whole`,
      `<tag[^>]*>` otherwise. */
  function Opener(whole: bool, tag: string): Pattern {
    if whole then OpenMarker(tag) else PrefixOpenMarker(tag)
  }

  /** Every opening tag of `tag` in the text lies inside a match the scan
      reports, so a global replace erases all of it. */
  lemma OpenMarkersCovered(whole: bool, tag: string, s: string, k: nat)
    requires Word(tag) && k < |s| && MatchAt(Opener(whole, tag), s, k).Some?
    ensures exists h :: h in Matches(Opener(whole, tag), s) && h.start <= k && MatchAt(Opener(whole, tag), s, k).value.end <= h.end
  {
    var t := Table(Opener(whole, tag), s);
    var h := ScanCovers(s, t, 0, k);
    if h.start < k {
      MarkerInside(whole, tag, s, h.start, k);
    }
  }

  /** An opening tag that starts inside another one ends no later. */
  lemma MarkerInside(whole: bool, tag: string, s: string, a: nat, k: nat)
    requires Word(tag) && a < k
    requires MatchOpenMarker(tag, whole, s, a).Some? && k < MatchOpenMarker(tag, whole, s, a).value.end
    requires MatchOpenMarker(tag, whole, s, k).Some?
    ensures MatchOpenMarker(tag, whole, s, k).value.end <= MatchOpenMarker(tag, whole, s, a).value.end
  {
    var e := MatchOpenMarker(tag, whole, s, a).value.end;
    HasAtChar(s, k, "<" + tag, 0);
    OpensWith(tag, s, a, k);
    OpensWith(tag, s, k, e - 1);
  }

  /** Past its `<`, an opening `<tag` holds the tag's characters. */
  lemma OpensWith(tag: string, s: string, i: nat, j: nat)
    ensures HasAt(s, i, "<" + tag) && i < j <= i + |tag| ==> s[j] == tag[j - i - 1]
  {
    if HasAt(s, i, "<" + tag) && i < j <= i + |tag| {
      HasAtChar(s, i, "<" + tag, j - i);
      assert ("<" + tag)[j - i] == tag[j - i - 1];
    }
  }

  /** With the word boundary, the open marker of a capitalised tag name
      matches only where the capitalised-tag scan sees that very name. */
  lemma OpenMarkerNamesTag(tag: string, s: string, i: nat)
    requires Word(tag) && IsUpper(tag[0])
    requires MatchAt(OpenMarker(tag), s, i).Some?
    ensures MatchAt(CapitalTag, s, i).Some? && MatchAt(CapitalTag, s, i).value.group1 == tag
  {
    var n := i + 1 + |tag|;
    assert s[i..n] == "<" + tag;
    assert s[i] == '<';
    assert s[i + 1..n] == tag;
    assert s[i + 1] == tag[0];
    SkipWordAt(s, i + 1, tag);
  }

  /** As written, the open marker of `tag` also matches the opening tag of a
      longer name that begins with `tag`: `<CardList>` for `Card`. */
  lemma PrefixOpenMarkerOvershoots(tag: string, rest: string)
    requires Word(tag) && IsUpper(tag[0]) && Word(rest)
    ensures MatchAt(PrefixOpenMarker(tag), "<" + tag + rest + ">", 0).Some?
    ensures MatchAt(PrefixOpenMarker(tag), "<" + tag + rest + ">", 0).value.end == |tag| + |rest| + 2
    ensures MatchAt(CapitalTag, "<" + tag + rest + ">", 0).Some?
    ensures MatchAt(CapitalTag, "<" + tag + rest + ">", 0).value.group1 == tag + rest
  {
    var s := "<" + tag + rest + ">";
    var n := 1 + |tag| + |rest|;
    assert s[0..1 + |tag|] == "<" + tag;
    assert s[1..n] == tag + rest;
    assert s[n] == '>';
    assert SkipUntil(s, 1 + |tag|, '>') == n;
    SkipWordAt(s, 1, tag + rest);
  }

  /** `import` followed by a blank starts at `j`: what any import head needs. */
  predicate StartsHead(s: string, j: nat) {
    HasAt(s, j, "import") && j + 6 < |s| && IsSpace(s[j + 6])
  }

  /** Inside a word run `[e, f)` no head starts, except one whose `import`
      ends the run exactly, and only when the run ends at a blank. */
  lemma NoStartInWord(s: string, e: nat, f: nat)
    requires e <= f < |s| && !IsWord(s[f]) && forall j :: e <= j < f ==> IsWord(s[j])
    ensures forall j :: e <= j < f && j + 6 != f ==> !StartsHead(s, j)
    ensures !IsSpace(s[f]) ==> forall j :: e <= j < f ==> !StartsHead(s, j)
  {
    forall j | e <= j < f
      ensures j + 6 != f || !IsSpace(s[f]) ==> !StartsHead(s, j)
    {
      if f < j + 6 {
        HasAtChar(s, j, "import", f - j);
      }
    }
  }

  /** The pieces of an import head read from `i`: `import`, blanks up to `a`,
      the binding `[a, b)`, blanks up to `c`, `from`, blanks up to the quote. */
  lemma HeadParts(s: string, i: nat) returns (a: nat, b: nat, c: nat)
    requires ImportHead(s, i).Some?
    ensures var q := ImportHead(s, i).value.quote;
      i + 6 < a < b < c && c + 4 < q && HasAt(s, c, "from")
      && ImportHead(s, i).value.binding == s[a..b]
      && (forall k :: i + 6 <= k < a ==> IsSpace(s[k]))
      && (forall k :: a <= k < b ==> IsWord(s[k]))
      && (forall k :: b <= k < c ==> IsSpace(s[k]))
      && (forall k :: c + 4 <= k < q ==> IsSpace(s[k]))
      && SkipSpaces(s, b) == c && SkipSpaces(s, c + 4) == q
  {
    a := SkipSpaces(s, i + 6);
    b := SkipWord(s, a);
    c := SkipSpaces(s, b);
  }

  /** The text `import\s+(\w+)\s+from\s+['"]` laid out from `i`: blanks on
      `[i + 6, a)`, the binding on `[a, b)`, blanks on `[b, c)`, `from`,
      blanks on `[c + 4, q)` and a quote at `q`. */
  predicate HeadLayout(s: string, i: nat, a: nat, b: nat, c: nat, q: nat) {
    HasAt(s, i, "import") && i + 6 < a < b < c && c + 4 < q < |s|
    && (forall k :: i + 6 <= k < a ==> IsSpace(s[k]))
    && (forall k :: a <= k < b ==> IsWord(s[k]))
    && (forall k :: b <= k < c ==> IsSpace(s[k]))
    && HasAt(s, c, "from")
    && (forall k :: c + 4 <= k < q ==> IsSpace(s[k]))
    && IsQuote(s[q])
  }

  /** Every text the head expression accepts from `i` is read as that head:
      the runs of blanks and word characters can only be split one way. */
  lemma HeadAccepts(s: string, i: nat, a: nat, b: nat, c: nat, q: nat)
    requires HeadLayout(s, i, a, b, c, q)
    ensures ImportHead(s, i) == Some(Head(s[a..b], q))
  {
    HeadRuns(s, i, a, b, c, q);
  }

  /** Each run of a laid-out head ends where the next part begins. */
  lemma HeadRuns(s: string, i: nat, a: nat, b: nat, c: nat, q: nat)
    requires HeadLayout(s, i, a, b, c, q)
    ensures SkipSpaces(s, i + 6) == a && SkipWord(s, a) == b && SkipSpaces(s, b) == c && SkipSpaces(s, c + 4) == q
  {
    HasAtChar(s, c, "from", 0);
    assert !IsSpace(s[a]) && !IsWord(s[b]) && !IsSpace(s[c]) && !IsSpace(s[q]);
    SkipSpacesTo(s, i + 6, a);
    SkipWordTo(s, a, b);
    SkipSpacesTo(s, b, c);
    SkipSpacesTo(s, c + 4, q);
  }

  /** Every text that `from\s+['"]src\/components\/([^'"]+)['"]` accepts
      at `i` is matched there, with the quote-free path as group 1. */
  lemma SrcImportAccepts(s: string, i: nat, a: nat, c: nat)
    requires HasAt(s, i, "from") && i + 4 < a < |s|
    requires forall k :: i + 4 <= k < a ==> IsSpace(s[k])
    requires IsQuote(s[a]) && HasAt(s, a + 1, "src/components/")
    requires a + 16 < c < |s| && IsQuote(s[c])
    requires forall k :: a + 16 <= k < c ==> !IsQuote(s[k])
    ensures MatchSrcImport(s, i) == Some(Hit(i, c + 1, s[i..c + 1], s[a + 16..c], ""))
  {
    SrcRuns(s, i, a, c);
  }

  /** The blanks after `from` end at the quote, and the path at the next
      quote. */
  lemma SrcRuns(s: string, i: nat, a: nat, c: nat)
    requires i + 4 < a < |s| && forall k :: i + 4 <= k < a ==> IsSpace(s[k])
    requires IsQuote(s[a]) && a + 16 < c < |s| && IsQuote(s[c])
    requires forall k :: a + 16 <= k < c ==> !IsQuote(s[k])
    ensures SkipSpaces(s, i + 4) == a && SkipNonQuote(s, a + 16) == c
  {
    assert !IsSpace(s[a]);
    SkipSpacesTo(s, i + 4, a);
    SkipNonQuoteTo(s, a + 16, c);
  }

  /** Every text the relative-import expression of scripts/agent.js:230
      accepts at `i` is matched there: after the head's quote, `.`, an
      optional `/`, a word on `[e, f)` that does not start `components/`,
      `.vue` and a quote. */
  lemma RelativeImportAccepts(s: string, i: nat, a: nat, b: nat, c: nat, q: nat, e: nat, f: nat)
    requires HeadLayout(s, i, a, b, c, q)
    requires e < f && f + 4 < |s| && forall k :: e <= k < f ==> IsWord(s[k])
    requires q + 2 <= e <= q + 3 && s[q + 1] == '.' && (e == q + 2 || s[q + 2] == '/')
    requires !HasAt(s, e, "components/") && HasAt(s, f, ".vue") && IsQuote(s[f + 4])
    ensures MatchRelativeImport(s, i) == Some(Hit(i, f + 5, s[i..f + 5], s[a..b], s[e..f]))
  {
    HeadAccepts(s, i, a, b, c, q);
    RelativeAfterHead(s, i, Head(s[a..b], q), e, f);
  }

  /** Once the head is read, a relative path accepted after its quote
      completes the match. */
  lemma RelativeAfterHead(s: string, i: nat, h: Head, e: nat, f: nat)
    requires ImportHead(s, i) == Some(h)
    requires e < f && f + 4 < |s| && forall k :: e <= k < f ==> IsWord(s[k])
    requires h.quote + 2 <= e <= h.quote + 3 && s[h.quote + 1] == '.' && (e == h.quote + 2 || s[h.quote + 2] == '/')
    requires !HasAt(s, e, "components/") && HasAt(s, f, ".vue") && IsQuote(s[f + 4])
    ensures MatchRelativeImport(s, i) == Some(Hit(i, f + 5, s[i..f + 5], h.binding, s[e..f]))
  {
    RelativeHitAccepts(s, i, h, e, f);
    assert MatchRelativeImport(s, i) == RelativeHit(s, i, h);
  }

  /** The part of a relative import after its head, accepted after the
      head's quote, is matched. */
  lemma RelativeHitAccepts(s: string, i: nat, h: Head, e: nat, f: nat)
    requires i < h.quote < |s| && Word(h.binding)
    requires e < f && f + 4 < |s| && forall k :: e <= k < f ==> IsWord(s[k])
    requires h.quote + 2 <= e <= h.quote + 3 && s[h.quote + 1] == '.' && (e == h.quote + 2 || s[h.quote + 2] == '/')
    requires !HasAt(s, e, "components/") && HasAt(s, f, ".vue") && IsQuote(s[f + 4])
    ensures RelativeHit(s, i, h) == Some(Hit(i, f + 5, s[i..f + 5], h.binding, s[e..f]))
  {
    RelativePathAccepts(s, h.quote, e, f);
  }

  /** The path part of a relative import is read from the head's quote. */
  lemma RelativePathAccepts(s: string, q: nat, e: nat, f: nat)
    requires e < f && f + 4 < |s| && forall k :: e <= k < f ==> IsWord(s[k])
    requires q + 2 <= e <= q + 3 && s[q + 1] == '.' && (e == q + 2 || s[q + 2] == '/')
    requires !HasAt(s, e, "components/") && HasAt(s, f, ".vue") && IsQuote(s[f + 4])
    ensures RelativePath(s, q) == Some((e, f))
  {
    HasAtChar(s, f, ".vue", 0);
    SkipWordTo(s, e, f);
  }

  /** The text `\.\/components\/([A-Za-z0-9_]+)\.vue['"]` laid out after
      the quote at `q`, with the file name on `[q + 14, f)`. */
  predicate ComponentsPathAt(s: string, q: nat, f: nat) {
    HasAt(s, q + 1, "./components/") && q + 14 < f && f + 4 < |s|
    && (forall k :: q + 14 <= k < f ==> IsWord(s[k]))
    && HasAt(s, f, ".vue") && IsQuote(s[f + 4])
  }

  /** Every text the component-import expression of scripts/agent.js:286
      accepts at `i` is matched there: after the head's quote,
      `./components/`, a word on `[q + 14, f)`, `.vue` and a quote. */
  lemma ComponentsImportAccepts(s: string, i: nat, a: nat, b: nat, c: nat, q: nat, f: nat)
    requires HeadLayout(s, i, a, b, c, q)
    requires ComponentsPathAt(s, q, f)
    ensures MatchComponentsImport(s, i) == Some(Hit(i, f + 5, s[i..f + 5], s[a..b], s[q + 14..f]))
  {
    HeadAccepts(s, i, a, b, c, q);
    ComponentsAfterHead(s, i, Head(s[a..b], q), f);
  }

  /** Once the head is read, a component path accepted after its quote
      completes the match. */
  lemma ComponentsAfterHead(s: string, i: nat, h: Head, f: nat)
    requires ImportHead(s, i) == Some(h)
    requires ComponentsPathAt(s, h.quote, f)
    ensures MatchComponentsImport(s, i) == Some(Hit(i, f + 5, s[i..f + 5], h.binding, s[h.quote + 14..f]))
  {
    ComponentsHitAccepts(s, i, h, f);
    assert MatchComponentsImport(s, i) == ComponentsHit(s, i, h);
  }

  /** The part of a component import after its head, accepted after the
      head's quote, is matched. */
  lemma ComponentsHitAccepts(s: string, i: nat, h: Head, f: nat)
    requires i < h.quote < |s| && Word(h.binding)
    requires ComponentsPathAt(s, h.quote, f)
    ensures ComponentsHit(s, i, h) == Some(Hit(i, f + 5, s[i..f + 5], h.binding, s[h.quote + 14..f]))
  {
    HasAtChar(s, f, ".vue", 0);
    SkipWordTo(s, h.quote + 14, f);
  }

  /** An `import` that ends the binding of a head is followed by that head's
      `from` and then its quote, where a second `from` would be needed. */
  lemma NoHeadAtBinding(s: string, j: nat, b: nat, c: nat, q: nat)
    requires j + 6 == b < c && c + 4 < q < |s| && SkipSpaces(s, b) == c && HasAt(s, c, "from")
    requires IsSpace(s[c + 4]) && SkipSpaces(s, c + 4) == q && IsQuote(s[q])
    ensures ImportHead(s, j).None?
  {
    HasAtChar(s, q, "from", 0);
    if HasAt(s, j, "import") {
      forall k | 0 <= k < 4
        ensures IsWord("from"[k])
      {
      }
      SkipWordAt(s, c, "from");
    }
  }

  /** Where an import head lies, from just after its `i` to its quote, no
      other head starts, save possibly one whose `import` ends the binding. */
  lemma NoStartInHead(s: string, k: nat, a: nat, b: nat, c: nat, q: nat)
    requires k + 6 < a < b < c && c + 4 < q < |s| && HasAt(s, k, "import") && HasAt(s, c, "from") && IsQuote(s[q])
    requires forall x :: k + 6 <= x < a ==> IsSpace(s[x])
    requires forall x :: a <= x < b ==> IsWord(s[x])
    requires forall x :: b <= x < c ==> IsSpace(s[x])
    requires forall x :: c + 4 <= x < q ==> IsSpace(s[x])
    ensures forall x :: k < x <= q && x + 6 != b ==> !StartsHead(s, x)
  {
    NoStartInWord(s, a, b);
    forall x | k < x <= q && !(a <= x < b)
      ensures s[x] != 'i'
    {
      if x < k + 6 {
        HasAtChar(s, k, "import", x - k);
      } else if c <= x < c + 4 {
        HasAtChar(s, c, "from", x - c);
      }
    }
    forall x | k < x <= q && !(a <= x < b)
      ensures !StartsHead(s, x)
    {
      HasAtChar(s, x, "import", 0);
    }
  }

  /** A second import head cannot start inside the head read from `k`. */
  lemma HeadsApart(s: string, k: nat, j: nat)
    requires k < j && ImportHead(s, k).Some?
    ensures ImportHead(s, j).Some? ==> j > ImportHead(s, k).value.quote
  {
    var q := ImportHead(s, k).value.quote;
    var a, b, c := HeadParts(s, k);
    HeadsApartAt(s, k, j, a, b, c, q);
  }

  lemma HeadsApartAt(s: string, k: nat, j: nat, a: nat, b: nat, c: nat, q: nat)
    requires k + 6 < a < b < c && c + 4 < q < |s| && HasAt(s, k, "import") && HasAt(s, c, "from") && IsQuote(s[q])
    requires forall x :: k + 6 <= x < a ==> IsSpace(s[x])
    requires forall x :: a <= x < b ==> IsWord(s[x])
    requires forall x :: b <= x < c ==> IsSpace(s[x])
    requires forall x :: c + 4 <= x < q ==> IsSpace(s[x])
    requires SkipSpaces(s, b) == c && SkipSpaces(s, c + 4) == q
    ensures k < j <= q ==> ImportHead(s, j).None?
  {
    if k < j <= q {
      if j + 6 == b {
        NoHeadAtBinding(s, j, b, c, q);
      } else {
        NoStartInHead(s, k, a, b, c, q);
        NotHead(s, j);
      }
    }
  }

  /** After a quote, a path whose characters up to `e` are not `i`, a word
      `[e, f)`, `.vue` and a quote leave no room for an import head. */
  lemma NoStartInPath(s: string, q: nat, e: nat, f: nat)
    requires q < e <= f && f + 4 < |s| && HasAt(s, f, ".vue") && IsQuote(s[f + 4])
    requires forall x :: q < x < e ==> s[x] != 'i'
    requires forall x :: e <= x < f ==> IsWord(s[x])
    ensures forall x :: q < x < f + 5 ==> !StartsHead(s, x)
  {
    HasAtChar(s, f, ".vue", 0);
    NoStartInWord(s, e, f);
    forall x | f < x < f + 4
      ensures s[x] != 'i'
    {
      HasAtChar(s, f, ".vue", x - f);
    }
    forall x | q < x < f + 5 && !(e <= x < f)
      ensures !StartsHead(s, x)
    {
      HasAtChar(s, x, "import", 0);
    }
  }

  /** What a component import `h` reads after the head's quote at `q`:
      `./components/`, the file name (group 2), `.vue` and a quote. */
  predicate ComponentsTail(s: string, q: nat, h: Hit) {
    h.end <= |s| && HasAt(s, q + 1, "./components/") && q + 14 < h.end - 5 && h.group2 == s[q + 14..h.end - 5]
    && (forall x :: q + 14 <= x < h.end - 5 ==> IsWord(s[x]))
    && HasAt(s, h.end - 5, ".vue") && IsQuote(s[h.end - 1])
  }

  /** What a component import reads after its head's quote. */
  lemma ComponentsImportReads(s: string, k: nat)
    ensures MatchComponentsImport(s, k).Some? ==>
      ComponentsTail(s, ImportHead(s, k).value.quote, MatchComponentsImport(s, k).value)
  {
    if MatchComponentsImport(s, k).Some? {
      var hd := ImportHead(s, k).value;
      assert MatchComponentsImport(s, k) == ComponentsHit(s, k, hd);
      ComponentsHitReads(s, k, hd);
    }
  }

  /** The same, for the part of the match after a given head. */
  lemma ComponentsHitReads(s: string, k: nat, hd: Head)
    requires k < hd.quote < |s| && Word(hd.binding) && ComponentsHit(s, k, hd).Some?
    ensures ComponentsTail(s, hd.quote, ComponentsHit(s, k, hd).value)
  {
    var e := hd.quote + 14;
    var f := SkipWord(s, e);
    assert ComponentsHit(s, k, hd).value == Hit(k, f + 5, s[k..f + 5], hd.binding, s[e..f]);
  }

  /** No import head starts inside the path of a component import. */
  lemma ComponentsTailFree(s: string, k: nat)
    ensures MatchComponentsImport(s, k).Some? ==>
      forall x :: ImportHead(s, k).value.quote < x < MatchComponentsImport(s, k).value.end ==> ImportHead(s, x).None?
  {
    if MatchComponentsImport(s, k).Some? {
      var q := ImportHead(s, k).value.quote;
      var f := MatchComponentsImport(s, k).value.end - 5;
      ComponentsImportReads(s, k);
      ComponentsPathFree(s, q, f);
    }
  }

  /** No import head starts inside `./components/X.vue` and its closing
      quote, read after the quote at `q`. */
  lemma ComponentsPathFree(s: string, q: nat, f: nat)
    requires HasAt(s, q + 1, "./components/") && q + 14 < f && f + 4 < |s|
    requires forall x :: q + 14 <= x < f ==> IsWord(s[x])
    requires HasAt(s, f, ".vue") && IsQuote(s[f + 4])
    ensures forall x :: q < x < f + 5 ==> ImportHead(s, x).None?
  {
    var e := q + 14;
    forall x | q < x < e
      ensures s[x] != 'i'
    {
      HasAtChar(s, q + 1, "./components/", x - q - 1);
    }
    NoStartInPath(s, q, e, f);
    NoHeadWithoutStart(s, q + 1, f + 5);
  }

  /** Where no head can start, none is read. */
  lemma NotHead(s: string, j: nat)
    requires !StartsHead(s, j)
    ensures ImportHead(s, j).None?
  {
  }

  /** Where no head can start, none is read. */
  lemma NoHeadWithoutStart(s: string, lo: nat, hi: nat)
    requires forall x :: lo <= x < hi ==> !StartsHead(s, x)
    ensures forall x :: lo <= x < hi ==> ImportHead(s, x).None?
  {
    forall x | lo <= x < hi
      ensures ImportHead(s, x).None?
    {
      assert !StartsHead(s, x);
    }
  }

  /** No import head starts inside the path of a relative `.vue` import. */
  lemma RelativeTailFree(s: string, k: nat)
    requires MatchRelativeImport(s, k).Some?
    ensures forall x :: ImportHead(s, k).value.quote < x < MatchRelativeImport(s, k).value.end ==> ImportHead(s, x).None?
  {
    var q := ImportHead(s, k).value.quote;
    var p := RelativePath(s, q).value;
    NoStartInPath(s, q, p.0, p.1);
    NoHeadWithoutStart(s, q + 1, p.1 + 5);
  }

  /** A component import cannot start inside another one. */
  lemma ComponentsApart(s: string, a: nat, b: nat)
    requires a < b && MatchComponentsImport(s, a).Some? && b < MatchComponentsImport(s, a).value.end
    ensures MatchComponentsImport(s, b).None?
  {
    HeadsApart(s, a, b);
    ComponentsTailFree(s, a);
  }

  /** A relative `.vue` import cannot start inside another one. */
  lemma RelativeApart(s: string, a: nat, b: nat)
    requires a < b && MatchRelativeImport(s, a).Some? && b < MatchRelativeImport(s, a).value.end
    ensures MatchRelativeImport(s, b).None?
  {
    HeadsApart(s, a, b);
    RelativeTailFree(s, a);
  }

  /** Component imports cannot overlap, so the scan finds every one. */
  lemma ComponentsImportsComplete(s: string, k: nat)
    requires k < |s| && MatchAt(ComponentsVueImport, s, k).Some?
    ensures MatchAt(ComponentsVueImport, s, k).value in Matches(ComponentsVueImport, s)
  {
    var t := Table(ComponentsVueImport, s);
    forall a, b | 0 <= a < b < |s| && t[a].Some? && b < t[a].value.end
      ensures t[b].None?
    {
      ComponentsApart(s, a, b);
    }
    ScanComplete(s, t, 0, k);
  }

  /** Relative `.vue` imports cannot overlap, so the scan finds every one. */
  lemma RelativeImportsComplete(s: string, k: nat)
    requires k < |s| && MatchAt(RelativeVueImport, s, k).Some?
    ensures MatchAt(RelativeVueImport, s, k).value in Matches(RelativeVueImport, s)
  {
    var t := Table(RelativeVueImport, s);
    forall a, b | 0 <= a < b < |s| && t[a].Some? && b < t[a].value.end
      ensures t[b].None?
    {
      RelativeApart(s, a, b);
    }
    ScanComplete(s, t, 0, k);
  }
}

=== FILE: payload.dfy ===
/** Turning a model reply into the JSON text of a project specification
    (`getSpecFromAI`): trim the reply, strip a Markdown code fence, keep the
    text from the first `{` to the last `}`, and ask once more, with a blunter
    prompt, when there is none. The chat-completion service is a parameter:
    `ask(k, request)` is the reply to the `k`-th request of the run. */
module Payload {
  import opened Base
  import opened Text

  /** What the fence expressions remove: a leading three backticks, optionally
      followed by `lang`, `\r` and `\n`, and a trailing three backticks,
      optionally preceded by `\r` and `\n`. */
  function StripFences(s: string, lang: string): (r: string)
    ensures exists a, b :: 0 <= a <= b <= |s| && r == s[a..b]
    ensures !HasAt(s, 0, "```") && !EndsWith(s, "```") ==> r == s
  {
    var t := StripOpening(s, lang);
    var u := StripClosing(t);
    assert t == s[|s| - |t|..];
    assert u == s[|s| - |t|..|s| - |t| + |u|];
    u
  }

  /** What `\r?\n?` can match. */
  predicate LineBreak(t: string) {
    t == "" || t == "\r" || t == "\n" || t == "\r\n"
  }

  /** `s.replace(/^```(?:lang)?\r?\n?/, '')`: the removed prefix is the three
      backticks, then `lang` whenever it follows them, then the longest line
      break after that; the rest of `s` is kept. */
  function StripOpening(s: string, lang: string): (r: string)
    ensures |r| <= |s| && r == s[|s| - |r|..]
    ensures HasAt(s, 0, "```") ==> |s| - 3 - |lang| - 2 <= |r| <= |s| - 3
    ensures HasAt(s, 0, "```") ==>
      var m, k := if HasAt(s, 3, lang) then 3 + |lang| else 3, |s| - |r|;
      m <= k && LineBreak(s[m..k])
      && (k < |s| && s[m..k] == "" ==> s[k] != '\r' && s[k] != '\n')
      && (k < |s| && s[m..k] == "\r" ==> s[k] != '\n')
    ensures !HasAt(s, 0, "```") ==> r == s
  {
    if !HasAt(s, 0, "```") then s
    else
      var i := if HasAt(s, 3, lang) then 3 + |lang| else 3;
      var j := if i < |s| && s[i] == '\r' then i + 1 else i;
      var k := if j < |s| && s[j] == '\n' then j + 1 else j;
      assert s[i..k] == (if j > i then "\r" else "") + (if k > j then "\n" else "");
      s[k..]
  }

  /** `s.replace(/\r?\n?```$/, '')`: the leftmost match wins, so a closing
      `\r\n` goes with the backticks, and otherwise one `\r` or `\n` does. */
  function StripClosing(s: string): (r: string)
    ensures |r| <= |s| && r == s[..|r|]
    ensures EndsWith(s, "```") ==> |s| - 5 <= |r| <= |s| - 3
    ensures EndsWith(s, "```") ==>
      var k := |r|;
      LineBreak(s[k..|s| - 3])
      && (s[k..|s| - 3] == "" && k > 0 ==> s[k - 1] != '\r' && s[k - 1] != '\n')
      && (s[k..|s| - 3] == "\n" && k > 0 ==> s[k - 1] != '\r')
    ensures !EndsWith(s, "```") ==> r == s
  {
    if !EndsWith(s, "```") then s
    else
      var n := |s| - 3;
      if n >= 2 && s[n - 2] == '\r' && s[n - 1] == '\n' then s[..n - 2]
      else if n >= 1 && (s[n - 1] == '\r' || s[n - 1] == '\n') then s[..n - 1]
      else s[..n]
  }

  /** A payload wrapped in a fence labelled `lang`. */
  function Fence(x: string, lang: string): string {
    "```" + lang + "\n" + x + "\n```"
  }

  /** Fence stripping undoes fencing, unless the payload ends in `\r` (the
      `\r\n` before the closing backticks is then removed whole). */
  lemma StripFence(x: string, lang: string)
    requires |x| == 0 || x[|x| - 1] != '\r'
    ensures StripFences(Fence(x, lang), lang) == x
  {
    OpeningOfFence(x, lang);
    ClosingOfFence(x);
  }

  lemma OpeningOfFence(x: string, lang: string)
    ensures StripOpening(Fence(x, lang), lang) == x + "\n```"
  {
    var s := Fence(x, lang);
    var m := 3 + |lang|;
    assert s[..3] == "```";
    assert s[3..m] == lang;
    assert s[m] == '\n';
    assert s[m + 1..] == x + "\n```";
  }

  lemma ClosingOfFence(x: string)
    requires |x| == 0 || x[|x| - 1] != '\r'
    ensures StripClosing(x + "\n```") == x
  {
    var t := x + "\n```";
    assert t[|t| - 3..] == "```";
    assert t[|x|] == '\n';
    assert t[..|x|] == x;
  }

  /** The span of the greedy `/\{[\s\S]*\}/`: from the first `{` through the
      last `}`, when that `}` comes after it. */
  datatype Span = Span(start: nat, end: nat)

  /** No `}` comes after a `{`. */
  predicate NoObject(s: string) {
    forall i, j :: 0 <= i < j < |s| && s[i] == '{' ==> s[j] != '}'
  }

  function ObjectSpan(s: string): (r: Option<Span>)
    ensures r.None? <==> NoObject(s)
    ensures r.Some? ==> r.value.start < r.value.end <= |s|
    ensures r.Some? ==> s[r.value.start] == '{' && '{' !in s[..r.value.start]
    ensures r.Some? ==> s[r.value.end - 1] == '}' && '}' !in s[r.value.end..]
  {
    match (IndexOf(s, '{'), LastIndexOf(s, '}'))
    case (Some(i), Some(j)) =>
      if i < j then
        assert !NoObject(s) by {
          assert s[i] == '{' && s[j] == '}';
        }
        Some(Span(i, j + 1))
      else
        assert forall a :: 0 <= a < i ==> s[..i][a] == s[a];
        assert forall b :: j < b < |s| ==> s[j + 1..][b - j - 1] == s[b];
        None
    case _ => None
  }

  /** `text.match(/\{[\s\S]*\}/)`, the whole match. */
  function Extract(s: string): (r: Option<string>)
    ensures r.None? <==> NoObject(s)
    ensures r.Some? ==> |r.value| >= 2 && r.value[0] == '{' && r.value[|r.value| - 1] == '}'
  {
    match ObjectSpan(s)
    case None => None
    case Some(sp) => Some(s[sp.start..sp.end])
  }

  /** The JSON text `getSpecFromAI` takes from one reply, if any. */
  function Clean(reply: string): (r: Option<string>)
    ensures r.None? <==> NoObject(StripFences(Trim(reply), "json"))
    ensures r.Some? ==> |r.value| >= 2 && r.value[0] == '{' && r.value[|r.value| - 1] == '}'
  {
    Extract(StripFences(Trim(reply), "json"))
  }

  /** One chat-completion request: the system and the user message. */
  datatype Request = Request(system: string, user: string)

  /** The requests one `getSpecFromAI` made, and the JSON text it returned;
      `None` is the process exiting. */
  datatype Reply = Reply(calls: seq<Request>, spec: Option<string>)

  const RetrySuffix: string :=
    "\n\nIMPORTANTE: Devuelve SOLO el JSON, sin ninguna explicación, introducción ni texto adicional."

  /** `getSpecFromAI(openai, system, user, retry)`, whose first request is the
      `n`-th of the run. The retry is the same call with the blunter prompt and
      retrying switched off, so it makes one request and exits on failure. */
  function GetSpec(ask: (nat, Request) -> string, n: nat, system: string, user: string, retry: bool): (r: Reply)
    ensures 1 <= |r.calls| <= (if retry then 2 else 1)
    ensures r.calls[0] == Request(Trim(system), user)
    ensures |r.calls| == 2 <==> retry && Clean(ask(n, r.calls[0])).None?
    ensures |r.calls| == 2 ==> r.calls[1] == Request(Trim(system), user + RetrySuffix)
    ensures r.spec == Clean(ask(n + |r.calls| - 1, r.calls[|r.calls| - 1]))
  {
    var first := Request(Trim(system), user);
    var found := Clean(ask(n, first));
    if found.Some? || !retry then Reply([first], found)
    else
      var second := Request(Trim(system), user + RetrySuffix);
      Reply([first, second], Clean(ask(n + 1, second)))
  }
}

=== FILE: pipeline.dfy ===
/** The run of the generator (`main` and `generateMissingComponentsWithAI`):
    ask for a project specification, write its components, check their
    component imports, ask once more for the missing ones, stub whatever is
    still missing, and write the page. The chat-completion service, the
    JSON5 parser, the SFC compiler and the HTML tokenizer are parameters. */
module Pipeline {
  import opened Base
  import opened Text
  import opened Files
  import opened Payload
  import Balancer
  import Sfc
  import Deps
  import App

  /** What the parsed specification holds: `components` is `None` when it is
      not an array, `app` when there is no page entry. A reply whose
      components are not all file entries with string contents makes the
      code throw wherever it is read, which the model folds into `parse`
      returning `None`. */
  datatype ProjectSpec = ProjectSpec(components: Option<seq<Sfc.FileSpec>>, app: Option<Sfc.FileSpec>)

  /** The outside world: `ask(k, request)` is the reply to the `k`-th request
      of the run, `parse` is `JSON5.parse` (`None` when it throws), `valid`
      says whether the SFC compiler accepts a text and `lex` tokenizes a
      template. */
  datatype Env = Env(
    ask: (nat, Request) -> string,
    parse: string -> Option<ProjectSpec>,
    valid: string -> bool,
    lex: string -> Balancer.Lexed)

  /** The requests made; the components directory afterwards; the names the
      first dependency check reported missing; the names of the components
      generated (both rounds) and the names the page keeps; the directory as
      the last dependency check read it; and the page file, `None` when the
      process exited before writing it. */
  datatype Outcome = Outcome(
    calls: seq<Request>,
    dir: seq<File>,
    firstMissing: seq<string>,
    generated: seq<string>,
    names: seq<string>,
    checked: seq<File>,
    page: Option<File>)

  /** Every component imported by a `.vue` file, in the directory the last
      dependency check read and in the final directory, is among the names
      the page keeps, and each of those was generated or has a stub file. */
  predicate Closed(o: Outcome) {
    (forall n :: n in Deps.AllImports(o.checked) ==> n in o.names)
    && (forall n :: n in Deps.AllImports(o.dir) ==> n in o.names)
    && (forall n :: n in o.names ==> n in o.generated || Deps.Stub(n).name in Names(o.dir))
  }

  const Lead: string := "Descripción del dashboard: \""

  /** A written page is built from the kept names, and those are the
      generated names followed by the ones the last check still found
      missing. */
  predicate PageFromNames(v: Variant, app: Option<Sfc.FileSpec>, o: Outcome) {
    o.page.Some? ==> o.page == PageOf(v, app, o.names) && o.names == o.generated + Deps.Missing(o.checked, o.generated)
  }

  /** The first user message: the dashboard description, quoted verbatim
      after a fixed lead-in. */
  function UserSpec(prompt: string): (r: string)
    ensures |r| == |Lead| + |prompt| + 1 && HasAt(r, 0, Lead)
    ensures r[|Lead|..|r| - 1] == prompt && r[|r| - 1] == '"'
  {
    var r := Lead + prompt + "\"";
    assert r[..|Lead|] == Lead;
    assert r[|Lead|..|r| - 1] == prompt;
    r
  }

  const MissingHeader: string :=
    "\n\nGenera SOLO los siguientes " + "componentes Vue en formato " + "JSON válido (sin fences de " + "markdown):\n"

  /** The request for components only ends with a line break. */
  lemma HeaderEndsInBreak()
    ensures |MissingHeader| > 0 && MissingHeader[|MissingHeader| - 1] == '\n'
  {
  }

  /** One `- Name.vue` line per missing component. */
  function MissingLines(missing: seq<string>): (r: seq<string>)
    ensures |r| == |missing|
    ensures forall k :: 0 <= k < |r| ==>
      |r[k]| == |missing[k]| + 6 && HasAt(r[k], 0, "- ") && r[k][2..|r[k]| - 4] == missing[k] && EndsWith(r[k], ".vue")
    ensures forall k :: 0 <= k < |r| && '\n' !in missing[k] ==> '\n' !in r[k]
  {
    seq(|missing|, k requires 0 <= k < |missing| => "- " + missing[k] + ".vue")
  }

  /** The user message of the follow-up request: the first user message,
      the request for components only, and then, after a line break, the
      missing components one per line as `- Name.vue`, in order. */
  function MissingPrompt(prompt: string, missing: seq<string>): (r: string)
    ensures HasAt(r, 0, UserSpec(prompt) + MissingHeader)
    ensures EndsWith(r, "\n" + Join(MissingLines(missing)))
    ensures |r| == |UserSpec(prompt)| + |MissingHeader| + |Join(MissingLines(missing))|
  {
    var head := UserSpec(prompt) + MissingHeader;
    var tail := "\n" + Join(MissingLines(missing));
    HeaderEndsInBreak();
    var r := head + Join(MissingLines(missing));
    assert r[..|head|] == head;
    assert r[|r| - |tail|..] == tail by {
      assert r == head[..|head| - 1] + tail;
    }
    r
  }

  /** `path.basename(c.filename, '.vue')` for every component. */
  function SpecNames(comps: seq<Sfc.FileSpec>): (r: seq<string>)
    ensures |r| == |comps|
    ensures forall k :: 0 <= k < |r| ==> r[k] == BasenameWithout(comps[k].filename, ".vue")
  {
    seq(|comps|, k requires 0 <= k < |comps| => BasenameWithout(comps[k].filename, ".vue"))
  }

  /** The follow-up round's effect: its requests, whether the process exited,
      the directory afterwards and the names of the new components. */
  datatype Round = Round(calls: seq<Request>, exited: bool, dir: seq<File>, generated: seq<string>)

  /** What a reply text parses to: `None` when there is no text or the
      parser throws. */
  function Parsed(env: Env, text: Option<string>): Option<ProjectSpec> {
    if text.Some? then env.parse(text.value) else None
  }

  /** Whether the reply text parses to components one of which is named so
      that writing it fails. */
  predicate WriteFails(env: Env, text: Option<string>) {
    text.Some? && env.parse(text.value).Some? && env.parse(text.value).value.components.Some?
    && Sfc.Writable(env.parse(text.value).value.components.value) < |env.parse(text.value).value.components.value|
  }

  /** `generateMissingComponentsWithAI` for a non-empty `missing`, whose first
      request is the `n`-th of the run. */
  function FollowUp(v: Variant, env: Env, system: string, prompt: string, n: nat, missing: seq<string>, dir: seq<File>): (r: Round)
    requires WellNamed(dir)
    ensures 1 <= |r.calls| <= 2
    ensures r.calls[0] == Request(Trim(system), MissingPrompt(prompt, missing))
    ensures WellNamed(r.dir)
    ensures r.exited ==> r.generated == []
    ensures r.exited && r.dir != dir ==> WriteFails(env, GetSpec(env.ask, n, system, MissingPrompt(prompt, missing), true).spec)
    ensures var p := Parsed(env, GetSpec(env.ask, n, system, MissingPrompt(prompt, missing), true).spec);
      (p.None? ==> r.exited && r.dir == dir)
      && (p.Some? && p.value.components.None? ==> !r.exited && r.dir == dir && r.generated == [])
      && (p.Some? && p.value.components.Some? ==>
            var comps := p.value.components.value;
            r.exited == (Sfc.Writable(comps) < |comps|)
            && r.dir == Sfc.GenerateAll(v, env.valid, env.lex, dir, comps[..Sfc.Writable(comps)])
            && (!r.exited ==> r.generated == SpecNames(comps)))
  {
    var reply := GetSpec(env.ask, n, system, MissingPrompt(prompt, missing), true);
    match reply.spec
    case None => Round(reply.calls, true, dir, [])
    case Some(text) =>
      match env.parse(text)
      case None => Round(reply.calls, true, dir, [])
      case Some(spec) =>
        match spec.components
        case None => Round(reply.calls, false, dir, [])
        case Some(comps) =>
          var k := Sfc.Writable(comps);
          var written := Sfc.GenerateAll(v, env.valid, env.lex, dir, comps[..k]);
          if k < |comps| then Round(reply.calls, true, written, [])
          else
            assert comps[..k] == comps;
            Round(reply.calls, false, written, SpecNames(comps))
  }

  /** `main` from the first generated components on: the dependency checks,
      the follow-up round and the page. */
  function Finish(v: Variant, env: Env, system: string, prompt: string, calls: seq<Request>, dir: seq<File>,
                  generated: seq<string>, app: Option<Sfc.FileSpec>): (r: Outcome)
    requires WellNamed(dir) && 1 <= |calls| <= 2
    ensures WellNamed(r.dir)
    ensures |calls| <= |r.calls| <= |calls| + 2 && r.calls[..|calls|] == calls
    ensures r.firstMissing == Deps.Missing(dir, generated)
    ensures |r.firstMissing| == 0 ==> r.calls == calls
    ensures |r.firstMissing| > 0 ==> |r.calls| > |calls|
    ensures |r.firstMissing| > 0 ==> r.calls[|calls|] == Request(Trim(system), MissingPrompt(prompt, r.firstMissing))
    ensures r.page.Some? ==> Closed(r)
  {
    var first := Deps.ValidateAndStub(dir, generated);
    if |first.missing| == 0 then
      Deps.StubbedClosed(dir, generated);
      Outcome(calls, first.dir, [], generated, generated, dir, PageOf(v, app, generated))
    else
      var round := FollowUp(v, env, system, prompt, |calls|, first.missing, first.dir);
      var all := calls + round.calls;
      assert all[..|calls|] == calls;
      if round.exited then
        Outcome(all, round.dir, first.missing, generated, generated, first.dir, None)
      else
        var names := generated + round.generated;
        var second := Deps.ValidateAndStub(round.dir, names);
        Deps.StubbedClosed(round.dir, names);
        Outcome(all, second.dir, first.missing, names, names + second.missing, round.dir, PageOf(v, app, names + second.missing))
  }

  /** After the first components are written, the names generated so far
      stay first, and a written page is built from the kept names: the
      generated ones followed by those the last check still found missing. */
  lemma FinishNames(v: Variant, env: Env, system: string, prompt: string, calls: seq<Request>, dir: seq<File>,
                    generated: seq<string>, app: Option<Sfc.FileSpec>)
    requires WellNamed(dir) && 1 <= |calls| <= 2
    ensures var r := Finish(v, env, system, prompt, calls, dir, generated, app);
      |generated| <= |r.generated| && r.generated[..|generated|] == generated && PageFromNames(v, app, r)
  {
    var first := Deps.ValidateAndStub(dir, generated);
    if |first.missing| > 0 {
      var round := FollowUp(v, env, system, prompt, |calls|, first.missing, first.dir);
      if !round.exited {
        var names := generated + round.generated;
        assert names[..|generated|] == generated;
      }
    }
  }

  /** With nothing missing at the first check, the directory and names are
      left as they are and the page follows; otherwise the follow-up round
      decides the rest. */
  lemma FinishRounds(v: Variant, env: Env, system: string, prompt: string, calls: seq<Request>, dir: seq<File>,
                     generated: seq<string>, app: Option<Sfc.FileSpec>)
    requires WellNamed(dir) && 1 <= |calls| <= 2
    ensures var r := Finish(v, env, system, prompt, calls, dir, generated, app);
      (|r.firstMissing| == 0 ==>
         r.generated == generated && r.checked == dir && r.dir == Deps.ValidateAndStub(dir, generated).dir
         && r.page == PageOf(v, app, r.names))
      && (|r.firstMissing| > 0 ==> FollowedUp(v, env, system, prompt, calls, dir, generated, r))
  {
  }

  /** After a follow-up round for the first missing set: its requests come
      next; when it ends the run, no page is written; otherwise its names
      are appended to the generated ones, the second check reads the
      directory it left, and stubs are written for what is still missing. */
  predicate FollowedUp(v: Variant, env: Env, system: string, prompt: string, calls: seq<Request>, dir: seq<File>,
                       generated: seq<string>, o: Outcome)
    requires WellNamed(dir)
  {
    var round := FollowUp(v, env, system, prompt, |calls|, o.firstMissing, Deps.ValidateAndStub(dir, generated).dir);
    o.calls == calls + round.calls
    && (round.exited ==> o.page.None? && o.dir == round.dir)
    && (!round.exited ==>
          o.generated == generated + round.generated && o.checked == round.dir
          && o.dir == Deps.ValidateAndStub(round.dir, o.generated).dir)
  }

  /** Whether writing the page under base name `n` fails: `n` names the
      pages directory `src` or its parent, or it is `components`, the
      components directory made inside `src` before anything is written. */
  predicate PageBlocked(n: string) {
    NamesDirectory(n) || n == "components"
  }

  /** `generateAppFile`, which throws when the specification has no page and
      whose write fails when the page's base name is blocked. */
  function PageOf(v: Variant, app: Option<Sfc.FileSpec>, names: seq<string>): (r: Option<File>)
    ensures r.Some? <==> app.Some? && !PageBlocked(Basename(app.value.filename))
    ensures r.Some? ==> r.value.name == Basename(app.value.filename)
  {
    match app
    case None => None
    case Some(a) => if PageBlocked(Basename(a.filename)) then None else Some(App.Page(v, a, names))
  }

  /** The whole run for dashboard description `prompt`, starting from the
      components directory `dir`. */
  function Run(v: Variant, env: Env, system: string, prompt: string, dir: seq<File>): (r: Outcome)
    requires WellNamed(dir)
    ensures WellNamed(r.dir)
    ensures 1 <= |r.calls| <= 4
    ensures r.calls[0] == Request(Trim(system), UserSpec(prompt))
    ensures |r.firstMissing| == 0 ==> |r.calls| <= 2
    ensures |r.firstMissing| > 0 ==> exists k :: 0 <= k < |r.calls| && r.calls[k] == Request(Trim(system), MissingPrompt(prompt, r.firstMissing))
    ensures r.page.Some? ==> Closed(r)
  {
    var reply := GetSpec(env.ask, 0, system, UserSpec(prompt), true);
    var r := Proceed(v, env, system, prompt, dir, reply);
    assert r.calls[0] == r.calls[..|reply.calls|][0];
    r
  }

  /** The run once the first reply `reply` is in: its components are written
      up to the first one that cannot be, and when all are, `Finish` does the
      rest. */
  function Proceed(v: Variant, env: Env, system: string, prompt: string, dir: seq<File>, reply: Reply): (r: Outcome)
    requires WellNamed(dir) && 1 <= |reply.calls| <= 2
    ensures WellNamed(r.dir)
    ensures |reply.calls| <= |r.calls| <= |reply.calls| + 2 && r.calls[..|reply.calls|] == reply.calls
    ensures |r.firstMissing| == 0 ==> r.calls == reply.calls
    ensures |r.firstMissing| > 0 ==> |r.calls| > |reply.calls| && r.calls[|reply.calls|] == Request(Trim(system), MissingPrompt(prompt, r.firstMissing))
    ensures r.page.Some? ==> Closed(r)
  {
    var p := Parsed(env, reply.spec);
    if p.None? || p.value.components.None? then Outcome(reply.calls, dir, [], [], [], dir, None)
    else
      var comps := p.value.components.value;
      var k := Sfc.Writable(comps);
      var written := Sfc.GenerateAll(v, env.valid, env.lex, dir, comps[..k]);
      if k < |comps| then Outcome(reply.calls, written, [], [], [], dir, None)
      else
        assert comps[..k] == comps;
        Finish(v, env, system, prompt, reply.calls, written, SpecNames(comps), p.value.app)
  }

  /** When the first reply gives no components, nothing is written and no
      page is built; when some component cannot be written, the ones before
      it are written and the run stops there. */
  lemma RunStops(v: Variant, env: Env, system: string, prompt: string, dir: seq<File>)
    requires WellNamed(dir)
    ensures var r := Run(v, env, system, prompt, dir);
      var p := Parsed(env, GetSpec(env.ask, 0, system, UserSpec(prompt), true).spec);
      (p.None? || p.value.components.None? ==> r.page.None? && r.dir == dir && r.generated == [])
      && (p.Some? && p.value.components.Some? && Sfc.Writable(p.value.components.value) < |p.value.components.value| ==>
            var comps := p.value.components.value;
            r.page.None? && r.generated == [] && r.dir == Sfc.GenerateAll(v, env.valid, env.lex, dir, comps[..Sfc.Writable(comps)]))
  {
    var reply := GetSpec(env.ask, 0, system, UserSpec(prompt), true);
    assert Run(v, env, system, prompt, dir) == Proceed(v, env, system, prompt, dir, reply);
    var p := Parsed(env, reply.spec);
    if p.Some? && p.value.components.Some? {
      var comps := p.value.components.value;
      var k := Sfc.Writable(comps);
      if k < |comps| {
        assert Proceed(v, env, system, prompt, dir, reply)
          == Outcome(reply.calls, Sfc.GenerateAll(v, env.valid, env.lex, dir, comps[..k]), [], [], [], dir, None);
      }
    }
  }

  /** When every component of the first reply is written, the generated
      names start with the components' names in reply order, the first check
      reads the freshly written directory, and a written page is built from
      the kept names. */
  lemma RunFinishes(v: Variant, env: Env, system: string, prompt: string, dir: seq<File>)
    requires WellNamed(dir)
    ensures var r := Run(v, env, system, prompt, dir);
      var p := Parsed(env, GetSpec(env.ask, 0, system, UserSpec(prompt), true).spec);
      p.Some? && p.value.components.Some? && Sfc.Writable(p.value.components.value) == |p.value.components.value| ==>
        var comps := p.value.components.value;
        var written := Sfc.GenerateAll(v, env.valid, env.lex, dir, comps);
        |comps| <= |r.generated| && r.generated[..|comps|] == SpecNames(comps)
        && r.firstMissing == Deps.Missing(written, SpecNames(comps))
        && (|r.firstMissing| == 0 ==> r.checked == written)
        && PageFromNames(v, p.value.app, r)
  {
    var reply := GetSpec(env.ask, 0, system, UserSpec(prompt), true);
    var p := Parsed(env, reply.spec);
    if p.Some? && p.value.components.Some? && Sfc.Writable(p.value.components.value) == |p.value.components.value| {
      var comps := p.value.components.value;
      var written := Sfc.GenerateAll(v, env.valid, env.lex, dir, comps);
      RunHandsOver(v, env, system, prompt, dir);
      FinishNames(v, env, system, prompt, reply.calls, written, SpecNames(comps), p.value.app);
      FinishRounds(v, env, system, prompt, reply.calls, written, SpecNames(comps), p.value.app);
    }
  }

  /** With every component written, the rest of the run is `Finish` on the
      written directory and the components' names. */
  lemma RunHandsOver(v: Variant, env: Env, system: string, prompt: string, dir: seq<File>)
    requires WellNamed(dir)
    ensures var reply := GetSpec(env.ask, 0, system, UserSpec(prompt), true);
      var p := Parsed(env, reply.spec);
      p.Some? && p.value.components.Some? && Sfc.Writable(p.value.components.value) == |p.value.components.value| ==>
        var comps := p.value.components.value;
        WellNamed(Sfc.GenerateAll(v, env.valid, env.lex, dir, comps)) && 1 <= |reply.calls| <= 2
        && Run(v, env, system, prompt, dir)
           == Finish(v, env, system, prompt, reply.calls, Sfc.GenerateAll(v, env.valid, env.lex, dir, comps), SpecNames(comps), p.value.app)
  {
    var reply := GetSpec(env.ask, 0, system, UserSpec(prompt), true);
    assert Run(v, env, system, prompt, dir) == Proceed(v, env, system, prompt, dir, reply);
    var p := Parsed(env, reply.spec);
    if p.Some? && p.value.components.Some? && Sfc.Writable(p.value.components.value) == |p.value.components.value| {
      var comps := p.value.components.value;
      assert comps[..Sfc.Writable(comps)] == comps;
    }
  }
}

=== FILE: sfc.dfy ===
/** Writing the generated components (`generateComponents`): each one's code
    is trimmed, unfenced and has its `src/components/` imports made relative;
    then, while the single-file-component compiler rejects it, the first
    `<template>…</template>` region is rebuilt by the tag balancer, at most
    three checks in all; the file is written whatever the outcome. The
    compiler is the parameter `valid` and the HTML parser the parameter
    `lex`. */
module Sfc {
  import opened Base
  import opened Text
  import opened Patterns
  import opened Files
  import Balancer
  import Payload

  /** A file the model proposed: `{ filename, content }`. */
  datatype FileSpec = FileSpec(filename: string, content: string)

  /** The first match of `/<template>([\s\S]*?)<\/template>/`: `<template>`
      at `start` and `</template>` at `close`. */
  datatype Region = Region(start: nat, close: nat)

  const Opening: string := "<template>"
  const Closing: string := "</template>"

  /** No `</template>` follows a `<template>`. */
  predicate NoRegion(s: string) {
    forall a, b :: 0 <= a && a + 10 <= b < |s| && HasAt(s, a, Opening) ==> !HasAt(s, b, Closing)
  }

  /** The leftmost match starts at the first `<template>` (a later one could
      only close later still) and, the repetition being lazy, ends at the
      first `</template>` after it. */
  function TemplateRegion(s: string): (r: Option<Region>)
    ensures r.None? <==> NoRegion(s)
    ensures r.Some? ==> HasAt(s, r.value.start, Opening) && forall k :: 0 <= k < r.value.start ==> !HasAt(s, k, Opening)
    ensures r.Some? ==> r.value.start + 10 <= r.value.close && HasAt(s, r.value.close, Closing)
    ensures r.Some? ==> forall k :: r.value.start + 10 <= k < r.value.close ==> !HasAt(s, k, Closing)
  {
    match FindFrom(s, Opening, 0)
    case None => None
    case Some(a) =>
      match FindFrom(s, Closing, a + 10)
      case None =>
        assert NoRegion(s) by {
          forall a', b | 0 <= a' && a' + 10 <= b < |s| && HasAt(s, a', Opening)
            ensures !HasAt(s, b, Closing)
          {
            assert a' >= a;
          }
        }
        None
      case Some(b) =>
        assert !NoRegion(s) by {
          assert HasAt(s, a, Opening) && HasAt(s, b, Closing) && b < |s|;
        }
        Some(Region(a, b))
  }

  /** The region's text between the two tags, which is also what removing
      `^<template>` and `<\/template>$` from the whole match leaves. */
  function Inner(s: string, g: Region): (r: string)
    requires g.start + 10 <= g.close && g.close + 11 <= |s|
    ensures HasAt(s, g.start, Opening) && HasAt(s, g.close, Closing) ==> s[g.start..g.close + 11] == Opening + r + Closing
  {
    var r := s[g.start + 10..g.close];
    assert s[g.start..g.close + 11] == s[g.start..g.start + 10] + r + s[g.close..g.close + 11];
    r
  }

  /** `r` still has a region, starting where `g` starts in `s`, with the same
      text before it, and the text after it ends with what followed `g`. */
  predicate KeepsOutside(s: string, g: Region, r: string) {
    match TemplateRegion(r)
    case None => false
    case Some(h) =>
      h.start == g.start && g.start <= |s| && r[..g.start] == s[..g.start]
      && g.close + 11 <= |s| && EndsWith(r[h.close + 11..], s[g.close + 11..])
  }

  lemma KeepsOutsideRefl(s: string)
    ensures TemplateRegion(s).Some? ==> KeepsOutside(s, TemplateRegion(s).value, s)
  {
  }

  lemma KeepsOutsideTrans(s: string, m: string, r: string)
    requires TemplateRegion(s).Some? && TemplateRegion(m).Some?
    requires KeepsOutside(s, TemplateRegion(s).value, m)
    requires KeepsOutside(m, TemplateRegion(m).value, r)
    ensures KeepsOutside(s, TemplateRegion(s).value, r)
  {
    var g, h, k := TemplateRegion(s).value, TemplateRegion(m).value, TemplateRegion(r).value;
    EndsWithTrans(r[k.close + 11..], m[h.close + 11..], s[g.close + 11..]);
  }

  /** Replacing the region by `<template>fixed</template>`, taken literally. */
  function Splice(s: string, g: Region, fixed: string): (r: string)
    requires TemplateRegion(s) == Some(g)
    ensures KeepsOutside(s, g, r)
  {
    var r := s[..g.start] + (Opening + fixed + Closing) + s[g.close + 11..];
    SpliceKeepsOutside(s, g, fixed, r);
    r
  }

  lemma SpliceKeepsOutside(s: string, g: Region, fixed: string, r: string)
    requires TemplateRegion(s) == Some(g)
    requires r == s[..g.start] + (Opening + fixed + Closing) + s[g.close + 11..]
    ensures KeepsOutside(s, g, r)
  {
    var a, c := g.start, g.start + 10 + |fixed|;
    var tail := s[g.close + 11..];
    SpliceShape(s, g, fixed, r);
    SharedOpenings(s, r, a + 10);
    FirstRegion(r, a, c);
    var h := TemplateRegion(r).value;
    assert r[..a] == s[..a];
    assert r[h.close + 11..][|r[h.close + 11..]| - |tail|..] == tail;
  }

  lemma SpliceShape(s: string, g: Region, fixed: string, r: string)
    requires TemplateRegion(s) == Some(g)
    requires r == s[..g.start] + (Opening + fixed + Closing) + s[g.close + 11..]
    ensures HasAt(r, g.start, Opening) && HasAt(r, g.start + 10 + |fixed|, Closing)
    ensures r[..g.start + 10] == s[..g.start + 10]
  {
    var a, c := g.start, g.start + 10 + |fixed|;
    var pre, post := s[..a] + Opening, s[g.close + 11..];
    assert r == pre + (fixed + (Closing + post));
    assert r[..a + 10] == pre;
    assert r[a..a + 10] == Opening;
    assert r[c..] == Closing + post;
    assert r[c..c + 11] == Closing;
    assert s[..a + 10] == pre;
  }

  /** Two texts that agree up to `n` have the same openings wholly before `n`. */
  lemma SharedOpenings(s: string, r: string, n: nat)
    requires n <= |s| && n <= |r| && r[..n] == s[..n]
    ensures forall k :: 0 <= k && k + 10 <= n ==> (HasAt(r, k, Opening) <==> HasAt(s, k, Opening))
  {
    forall k | 0 <= k && k + 10 <= n
      ensures HasAt(r, k, Opening) <==> HasAt(s, k, Opening)
    {
      assert r[k..k + 10] == r[..n][k..k + 10];
      assert s[k..k + 10] == s[..n][k..k + 10];
    }
  }

  /** The first opening starts the region, which closes at the latest at any
      closing after it. */
  lemma FirstRegion(r: string, a: nat, c: nat)
    requires HasAt(r, a, Opening) && forall k :: 0 <= k < a ==> !HasAt(r, k, Opening)
    requires a + 10 <= c && HasAt(r, c, Closing)
    ensures TemplateRegion(r).Some? && TemplateRegion(r).value.start == a && TemplateRegion(r).value.close <= c
  {
    assert !NoRegion(r);
  }

  /** `replace` with a string replacement as ECMAScript's GetSubstitution
      reads it, for an expression without capture groups: `$$` is `$`, `$&`
      the match, `` $` `` the text before it and `$'` the text after it;
      every other `$` is literal. */
  function Substitute(t: string, matched: string, before: string, after: string): (r: string)
    ensures '$' !in t ==> r == t
    decreases |t|
  {
    if |t| == 0 then ""
    else if t[0] == '$' && |t| >= 2 && Piece(t[1], matched, before, after).Some? then
      Piece(t[1], matched, before, after).value + Substitute(t[2..], matched, before, after)
    else
      assert '$' !in t ==> '$' !in t[1..];
      assert t == [t[0]] + t[1..];
      [t[0]] + Substitute(t[1..], matched, before, after)
  }

  /** What `$c` stands for, when it is one of the four patterns. */
  function Piece(c: char, matched: string, before: string, after: string): Option<string> {
    if c == '$' then Some("$")
    else if c == '&' then Some(matched)
    else if c == '`' then Some(before)
    else if c == '\'' then Some(after)
    else None
  }

  /** The repair as written: `code.replace(/<template>[\s\S]*?<\/template>/,
      `<template>${fixedTemplate}</template>`)` passes the repaired template
      through `Substitute`, so it agrees with `Splice` only on `$`-free text. */
  function SpliceAsWritten(s: string, g: Region, fixed: string): string
    requires g.start + 10 <= g.close && g.close + 11 <= |s|
  {
    s[..g.start] + Substitute(Opening + fixed + Closing, s[g.start..g.close + 11], s[..g.start], s[g.close + 11..]) + s[g.close + 11..]
  }

  /** A repaired template that is just `$'` (as a template holding
      `{{ '$' + price }}` would be in part) gets the text after the region
      pasted into it by the as-written repair, where `Splice` writes the two
      characters. */
  lemma SpliceAsWrittenPastesSuffix(s: string, g: Region)
    requires g.start + 10 <= g.close && g.close + 11 <= |s|
    ensures SpliceAsWritten(s, g, "$'") == s[..g.start] + Opening + s[g.close + 11..] + Closing + s[g.close + 11..]
  {
    var pre, m, post := s[..g.start], s[g.start..g.close + 11], s[g.close + 11..];
    assert Substitute(Opening + "$'" + Closing, m, pre, post) == Opening + (post + Closing) by {
      TagsPlain();
      PastesAfter(Opening, Closing, m, pre, post);
    }
    Regroup(pre, Opening, post, Closing);
  }

  lemma Regroup(pre: string, o: string, post: string, c: string)
    ensures pre + (o + (post + c)) + post == pre + o + post + c + post
  {
  }

  lemma FramePlain(fixed: string)
    ensures '$' !in fixed ==> '$' !in Opening + fixed + Closing
  {
    TagsPlain();
  }

  lemma TagsPlain()
    ensures '$' !in Opening && '$' !in Closing
  {
  }

  lemma PastesAfter(a: string, c: string, m: string, before: string, after: string)
    requires '$' !in a && '$' !in c
    ensures Substitute(a + "$'" + c, m, before, after) == a + (after + c)
  {
    var u := "$'" + c;
    assert u[0] == '$' && u[1] == '\'' && u[2..] == c;
    assert Piece(u[1], m, before, after) == Some(after);
    assert Substitute(u, m, before, after) == after + Substitute(c, m, before, after);
    SubstitutePlain(a, u, m, before, after);
    assert a + "$'" + c == a + u;
  }

  /** On a `$`-free repaired template the as-written repair is the literal
      splice. */
  lemma SpliceAsWrittenPlain(s: string, g: Region, fixed: string)
    requires TemplateRegion(s) == Some(g)
    ensures '$' !in fixed ==> SpliceAsWritten(s, g, fixed) == Splice(s, g, fixed)
  {
    FramePlain(fixed);
  }

  /** A `$`-free head passes through unchanged. */
  lemma {:induction false} SubstitutePlain(a: string, b: string, m: string, before: string, after: string)
    requires '$' !in a
    ensures Substitute(a + b, m, before, after) == a + Substitute(b, m, before, after)
    decreases |a|
  {
    if |a| > 0 {
      assert a[0] != '$';
      assert (a + b)[0] == a[0] && (a + b)[1..] == a[1..] + b;
      assert Substitute(a + b, m, before, after) == [a[0]] + Substitute(a[1..] + b, m, before, after);
      assert '$' !in a[1..];
      SubstitutePlain(a[1..], b, m, before, after);
      assert a == [a[0]] + a[1..];
      assert [a[0]] + (a[1..] + Substitute(b, m, before, after)) == a + Substitute(b, m, before, after);
    } else {
      assert a + b == b;
    }
  }

  /** A `$`-free tail that does not start a `$` pattern passes through
      unchanged. */
  lemma {:induction false} SubstituteTail(x: string, c: string, m: string, before: string, after: string)
    requires '$' !in c && |c| > 0 && Piece(c[0], m, before, after).None?
    ensures Substitute(x + c, m, before, after) == Substitute(x, m, before, after) + c
    decreases |x|
  {
    if |x| == 0 {
      assert x + c == c;
    } else if x[0] == '$' && |x| >= 2 && Piece(x[1], m, before, after).Some? {
      SubstitutePiece(x, c, m, before, after);
    } else if x[0] == '$' && |x| == 1 {
      SubstituteDollar(x, c, m, before, after);
    } else {
      SubstituteChar(x, c, m, before, after);
    }
  }

  lemma {:induction false} SubstitutePiece(x: string, c: string, m: string, before: string, after: string)
    requires '$' !in c && |c| > 0 && Piece(c[0], m, before, after).None?
    requires |x| >= 2 && x[0] == '$' && Piece(x[1], m, before, after).Some?
    ensures Substitute(x + c, m, before, after) == Substitute(x, m, before, after) + c
    decreases |x|, 0
  {
    var t := x + c;
    assert t[0] == x[0] && t[1] == x[1] && t[2..] == x[2..] + c;
    SubstituteTail(x[2..], c, m, before, after);
  }

  lemma {:induction false} SubstituteDollar(x: string, c: string, m: string, before: string, after: string)
    requires '$' !in c && |c| > 0 && Piece(c[0], m, before, after).None?
    requires x == "$"
    ensures Substitute(x + c, m, before, after) == Substitute(x, m, before, after) + c
  {
    var t := x + c;
    assert t[0] == '$' && t[1] == c[0] && t[1..] == c;
  }

  lemma {:induction false} SubstituteChar(x: string, c: string, m: string, before: string, after: string)
    requires '$' !in c && |c| > 0 && Piece(c[0], m, before, after).None?
    requires |x| > 0 && !(x[0] == '$' && |x| >= 2 && Piece(x[1], m, before, after).Some?)
    ensures Substitute(x + c, m, before, after) == Substitute(x, m, before, after) + c
    decreases |x|, 0
  {
    var t := x + c;
    assert t[0] == x[0] && t[1..] == x[1..] + c;
    SubstituteTail(x[1..], c, m, before, after);
  }

  /** The repair as written is the literal splice of the repaired template
      after `$` substitution: the tags around it stay literal. */
  lemma SpliceAsWrittenIsSplice(s: string, g: Region, fixed: string)
    requires TemplateRegion(s) == Some(g)
    ensures SpliceAsWritten(s, g, fixed)
         == Splice(s, g, Substitute(fixed, s[g.start..g.close + 11], s[..g.start], s[g.close + 11..]))
  {
    var m, before, after := s[g.start..g.close + 11], s[..g.start], s[g.close + 11..];
    var sub := Substitute(fixed, m, before, after);
    assert SpliceAsWritten(s, g, fixed) == before + (Opening + sub + Closing) + after by {
      SpliceAsWrittenShape(s, g, fixed);
    }
  }

  lemma SpliceAsWrittenShape(s: string, g: Region, fixed: string)
    requires g.start + 10 <= g.close && g.close + 11 <= |s|
    ensures SpliceAsWritten(s, g, fixed) == s[..g.start]
      + (Opening + Substitute(fixed, s[g.start..g.close + 11], s[..g.start], s[g.close + 11..]) + Closing)
      + s[g.close + 11..]
  {
    var m, before, after := s[g.start..g.close + 11], s[..g.start], s[g.close + 11..];
    assert Substitute(Opening + fixed + Closing, m, before, after) == Opening + Substitute(fixed, m, before, after) + Closing by {
      SubstituteInTags(fixed, m, before, after);
    }
  }

  lemma SubstituteInTags(fixed: string, m: string, before: string, after: string)
    ensures Substitute(Opening + fixed + Closing, m, before, after) == Opening + Substitute(fixed, m, before, after) + Closing
  {
    TagsPlain();
    assert Closing[0] == '<';
    SubstituteBetween(Opening, fixed, Closing, m, before, after);
  }

  /** Only the middle of a text between two `$`-free pieces is substituted,
      when the second piece cannot complete a `$` pattern. */
  lemma SubstituteBetween(a: string, x: string, c: string, m: string, before: string, after: string)
    requires '$' !in a && '$' !in c && |c| > 0 && Piece(c[0], m, before, after).None?
    ensures Substitute(a + x + c, m, before, after) == a + Substitute(x, m, before, after) + c
  {
    SubstituteTail(x, c, m, before, after);
    SubstitutePlain(a, x + c, m, before, after);
    assert a + x + c == a + (x + c);
  }

  /** The splice of one repair step in variant `v`. */
  function Resplice(v: Variant, s: string, g: Region, fixed: string): (r: string)
    requires TemplateRegion(s) == Some(g)
    ensures KeepsOutside(s, g, r)
    ensures v == Corrected || '$' !in fixed ==> r == Splice(s, g, fixed)
  {
    if v == Corrected then Splice(s, g, fixed)
    else
      SpliceAsWrittenIsSplice(s, g, fixed);
      SpliceAsWrittenPlain(s, g, fixed);
      SpliceAsWritten(s, g, fixed)
  }

  /** The outcome of the repair loop: the code written, whether the compiler
      accepted it, and how many times the compiler was consulted. */
  datatype Checked = Checked(code: string, valid: bool, checks: nat)

  /** The `while (!valid && attempts < 3)` loop from attempt `attempts` on;
      `hadTemplate` is whether the code had a region before the loop. */
  function Repair(v: Variant, valid: string -> bool, lex: string -> Balancer.Lexed, code: string, hadTemplate: bool, attempts: nat): (r: Checked)
    requires attempts <= 3
    requires hadTemplate ==> TemplateRegion(code).Some?
    ensures r.checks <= 3 - attempts && (attempts < 3 ==> r.checks >= 1)
    ensures r.valid ==> valid(r.code)
    ensures !r.valid && hadTemplate ==> r.checks == 3 - attempts
    ensures !hadTemplate ==> r.code == code && r.checks == (if attempts < 3 then 1 else 0)
    ensures attempts < 3 && valid(code) ==> r == Checked(code, true, 1)
    ensures hadTemplate ==> KeepsOutside(code, TemplateRegion(code).value, r.code)
    decreases 3 - attempts
  {
    if attempts == 3 || valid(code) || !hadTemplate then
      KeepsOutsideRefl(code);
      Checked(code, attempts < 3 && valid(code), if attempts < 3 then 1 else 0)
    else
      var g := TemplateRegion(code).value;
      var next := Resplice(v, code, g, Balancer.Fix(lex(Inner(code, g))).fixedTemplate);
      var rest := Repair(v, valid, lex, next, hadTemplate, attempts + 1);
      KeepsOutsideTrans(code, next, rest.code);
      Checked(rest.code, rest.valid, rest.checks + 1)
  }

  /** The code of one component before validation: trimmed, unfenced, and
      with every `from 'src/components/X'` made `from './components/X'`. */
  function Prepare(content: string): (r: string)
    ensures var u := Payload.StripFences(Trim(content), "vue");
      |r| <= |u| && (r == u <==> Matches(SrcComponentsImport, u) == [])
    ensures var u := Payload.StripFences(Trim(content), "vue");
      Ordered(u, Matches(SrcComponentsImport, u), 0) && r == Spliced(u, Matches(SrcComponentsImport, u), RelativeFrom, 0)
  {
    var u := Payload.StripFences(Trim(content), "vue");
    var r := Replace(SrcComponentsImport, u, RelativeFrom);
    RelativeFromRewrite(u);
    r
  }

  function RelativeFrom(h: Hit): string {
    "from './components/" + h.group1 + "'"
  }

  /** The import rewrite makes the text shorter exactly when there is an
      import from `src/components/`, and leaves it alone otherwise. */
  lemma RelativeFromRewrite(s: string)
    ensures |Replace(SrcComponentsImport, s, RelativeFrom)| <= |s|
    ensures Replace(SrcComponentsImport, s, RelativeFrom) == s <==> Matches(SrcComponentsImport, s) == []
  {
    var t := Table(SrcComponentsImport, s);
    forall k | 0 <= k < |s| && t[k].Some?
      ensures |RelativeFrom(t[k].value)| < |t[k].value.text|
    {
      assert MatchAt(SrcComponentsImport, s, k) == t[k];
    }
    RewriteShrinks(s, t, 0, RelativeFrom);
    ScanEmptyIff(s, t, 0);
    if Scan(s, t, 0) == [] {
      RewriteByOwnText(s, t, 0, RelativeFrom);
    }
  }

  /** One component: prepared, then checked and repaired. */
  function Generate(v: Variant, valid: string -> bool, lex: string -> Balancer.Lexed, c: FileSpec): (r: Checked)
    ensures 1 <= r.checks <= 3
    ensures r.valid ==> valid(r.code)
    ensures var code := Prepare(c.content);
      (valid(code) ==> r == Checked(code, true, 1))
      && (TemplateRegion(code).None? ==> r == Checked(code, valid(code), 1))
      && (TemplateRegion(code).Some? ==> KeepsOutside(code, TemplateRegion(code).value, r.code))
      && (TemplateRegion(code).Some? && !r.valid ==> r.checks == 3)
  {
    var code := Prepare(c.content);
    Repair(v, valid, lex, code, TemplateRegion(code).Some?, 0)
  }

  /** How many components are written before the first whose base name
      names the components directory or its parent (`""`, `.`, `..`), where
      `writeFile` rejects and the run ends. */
  function Writable(comps: seq<FileSpec>): (k: nat)
    ensures k <= |comps|
    ensures forall j :: 0 <= j < k ==> !Unwritable(comps[j])
    ensures k < |comps| ==> Unwritable(comps[k])
  {
    var names := Targets(comps);
    assert forall j :: 0 <= j < |comps| ==> Unwritable(comps[j]) == NamesDirectory(names[j]);
    FirstDirectory(names)
  }

  /** The index of the first name that names a directory, or the length
      when none does. */
  function FirstDirectory(names: seq<string>): (k: nat)
    ensures k <= |names|
    ensures forall j :: 0 <= j < k ==> !NamesDirectory(names[j])
    ensures k < |names| ==> NamesDirectory(names[k])
    decreases |names|
  {
    if |names| == 0 || NamesDirectory(names[0]) then 0
    else
      var rest := names[1..];
      assert forall j :: 1 <= j < |names| ==> names[j] == rest[j - 1];
      1 + FirstDirectory(rest)
  }

  /** Whether the component's base name names the components directory or
      its parent. */
  predicate Unwritable(c: FileSpec) {
    NamesDirectory(Basename(c.filename))
  }

  /** The file name each component is written under. */
  function Targets(comps: seq<FileSpec>): seq<string> {
    seq(|comps|, k requires 0 <= k < |comps| => Basename(comps[k].filename))
  }

  /** `generateComponents(components, compDir)`: every component is written
      under its base name, valid or not; of several with one name the last
      one's code stays; no other file changes. */
  function GenerateAll(v: Variant, valid: string -> bool, lex: string -> Balancer.Lexed, dir: seq<File>, comps: seq<FileSpec>): (r: seq<File>)
    requires WellNamed(dir)
    ensures WellNamed(r)
  {
    WriteAll(dir, Targets(comps), Codes(v, valid, lex, comps))
  }

  /** The text written for every component. */
  function Codes(v: Variant, valid: string -> bool, lex: string -> Balancer.Lexed, comps: seq<FileSpec>): (r: seq<string>)
    ensures |r| == |comps|
  {
    seq(|comps|, k requires 0 <= k < |comps| => Generate(v, valid, lex, comps[k]).code)
  }

  /** Every component's file is listed afterwards; a file name holds the
      code of the last component written under it; any other file is as it
      was. */
  lemma GenerateAllWrites(v: Variant, valid: string -> bool, lex: string -> Balancer.Lexed, dir: seq<File>, comps: seq<FileSpec>, n: string)
    requires WellNamed(dir)
    ensures var r, names := GenerateAll(v, valid, lex, dir, comps), Targets(comps);
      (n in names ==> n in Names(r))
      && (forall k :: 0 <= k < |comps| && names[k] == n && n !in names[k + 1..] ==>
            Read(r, n) == Some(Generate(v, valid, lex, comps[k]).code))
      && (n !in names ==> Read(r, n) == Read(dir, n))
  {
    var names, codes := Targets(comps), Codes(v, valid, lex, comps);
    WriteAllReads(dir, names, codes, n);
  }
}

=== FILE: text.dfy ===
/** Character classes and string operations of JavaScript that the generator
    relies on: the `\s` and `\w` regular-expression classes, the line
    terminators excluded by `.`, `String.prototype.trim`, and
    `split('\n')` / `join('\n')`. */
module Text {
  import opened Base

  /** JavaScript `\s`: the WhiteSpace and LineTerminator code points. `trim`
      removes exactly these. */
  predicate IsSpace(c: char) {
    c == '\t' || c == '\n' || c == '\U{B}' || c == '\U{C}' || c == '\r' || c == ' '
    || c == '\U{A0}' || c == '\U{1680}' || ('\U{2000}' <= c <= '\U{200A}')
    || c == '\U{2028}' || c == '\U{2029}' || c == '\U{202F}' || c == '\U{205F}'
    || c == '\U{3000}' || c == '\U{FEFF}'
  }

  /** JavaScript `\w`, which is also the class `[A-Za-z0-9_]`. */
  predicate IsWord(c: char) {
    ('A' <= c <= 'Z') || ('a' <= c <= 'z') || ('0' <= c <= '9') || c == '_'
  }

  predicate IsUpper(c: char) {
    'A' <= c <= 'Z'
  }

  /** The characters that the regular-expression `.` does not match. */
  predicate IsLineTerminator(c: char) {
    c == '\n' || c == '\r' || c == '\U{2028}' || c == '\U{2029}'
  }

  /** The class `['"]`. */
  predicate IsQuote(c: char) {
    c == '\'' || c == '"'
  }

  /** `lit` occurs in `s` starting at index `i`. */
  predicate HasAt(s: string, i: nat, lit: string) {
    i + |lit| <= |s| && s[i..i + |lit|] == lit
  }

  /** The characters of a literal found at `i`. */
  lemma HasAtChar(s: string, i: nat, lit: string, j: nat)
    ensures HasAt(s, i, lit) && j < |lit| ==> s[i + j] == lit[j]
  {
    if HasAt(s, i, lit) && j < |lit| {
      assert s[i..i + |lit|][j] == s[i + j];
    }
  }

  predicate EndsWith(s: string, suffix: string) {
    |suffix| <= |s| && s[|s| - |suffix|..] == suffix
  }

  /** A non-empty run of `\w` characters, as `(\w+)` captures. */
  predicate Word(w: string) {
    |w| > 0 && forall k :: 0 <= k < |w| ==> IsWord(w[k])
  }

  lemma EndsWithTrans(a: string, b: string, c: string)
    requires EndsWith(a, b) && EndsWith(b, c)
    ensures EndsWith(a, c)
  {
    assert a[|a| - |c|..] == a[|a| - |b|..][|b| - |c|..];
  }

  predicate AllSpace(s: string) {
    forall i :: 0 <= i < |s| ==> IsSpace(s[i])
  }

  /** The first index at or after `from` where `lit` occurs. */
  function FindFrom(s: string, lit: string, from: nat): (r: Option<nat>)
    ensures r.Some? ==> from <= r.value && HasAt(s, r.value, lit)
    ensures r.Some? ==> forall k :: from <= k < r.value ==> !HasAt(s, k, lit)
    ensures r.None? ==> forall k :: from <= k ==> !HasAt(s, k, lit)
    decreases |s| - from
  {
    if from + |lit| > |s| then None
    else if s[from..from + |lit|] == lit then Some(from)
    else FindFrom(s, lit, from + 1)
  }

  /** The first index at or after `from` holding `c`, or `|s|` if there is none. */
  function SkipUntil(s: string, from: nat, c: char): (j: nat)
    requires from <= |s|
    ensures from <= j <= |s|
    ensures forall k :: from <= k < j ==> s[k] != c
    ensures j < |s| ==> s[j] == c
    decreases |s| - from
  {
    if from == |s| || s[from] == c then from else SkipUntil(s, from + 1, c)
  }

  /** End of the longest run of `\s` characters starting at `from`. */
  function SkipSpaces(s: string, from: nat): (j: nat)
    requires from <= |s|
    ensures from <= j <= |s|
    ensures forall k :: from <= k < j ==> IsSpace(s[k])
    ensures j < |s| ==> !IsSpace(s[j])
    decreases |s| - from
  {
    if from == |s| || !IsSpace(s[from]) then from else SkipSpaces(s, from + 1)
  }

  /** End of the longest run of `\w` characters starting at `from`. */
  function SkipWord(s: string, from: nat): (j: nat)
    requires from <= |s|
    ensures from <= j <= |s|
    ensures forall k :: from <= k < j ==> IsWord(s[k])
    ensures j < |s| ==> !IsWord(s[j])
    decreases |s| - from
  {
    if from == |s| || !IsWord(s[from]) then from else SkipWord(s, from + 1)
  }

  /** A single blank followed by a non-blank is the run `SkipSpaces` finds. */
  lemma SkipOneSpace(s: string, a: nat)
    requires a + 1 < |s| && IsSpace(s[a]) && !IsSpace(s[a + 1])
    ensures SkipSpaces(s, a) == a + 1
  {
  }

  /** A word run ending where a non-word character (or the end) follows is
      what `SkipWord` finds. */
  lemma {:induction false} SkipWordAt(s: string, a: nat, w: string)
    requires HasAt(s, a, w) && forall k :: 0 <= k < |w| ==> IsWord(w[k])
    requires a + |w| == |s| || !IsWord(s[a + |w|])
    ensures SkipWord(s, a) == a + |w|
    decreases |w|
  {
    if |w| > 0 {
      assert s[a] == w[0];
      assert s[a + 1..a + |w|] == w[1..];
      SkipWordAt(s, a + 1, w[1..]);
    }
  }

  /** A run of blanks ending at a non-blank is the run `SkipSpaces` finds. */
  lemma {:induction false} SkipSpacesTo(s: string, from: nat, stop: nat)
    requires from <= stop < |s| && !IsSpace(s[stop])
    requires forall k :: from <= k < stop ==> IsSpace(s[k])
    ensures SkipSpaces(s, from) == stop
    decreases stop - from
  {
    if from < stop {
      SkipSpacesTo(s, from + 1, stop);
    }
  }

  /** A run of word characters ending at a non-word character (or the end)
      is the run `SkipWord` finds. */
  lemma {:induction false} SkipWordTo(s: string, from: nat, stop: nat)
    requires from <= stop <= |s| && (stop == |s| || !IsWord(s[stop]))
    requires forall k :: from <= k < stop ==> IsWord(s[k])
    ensures SkipWord(s, from) == stop
    decreases stop - from
  {
    if from < stop {
      SkipWordTo(s, from + 1, stop);
    }
  }

  /** A quote-free run ending at a quote is the run `SkipNonQuote` finds. */
  lemma {:induction false} SkipNonQuoteTo(s: string, from: nat, stop: nat)
    requires from <= stop < |s| && IsQuote(s[stop])
    requires forall k :: from <= k < stop ==> !IsQuote(s[k])
    ensures SkipNonQuote(s, from) == stop
    decreases stop - from
  {
    if from < stop {
      SkipNonQuoteTo(s, from + 1, stop);
    }
  }

  /** End of the longest run of characters other than quotes (`[^'"]*`). */
  function SkipNonQuote(s: string, from: nat): (j: nat)
    requires from <= |s|
    ensures from <= j <= |s|
    ensures forall k :: from <= k < j ==> !IsQuote(s[k])
    ensures j < |s| ==> IsQuote(s[j])
    decreases |s| - from
  {
    if from == |s| || IsQuote(s[from]) then from else SkipNonQuote(s, from + 1)
  }

  function TrimEnd(s: string): (r: string)
    ensures |r| <= |s| && r == s[..|r|]
    ensures forall k :: |r| <= k < |s| ==> IsSpace(s[k])
    ensures |r| > 0 ==> !IsSpace(r[|r| - 1])
    decreases |s|
  {
    if |s| > 0 && IsSpace(s[|s| - 1]) then TrimEnd(s[..|s| - 1]) else s
  }

  /** `String.prototype.trim`: the text between the leading and the trailing
      blanks, which are all that is removed. */
  function Trim(s: string): (r: string)
    ensures SkipSpaces(s, 0) + |r| <= |s| && r == s[SkipSpaces(s, 0)..SkipSpaces(s, 0) + |r|]
    ensures forall k :: 0 <= k < SkipSpaces(s, 0) ==> IsSpace(s[k])
    ensures forall k :: SkipSpaces(s, 0) + |r| <= k < |s| ==> IsSpace(s[k])
    ensures |r| > 0 ==> !IsSpace(r[0]) && !IsSpace(r[|r| - 1])
  {
    var a := SkipSpaces(s, 0);
    var r := TrimEnd(s[a..]);
    assert forall k :: a + |r| <= k < |s| ==> s[k] == s[a..][k - a];
    r
  }

  /** `s.split('\n')`: always at least one piece. */
  function Split(s: string): (r: seq<string>)
    ensures |r| >= 1
    ensures forall k :: 0 <= k < |r| ==> '\n' !in r[k]
    decreases |s|
  {
    match IndexOf(s, '\n')
    case None => [s]
    case Some(i) =>
      var rest := Split(s[i + 1..]);
      assert forall k :: 1 <= k < |rest| + 1 ==> ([s[..i]] + rest)[k] == rest[k - 1];
      [s[..i]] + rest
  }

  /** `lines.join('\n')`. */
  function Join(lines: seq<string>): string
    decreases |lines|
  {
    if |lines| == 0 then ""
    else if |lines| == 1 then lines[0]
    else lines[0] + "\n" + Join(lines[1..])
  }

  lemma JoinCons(a: string, rest: seq<string>)
    requires |rest| >= 1
    ensures Join([a] + rest) == a + "\n" + Join(rest)
  {
    assert ([a] + rest)[1..] == rest;
  }

  /** Joining the pieces of a split gives back the text. */
  lemma {:induction false} JoinSplit(s: string)
    ensures Join(Split(s)) == s
    decreases |s|
  {
    match IndexOf(s, '\n')
    case None =>
    case Some(i) =>
      var a, b := s[..i], s[i + 1..];
      assert s == a + "\n" + b;
      SplitCons(a, b);
      JoinCons(a, Split(b));
      JoinSplit(b);
  }

  lemma SplitCons(a: string, b: string)
    requires '\n' !in a
    ensures Split(a + "\n" + b) == [a] + Split(b)
  {
    var s := a + "\n" + b;
    var r := IndexOf(s, '\n').value;
    assert s[|a|] == '\n';
    assert forall k :: 0 <= k < r ==> s[..r][k] == s[k];
    assert forall k :: 0 <= k < |a| ==> a[k] == s[k];
    assert r == |a|;
    assert s[..r] == a;
    assert s[r + 1..] == b;
  }

  /** Splitting a join of newline-free lines gives back the lines. */
  lemma {:induction false} SplitJoin(lines: seq<string>)
    requires |lines| >= 1
    requires forall i :: 0 <= i < |lines| ==> '\n' !in lines[i]
    ensures Split(Join(lines)) == lines
    decreases |lines|
  {
    if |lines| > 1 {
      var a, rest := lines[0], lines[1..];
      assert lines == [a] + rest;
      calc {
        Split(Join(lines));
        { JoinCons(a, rest); }
        Split(a + "\n" + Join(rest));
        { SplitCons(a, Join(rest)); }
        [a] + Split(Join(rest));
        { SplitJoin(rest); }
        [a] + rest;
      }
    }
  }
}
